=== FILE: README.md ===
# IngeniaBot core in Dafny

IngeniaBot is a WhatsApp assistant for university students, written in
JavaScript. Most of that repository is transport wiring, SQL and fixed copy.
This project models the small decision procedures inside it as pure functions
over immutable data, and proves what they promise:

- **Router** (`procesarMensaje`): lower-casing and trimming the text, then the
  fixed test order. The order is exact menu command, all-digit option, keyword
  substring, and the AI fallback. Also covered: the reply built around an AI
  answer.
- **Inbound**: the `messages.upsert` handler. It decides which messages are
  ignored and extracts the phone and text. It then looks up or registers the
  student, welcomes a new one, replies, logs the exchange with its AI flag, and
  apologizes when anything throws. The database and the socket form an
  abstract store. The handler's run is the trace of `Effect`s it produces.
- **AiService** and **Gemini**: the FAQ short-circuit (similarity above 0.65),
  prompt assembly, the never-throwing fallback, and the keyword classifiers.
  Also how a completion response is classified and how error messages are
  rewritten.
- **Agenda**: the viewing and cancelling lists of appointments, and the
  remaining-time bands. Also the unanchored `D/M/YYYY H:MM` extraction with its
  not-in-the-past check.
- **Payments** and **CourseList**: the payment summary, with its partition,
  totals and truncation, and the course summary, with its numbering, optional
  lines and credit total.
- **Timeouts**: the inactivity timeout manager as a map-valued state machine
  over abstract timer handles. A timer's callback is split into its two steps.
- **InstanceLock**: the single-instance lease file as a state machine over
  `(lease file, flag)`.

`Text` holds the JavaScript string primitives the code relies on:
`toLowerCase`, `trim`, `includes`, `replace` of the first occurrence,
`parseInt` on digit strings, and decimal printing. `Records` holds the
database rows. `Wrappers` holds `Option` and `Result`.

The clock, the hour of the day, date formatting and calendar conversion are
parameters, and so is the outcome of every store or socket call. Money is
integer cents.

Where the menu copy and the router disagree, the model follows the router.
The menu text offers six options, with 3 for the agenda, 4 for wellbeing, 5 for support and 6 for admission.
`procesarMensaje` sends 3 to wellbeing, 4 to support and 5 to admission, and
answers 6 with the invalid-option text (`Router.SixIsInvalid`).

The exchange log marks a reply as AI-written exactly when it contains the
robot emoji. The main menu and the invalid-option text both contain that
emoji, so both are logged as AI answers (`Inbound.MenuLoggedAsAi`,
`Inbound.InvalidOptionLoggedAsAi`). The model keeps that behaviour as written.

## Model

| member | source | states |
|---|---|---|
| Text.Lower | src/index.js:89 | `toLowerCase`: same length, character by character the lowered character |
| Text.LowerChar | src/index.js:89 | a lowered character is never upper case, leaves other characters alone, and keeps white space white space |
| Text.LowerOfLowered | src/index.js:89 | lower-casing text that is already lower case changes nothing |
| Text.TrimStart | src/index.js:89 | drops exactly the leading white space: the result is a suffix, everything dropped is white space, and the result does not start with white space |
| Text.TrimEnd | src/index.js:89 | drops exactly the trailing white space: the result is a prefix, everything dropped is white space, and the result does not end with white space |
| Text.Trim | src/index.js:89 | `trim`: the result is the infix of the input between a white-space prefix and a white-space suffix, it neither starts nor ends with white space, and it is empty exactly when the input is all white space |
| Text.TrimInfix | src/index.js:89 | cutting the front and then the back keeps the infix that starts where the leading white space ends, with only white space after it |
| Text.TrimParts | src/index.js:89 | trimming adds no character, and trims to empty exactly when the text is all white space |
| Text.TrimOfTrimmed | src/index.js:89 | trimming text with no white space at either end changes nothing |
| Text.BlankIffAllSpace | src/services/aiService.js:35 | `trim().length === 0` holds exactly when every character is white space |
| Text.IndexOf | src/index.js:258 | finds the leftmost occurrence of a pattern, and finds none exactly when the pattern does not occur |
| Text.ReplaceFirst | src/index.js:258 | `replace` with a string pattern: text without the pattern is unchanged, otherwise the leftmost occurrence is replaced |
| Text.CountContained | src/services/aiService.js:111-112 | the number of listed words that occur is at most the list's length, and is zero exactly when none occurs |
| Text.CountIsDistinctPresent | src/services/aiService.js:111-112 | for a list without duplicates, that number is the size of the set of listed words present in the text |
| Text.NatToString | src/index.js:114 | a number printed in decimal is all digits without a leading zero |
| Text.ParseNatToString | src/index.js:99 | `parseInt` of the printed number gives the number back |
| Text.IntToString | src/handlers/cursosHandler.js:38 | a signed number prints as its magnitude's digits, with a minus sign exactly when negative |
| Text.ConcatContains | src/handlers/cursosHandler.js:22-36 | every part of a concatenation occurs in it |
| Router.Normalize | src/index.js:89 | the normalized text is the lower-cased raw text with exactly its leading and trailing white space cut off: an infix of it with only white space around it, lower case, and with no white space at either end |
| Router.NormalizeIdempotent | src/index.js:89 | normalizing twice is normalizing once |
| Router.PlainIsNormal | src/index.js:89 | text already lower case and trimmed is its own normal form |
| Router.ClassifyIgnoresCaseAndPadding | src/index.js:89 | routing sees only the normalized text: normalizing first changes no route |
| Router.ShoutedMenuIsMenu | src/index.js:89-94 | `" MENÚ\n"` routes to the main menu |
| Router.Dispatch | src/index.js:92-163 | the main menu is chosen exactly when the text is one of the six menu commands, before any other test, and all-digit text never goes to the AI; `Router.DigitsAreOptions`, `Router.KeywordsInOrder` and `Router.AskAiIffNothingMatched` state the digit and keyword tests |
| Router.Classify | src/index.js:88-92 | the raw text is routed by its normalized form: the main menu exactly when that is a menu command, never the AI for all-digit text; `Router.ClassifyIgnoresCaseAndPadding` states that normalizing first changes no route |
| Router.DigitRoute | src/index.js:101-121 | options 1 to 5 go to courses, payments, wellbeing, support and admission in that order, and every other number is an invalid option carrying that number |
| Router.DigitsAreOptions | src/index.js:98-122 | all-digit text never reaches the AI: its parsed value picks an option, or the invalid-option reply with that value |
| Router.LeadingZeroIsOptionOne | src/index.js:98-103 | `"01"` is option 1, courses |
| Router.SixIsInvalid | src/index.js:112-121 | `"6"` is an invalid option, although the menu copy offers a sixth option |
| Router.FirstKeyword | src/index.js:129-160 | finds the first keyword group at or after a position that has a word in the text, and none exactly when no later group has one |
| Router.KeywordRoutesDistinct | src/index.js:129-160 | the five keyword groups lead to five different routes, none of them the menu, the AI or an invalid option |
| Router.KeywordsInOrder | src/index.js:129-160 | for other text, a keyword route is chosen exactly when its group is the first group that matches, and the AI exactly when no group matches |
| Router.CourseKeywordWinsOverPayment | src/index.js:129-138 | `"pago del curso"` goes to courses, not payments |
| Router.AskAiIffNothingMatched | src/index.js:92-163 | the AI is asked exactly when the text is no menu command, not all digits, and contains no keyword |
| Router.MenuShowsRobot | src/config/constants.js:3 | the main menu text contains the robot emoji |
| Router.InvalidOptionText | src/index.js:112-121 | the invalid-option reply shows the parsed number and ends with the robot emoji |
| Router.AiReply | src/index.js:178-186 | the AI reply starts with the bot header, contains the answer, ends with the menu hint, and carries the FAQ note just before the hint exactly when the answer came from the FAQ |
| Router.NoteAtEnd | src/index.js:180-184 | the reply ends with the FAQ note and hint exactly when the note was added |
| Router.NoteMissing | src/index.js:180-184 | a reply built without the note does not end with it |
| Router.AskAiWith | src/index.js:166-186 | the AI path's reply is framed by the bot header and the menu hint, notes the FAQ exactly when the FAQ answered, and sends the completion service the assembled prompt exactly when the FAQ did not answer |
| Router.Respond | src/index.js:92-186 | only the AI path can throw, and only when the course lookup fails; the course and payment handlers' replies are returned as they are; no route but the AI's calls the completion service or saves a conversation |
| Router.RobotReplies | src/index.js:92-121 | the main menu and invalid-option replies succeed and contain the robot emoji; the latter also shows the number |
| Router.OnlyAiSeesRawText | src/index.js:163-176 | outside the AI path the reply depends only on the normalized text |
| Router.Process | src/index.js:88-187 | `procesarMensaje`: the reply to the route of the text, with no contract of its own; `Router.Respond` states each route's reply, and `Router.OnlyAiSeesRawText` and `Router.RobotOutsideAi` state what the raw text changes |
| Router.RobotOutsideAi | src/index.js:92-121 | text that routes to the menu or an invalid option always gets a reply containing the robot emoji |
| Inbound.MessageText | src/index.js:259-261 | the text is the plain conversation text when that is non-empty, otherwise the extended text; it is empty exactly when neither is non-empty |
| Inbound.PhoneOf | src/index.js:258 | a chat id without the user suffix is its own phone; `Inbound.PhoneOfUserChat` states that the suffix of a user chat is cut off |
| Inbound.Ignored | src/index.js:255-261 | the messages the handler drops: an empty batch, a first message without content, from the bot itself, from a group chat, or without text; `Inbound.HandleWith` states that these produce nothing |
| Inbound.PhoneOfUserChat | src/index.js:258 | the phone of a user chat id is the id without its `@s.whatsapp.net` suffix |
| Inbound.Apologize | src/index.js:290-296 | the apology is sent unless sending it throws, in which case nothing more happens |
| Inbound.SavedAll | src/services/aiService.js:40-44 | the conversations saved on the AI path, one effect each, in order |
| Inbound.Refused | src/index.js:285-296 | after a failure, only the apology is ever sent, nobody is registered, and the apology comes last unless sending it throws |
| Inbound.Replied | src/index.js:276-283 | after a reply, the reply is the only text sent, nobody is registered, and the logged exchange comes last unless logging throws |
| Inbound.Answer | src/index.js:276-296 | from the routed reply onwards: earlier effects are kept, no student is registered, and either only the apology or only the reply is sent, with the log or the apology last |
| Inbound.HandleWith | src/index.js:253-298 | a message without content, sent by the bot itself, from a group chat or without text produces nothing; otherwise the directory is unchanged, or gains exactly the new student for an unknown phone |
| Inbound.Handle | src/index.js:253-298 | the handler with `procesarMensaje` as the processor, with no contract of its own; `Inbound.HandleWith` and the lemmas below state it, and `Inbound.MenuLoggedAsAi` and `Inbound.InvalidOptionLoggedAsAi` are stated about it directly |
| Inbound.ReachesAnswer | src/index.js:265-276 | when the lookup, the creation and the welcome succeed, the run is the greeting followed by the answer |
| Inbound.NewSenderWelcomedFirst | src/index.js:266-274 | an unknown phone is first registered under the next id and then welcomed, before anything else |
| Inbound.KnownSenderNotWelcomed | src/index.js:266-267 | a known phone registers nobody |
| Inbound.WelcomedOnce | src/index.js:266-274 | after a phone's first handled message, later messages from it register nobody |
| Inbound.FailureApologizes | src/index.js:285-296 | whenever any step throws, at most the welcome and the apology are sent, and the apology comes last unless sending it throws |
| Inbound.AnswerApologizes | src/index.js:276-296 | the same when the failure is in routing or sending the reply |
| Inbound.SuccessRepliesAndLogs | src/index.js:276-283 | when nothing throws, the routed reply is sent, only the welcome and the reply are sent, and the exchange is logged last with the AI flag given by the robot emoji |
| Inbound.MenuLoggedAsAi | src/index.js:282 | a menu command's reply is logged as an AI answer, because the main menu contains the robot emoji |
| Inbound.InvalidOptionLoggedAsAi | src/index.js:282 | an invalid option's reply is logged as an AI answer |
| Gemini.Inspect | src/config/gemini.js:63-71 | text is accepted only from a response whose text could be read and is not blank |
| Gemini.Generate | src/config/gemini.js:28-89 | success exactly when there are candidates, the first did not stop for safety or recitation, and the text is readable and not blank; the text is then returned unchanged, and a thrown error comes back rewritten |
| Gemini.NoCandidatesFails | src/config/gemini.js:43-46 | a response without candidates is the no-candidates error |
| Gemini.BlockedFinishFails | src/config/gemini.js:51-60 | a first candidate that stopped for safety or recitation is the matching error |
| Gemini.OtherFinishIgnored | src/config/gemini.js:51-71 | any other finish reason, or none, leaves the decision to the text: non-blank text is returned, blank text is the empty-answer error |
| Gemini.Rewrite | src/config/gemini.js:77-87 | an error mentioning `API key` becomes the invalid-key message, else one mentioning `quota` the quota message, else one mentioning `SAFETY` the blocked-content message; any other message passes unchanged |
| Gemini.RewriteIdempotent | src/config/gemini.js:77-87 | rewriting a rewritten message changes nothing more |
| Gemini.OwnErrorsPassThrough | src/config/gemini.js:45-87 | the module's own four error messages contain no marker, so they pass through the rewriting unchanged |
| Gemini.SafetyBlockNoQuota | src/config/gemini.js:55 | the safety-block message contains none of the three markers |
| Gemini.RecitationBlockNoQuota | src/config/gemini.js:58 | the recitation-block message contains none of the three markers |
| Gemini.SafetyNoQuota | src/config/gemini.js:84 | the rewritten safety message contains none of the markers |
| Gemini.TestApi | src/config/gemini.js:92-102 | the probe reports true exactly when the service answered and its text could be read |
| Gemini.GenerateSuccessPassesProbe | src/config/gemini.js:28-102 | every response that generates text passes the probe; the converse fails: a normal finish with blank text passes the probe, which does not reject blank text, and fails generation with the empty-answer error |
| Gemini.BlockedFailsProbe | src/config/gemini.js:51-102 | when `text()` throws on a SAFETY or RECITATION finish, as the client library's does, a blocked response fails the probe and fails generation with the block's own message |
| AiService.StudentBlock | src/services/aiService.js:68-80 | the student section is empty exactly when there is no student; otherwise it opens with its header and ends with a line break |
| AiService.CoursesBlock | src/services/aiService.js:83-89 | the course section is empty exactly when there are no courses; otherwise it opens with its header and ends with a line break |
| AiService.StudentBlockFull | src/services/aiService.js:68-80 | a student with name, career and term set gets the header, the `- Nombre:`, `- Carrera:` and `- Semestre:` lines in that order, and a blank line |
| AiService.StudentBlockBare | src/services/aiService.js:68-80 | a student with none of them set gets the header and the blank line only |
| AiService.StudentFalsyFieldsDropped | src/services/aiService.js:70-78 | a falsy name, career or term (absent, empty, zero) writes no line: the section equals the one for the student without that field |
| AiService.StudentTruthyFieldsShown | src/services/aiService.js:70-78 | a truthy name, career or term shows its line with its value |
| AiService.FieldLine | src/services/aiService.js:70-78 | a field writes nothing exactly when it is falsy, and otherwise a line of its label and its value; `AiService.StudentTruthyFieldsShown` and `AiService.StudentFalsyFieldsDropped` state it inside the section |
| AiService.CourseLines | src/services/aiService.js:84-86 | at least one six-character line per course; `AiService.CourseLinesAppend` and `AiService.CourseLinesOrder` state that each course's `- name (code)` line is there, in list order |
| AiService.CourseLinesAppend | src/services/aiService.js:85-87 | the lines of two course lists are the lines of the first followed by those of the second |
| AiService.CourseLinesOrder | src/services/aiService.js:85-87 | the `- name (code)` line of course k starts right after the lines of the courses before it: every course is listed, in list order |
| AiService.CoursesBlockLines | src/services/aiService.js:83-89 | in the course section, course k's line follows the header and the lines of courses 0..k-1 |
| AiService.BuildPrompt | src/services/aiService.js:64-101 | the prompt starts with the system text and ends with the question verbatim, then the instructions and the answer cue; between them come the student section, then the course section, then the question header; its length is the sum of those parts, so they are joined with nothing in between |
| AiService.PromptSections | src/services/aiService.js:64-92 | the student header follows the system text exactly when there is a student, and the course header follows the student section exactly when there are courses |
| AiService.SectionsAfterLead | src/services/aiService.js:68-92 | the same, for any text that starts with the three sections in order |
| AiService.LeadingHeader | src/services/aiService.js:68-92 | after the system text, the student header appears exactly when the student section is non-empty |
| AiService.CourseSectionLeads | src/services/aiService.js:83-92 | the course header leads exactly when the course list is non-empty |
| AiService.HeadersDiffer | src/services/aiService.js:69-92 | the three section headers differ in their first two characters, so none can be mistaken for another |
| AiService.AnswerQuestion | src/services/aiService.js:8-62 | an FAQ hit above 0.65 is answered from the FAQ without calling the service; otherwise the assembled prompt is sent exactly once; a generated answer is the service's non-blank text, saved as AI-written if saving succeeds; every failure gives the fixed fallback text and saves nothing |
| AiService.FaqMissFallsThrough | src/services/aiService.js:12-24 | a failing FAQ lookup, or a hit at 0.65 or below, goes on to the completion service |
| AiService.Sentiment | src/services/aiService.js:105-117 | positive exactly when more positive words occur than negative ones, negative exactly when fewer, neutral on a tie |
| AiService.SentimentCountsDistinctWords | src/services/aiService.js:105-117 | the counts are the numbers of distinct listed words present in the lowered text |
| AiService.WellbeingReadsPositive | src/services/aiService.js:106-116 | `"bienestar"` reads positive, because it contains `bien` |
| AiService.IsUrgent | src/services/aiService.js:120-123 | urgent exactly when some urgent word occurs in the lowered text |
| AiService.SubstringUrgency | src/services/aiService.js:120-123 | `"Playa"` counts as urgent, because `ya` is matched as a substring |
| AiService.FirstCategory | src/services/aiService.js:139-145 | the category of the first table entry with a keyword in the text, and general exactly when no entry has one |
| AiService.Categorize | src/services/aiService.js:126-146 | a question is general exactly when none of the seven keyword lists matches its lowered text |
| AiService.EntranceExamIsCourses | src/services/aiService.js:130-132 | a question about the `examen de ingreso` is filed under courses, because `examen` is looked for first |
| Agenda.FilterMembers | src/handlers/agendaHandler.js:19-22 | a filtered list holds exactly the rows that pass the filter |
| Agenda.FilterFilter | src/handlers/agendaHandler.js:19-22 | filtering by two conditions in turn is filtering by both at once |
| Agenda.Insert | src/handlers/agendaHandler.js:23 | inserting gives the same rows plus exactly the new one, counted with multiplicity |
| Agenda.InsertSorted | src/handlers/agendaHandler.js:23 | inserting into a list in time order keeps it in time order |
| Agenda.SortByTime | src/handlers/agendaHandler.js:23 | `ORDER BY fecha_hora ASC`: the result is in time order and a permutation of the input |
| Agenda.FilterSort | src/handlers/agendaHandler.js:19-23 | filtering a sorted list is sorting the filtered list |
| Agenda.EarlierIsPrefix | src/handlers/agendaHandler.js:21 | on a list in time order, the rows before a bound form a prefix |
| Agenda.Upcoming | src/handlers/agendaHandler.js:19-22 | a row is upcoming for a student when it is that student's, strictly after now, and pending or confirmed; `Agenda.CancelList` and `Agenda.ViewList` state their lists through it |
| Agenda.CancelList | src/handlers/agendaHandler.js:91-95 | the cancelling list is in time order and holds exactly the student's future pending or confirmed rows |
| Agenda.ViewList | src/handlers/agendaHandler.js:19-23 | the viewing list is in time order and holds exactly those rows that also fall within seven days |
| Agenda.ViewIsPrefixOfCancel | src/handlers/agendaHandler.js:53 | the viewing list is a prefix of the cancelling list, so a number shown is the number to cancel |
| Agenda.SetCancelled | src/handlers/agendaHandler.js:105-108 | the update marks cancelled exactly the rows with the given id and keeps every other row |
| Agenda.Cancel | src/handlers/agendaHandler.js:87-119 | a number outside 1 to n is reported and changes nothing; a valid number cancels exactly the rows sharing the listed row's id and confirms its title; a failing statement changes nothing, and a failing update after a valid number gets the error text |
| Agenda.CancelChangesOneRow | src/handlers/agendaHandler.js:103-108 | with unique ids, a valid number changes exactly one row: the listed upcoming one |
| Agenda.ListedNumberCancels | src/handlers/agendaHandler.js:53 | the k-th appointment shown under number k+1 is the one cancelled by number k+1 |
| Agenda.MinutesToHours | src/handlers/agendaHandler.js:145-146 | flooring to minutes and then to hours is flooring to hours |
| Agenda.HoursToDays | src/handlers/agendaHandler.js:146-147 | flooring to hours and then to days is flooring to days |
| Agenda.Band | src/handlers/agendaHandler.js:141-158 | past exactly for a negative difference, days from a full day up, hours from a full hour, minutes from a full minute, now below a minute, each count the floored quotient |
| Agenda.Counted | src/handlers/agendaHandler.js:150-156 | the text is the count in decimal, a space and the unit, followed by one plural `s` exactly when the count is more than one |
| Agenda.RemainingText | src/handlers/agendaHandler.js:141-158 | `Ya pasó` exactly for the past band, `Ahora mismo` exactly for the under-a-minute band, and a text starting with `En` exactly for days, hours or minutes |
| Agenda.TimeLeft | src/handlers/agendaHandler.js:135-159 | `Ya pasó` exactly for a moment in the past, `Ahora mismo` exactly for less than a minute ahead, and otherwise `En ` and the whole number of days, else hours, else minutes ahead, in the largest unit with a count of at least one |
| Agenda.PluralIffMoreThanOne | src/handlers/agendaHandler.js:149-157 | the remaining-time text is plural exactly when the count in the chosen unit is more than one |
| Agenda.IconFor | src/handlers/agendaHandler.js:122-133 | a kind in the table gets its icon; a name every object inherits (`toString`, `constructor`, `__proto__`, ...) gets the printed inherited value (`function toString() { [native code] }`, `function Object() { [native code] }`, `[object Object]`); exactly the remaining kinds get the calendar icon |
| Agenda.PlaceText | src/handlers/agendaHandler.js:55 | a truthy location is shown as is; otherwise `Sin ubicación` |
| Agenda.StatusLabel | src/handlers/agendaHandler.js:57 | the pending label is shown exactly for `pendiente` |
| Agenda.ItemBlock | src/handlers/agendaHandler.js:53-57 | a row's block starts with its number, icon and title line, contains the date-and-time line directly followed by the location line (`Sin ubicación` for a falsy location) and the remaining-time line, and ends with the status line and a blank line; `Agenda.ItemBlocksNumbering` places it in the listing |
| Agenda.MissingPlaceShown | src/handlers/agendaHandler.js:37-58 | a listed appointment without a truthy location shows `Sin ubicación` in the listing |
| Agenda.ItemBlocksNumbering | src/handlers/agendaHandler.js:37-58 | the k-th row is shown under number first+k |
| Agenda.View | src/handlers/agendaHandler.js:8-72 | a store error gives the error text, an empty list the fixed empty text, and otherwise the header, the blocks of every row in order and the footer, joined with nothing between them |
| Agenda.ShortRun | src/handlers/agendaHandler.js:163 | a run of one or two digits followed by the separator is found with its exact length |
| Agenda.SpaceRun | src/handlers/agendaHandler.js:163 | `\s+` takes every white-space character that follows |
| Agenda.SpaceRunUnique | src/handlers/agendaHandler.js:163 | a white-space run followed by a non-space is the one found |
| Agenda.ShapeFromSound | src/handlers/agendaHandler.js:163 | a shape found at a position is a match of the pattern there |
| Agenda.ShapeFromComplete | src/handlers/agendaHandler.js:163 | every match of the pattern at a position is found |
| Agenda.RunsOfShape | src/handlers/agendaHandler.js:163 | a match consists of the runs the pattern describes, in order |
| Agenda.ShapeFromRuns | src/handlers/agendaHandler.js:163 | runs of those lengths, in that order, are the match found |
| Agenda.MatchAt | src/handlers/agendaHandler.js:163-168 | the captures found at a position are a match there, and none is found exactly when there is no match there |
| Agenda.MatchAtComplete | src/handlers/agendaHandler.js:163-168 | a match at a position is found with its captures |
| Agenda.NoMatchPastEnd | src/handlers/agendaHandler.js:163 | nothing matches at or after the end of the text |
| Agenda.FirstMatch | src/handlers/agendaHandler.js:163-164 | a match found from a position is at or after it |
| Agenda.FirstMatchLeftmost | src/handlers/agendaHandler.js:163-166 | the match found is the leftmost one, and when none is found there is no match anywhere after the start |
| Agenda.LeftmostIsFirst | src/handlers/agendaHandler.js:163-168 | the captures used are those of the leftmost match |
| Agenda.ParseDateTime | src/handlers/agendaHandler.js:161-177 | a moment is returned exactly when the text has a match and the moment of its leftmost match is not in the past, and it is that moment |
| Agenda.PastRejected | src/handlers/agendaHandler.js:171-176 | a moment equal to now is returned, and one before now gives nothing |
| Agenda.ExampleExtraction | src/handlers/agendaHandler.js:162-168 | in `"el 5/11/2025  9:30"` the pattern matches with day 5, month 11, year 2025, hour 9, minute 30 |
| Payments.Icon | src/handlers/pagosHandler.js:27 | the check mark is shown exactly for `pagado` |
| Payments.Pendings | src/handlers/pagosHandler.js:34-35 | the pending list is no longer than the input; `Payments.PendingsMembers` and `Payments.PartitionPermutes` state which payments it holds |
| Payments.Others | src/handlers/pagosHandler.js:37-38 | the other list is no longer than the input; `Payments.OthersMembers` and `Payments.PartitionPermutes` state which payments it holds |
| Payments.Total | src/handlers/pagosHandler.js:36-39 | a total of non-negative amounts is non-negative, and one of non-positive amounts non-positive; `Payments.PartitionTotals` states that the two totals add up |
| Payments.PendingsMembers | src/handlers/pagosHandler.js:34-35 | the pending list holds exactly the `pendiente` payments |
| Payments.OthersMembers | src/handlers/pagosHandler.js:37-38 | the other list holds exactly the payments that are not `pendiente` |
| Payments.PartitionPermutes | src/handlers/pagosHandler.js:34-40 | together the two lists are a permutation of the payments |
| Payments.PartitionTotals | src/handlers/pagosHandler.js:36-39 | the two totals add up to the total of all payments |
| Payments.Partition | src/handlers/pagosHandler.js:18-41 | the loop builds the pending list, the other list and both totals, in input order |
| Payments.Decide | src/handlers/pagosHandler.js:4-66 | a store error fails, no payments gives the fixed text, and otherwise the listing shows the pending payments with their total, the first three others in order, and the count of the rest, non-zero exactly when there are more than three |
| Payments.UnknownStatusListedAsSettled | src/handlers/pagosHandler.js:27-39 | a payment neither `pendiente` nor `pagado` is listed with the settled ones, under the hourglass icon |
| Payments.FormatCents | src/handlers/pagosHandler.js:48 | an amount is written with two decimals, with a minus sign exactly when negative |
| Payments.UnsignedRoundTrip | src/handlers/pagosHandler.js:48 | reading back a written non-negative amount gives it back |
| Payments.CentsRoundTrip | src/handlers/pagosHandler.js:48 | reading back any written amount gives it back |
| Payments.PendingSection | src/handlers/pagosHandler.js:44-53 | the pending section is empty exactly when nothing is pending; otherwise it starts with its header, holds every pending line, and ends with the total line and the rule |
| Payments.SettledSection | src/handlers/pagosHandler.js:56-66 | the settled section is empty exactly when nothing is shown, and otherwise holds its header and every shown line, ending with the count of the rest when there is one |
| Payments.Render | src/handlers/pagosHandler.js:12-76 | a listing is exactly the header, the pending section, the settled section, and the rule, contact lines and menu hint, joined with nothing between them |
| Payments.HandlePayments | src/handlers/pagosHandler.js:4-82 | a store error gives the error text, no payments the fixed text, and any other list exactly the header, the two sections of its decision and the closing lines with the menu hint |
| Payments.PendingListed | src/handlers/pagosHandler.js:44-50 | every pending payment's line is in the summary |
| Payments.PendingTotalShown | src/handlers/pagosHandler.js:34-51 | with something pending, the summary shows the total line with the sum of the pending amounts |
| Payments.SettledListed | src/handlers/pagosHandler.js:56-61 | each of the first three other payments' lines is in the summary |
| Payments.DecideMany | src/handlers/pagosHandler.js:58-65 | with more than three other payments, the first three are shown and the rest counted |
| Payments.RestCounted | src/handlers/pagosHandler.js:63-65 | with more than three other payments, the summary says how many more there are |
| CourseList.CreditsOf | src/handlers/cursosHandler.js:38 | `c.creditos \|\| 0`, with no contract of its own; `CourseList.SumCredits` and `CourseList.TotalCredits` state the sum of it |
| CourseList.SumCredits | src/handlers/cursosHandler.js:38 | the credit sum of courses with no negative credits is not negative; `CourseList.SumCreditsAppend`, `CourseList.SumCreditsBounds` and `CourseList.TotalCredits` state the rest |
| CourseList.SumCreditsAppend | src/handlers/cursosHandler.js:38 | the credit sum of two lists is the sum of their sums |
| CourseList.SumCreditsBounds | src/handlers/cursosHandler.js:38 | with no negative credits, each course's credits lie between zero and the total |
| CourseList.TotalCredits | src/handlers/cursosHandler.js:38 | the loop computes the credit sum, missing or zero credits counting as zero |
| CourseList.Decide | src/handlers/cursosHandler.js:4-46 | a store error fails, no courses gives the fixed text, and otherwise the listing has every course, the credit sum, and the career and term lines exactly when they are truthy |
| CourseList.CourseBlock | src/handlers/cursosHandler.js:23 | each course's block opens with its number and name |
| CourseList.OptionalLines | src/handlers/cursosHandler.js:28-33 | the schedule and room lines appear when truthy, and when falsy the block is the one without them |
| CourseList.CourseBlocksNumbering | src/handlers/cursosHandler.js:22-23 | the k-th course is shown under number first+k |
| CourseList.Render | src/handlers/cursosHandler.js:12-39 | every reply ends with the menu hint; a listing is exactly its header, the profile lines, the course blocks, the credit-total line and the hint, joined with nothing between them |
| CourseList.ProfileShown | src/handlers/cursosHandler.js:14-20 | a listing shows the career line and the term line of the profile it was built with |
| CourseList.ListingShows | src/handlers/cursosHandler.js:12-36 | a listing shows its profile lines and every course block under its number |
| CourseList.HandleCourses | src/handlers/cursosHandler.js:4-47 | a store error gives the error text, no courses the fixed text, and otherwise the listing with each course under its number in input order, the career and term lines of a truthy career and term, and the total of all credits at the end; the header, the kept profile lines and the course blocks open it and the credit line follows them directly |
| CourseList.FalsyProfileDropped | src/handlers/cursosHandler.js:14-20 | a falsy career or term writes no line: the reply equals the one for the student without that field, or for no student when both are falsy |
| Timeouts.Fresh | src/services/timeoutService.js:5-8 | a new manager has no entries and no timers, with the ten-minute default delay |
| Timeouts.SetInactivity | src/services/timeoutService.js:11-14 | the delay becomes the given (possibly fractional) minutes in milliseconds, and nothing else changes |
| Timeouts.TimerDelay | src/services/timeoutService.js:22-25 | a timer waits the delay when it is between 1 ms and 2^31 - 1 ms, and exactly 1 ms otherwise |
| Timeouts.Cancel | src/services/timeoutService.js:38-45 | the phone's entry and its timer are gone, other phones' entries are unchanged, and cancelling a phone without an entry changes nothing |
| Timeouts.CancelIdempotent | src/services/timeoutService.js:38-45 | cancelling twice is cancelling once |
| Timeouts.Arm | src/services/timeoutService.js:17-35 | the phone has exactly one entry, started now, with a new timer due after the delay, or after 1 ms when the delay is outside the range timers accept; its previous timer is cleared, every other timer stays scheduled as it was, and other phones' entries, the callbacks in flight and the delay are unchanged |
| Timeouts.ArmedDelays | src/services/timeoutService.js:11-25 | half a minute and ten minutes are waited as configured; zero minutes and 25 days both fire after 1 ms |
| Timeouts.ClearAll | src/services/timeoutService.js:139-145 | the map is empty and exactly the entries' timers are cleared, other timers staying scheduled; the delay and the callbacks in flight are unchanged; on an empty map nothing changes |
| Timeouts.HasActive | src/services/timeoutService.js:110-112 | a phone has an active timeout when it has an entry; `Timeouts.ActiveAfter` states how the operations change that |
| Timeouts.ActiveAfter | src/services/timeoutService.js:17-45 | after arming a phone it has an active timeout, after cancelling it or clearing all it has none, and no other phone's answer changes |
| Timeouts.InfoAt | src/services/timeoutService.js:115-127 | no info exactly when there is no entry; otherwise the remaining time is the current delay minus the time elapsed, and the minutes are its floor |
| Timeouts.StatsOf | src/services/timeoutService.js:130-136 | the phones listed are the map's keys, their count is the active count, and the delay is given in minutes |
| Timeouts.FireSend | src/services/timeoutService.js:22-23 | the fired timer is no longer scheduled and its phone's callback is in flight; the map is untouched |
| Timeouts.FireDelete | src/services/timeoutService.js:24 | the callback deletes its phone's entry, whichever timer that entry now holds; other entries and every timer stay, and the callback is no longer in flight |
| Timeouts.TrackedIsAccounted | src/services/timeoutService.js:6 | between calls, with no callback in flight, the in-flight invariant holds too |
| Timeouts.TrackedPreserved | src/services/timeoutService.js:11-45 | arming, cancelling, clearing and configuring keep entries and timers in one-to-one correspondence |
| Timeouts.CancelAccounted | src/services/timeoutService.js:38-45 | cancelling keeps every entry accounted for by a timer or an in-flight callback |
| Timeouts.ArmAccounted | src/services/timeoutService.js:17-35 | arming keeps every entry accounted for |
| Timeouts.FireSendAccounted | src/services/timeoutService.js:22-23 | the first step of a callback keeps every entry accounted for |
| Timeouts.FireDeleteAccounted | src/services/timeoutService.js:24 | the second step of a callback keeps every entry accounted for |
| Timeouts.ClearAllAccounted | src/services/timeoutService.js:139-145 | clearing and configuring keep every entry accounted for |
| Timeouts.OrphanAfterRearm | src/services/timeoutService.js:17-25 | a phone re-armed between a callback's two steps loses its new entry while its new timer stays scheduled, so entries and timers no longer correspond and cancelling cannot stop that timer |
| Timeouts.Farewell | src/services/timeoutService.js:84-107 | the morning text exactly for hours 6 to 11, the afternoon text exactly for 12 to 17, and the night text for every other hour |
| Timeouts.FarewellsDiffer | src/services/timeoutService.js:88-106 | the three farewells are different texts |
| Timeouts.ChatOfRoundTrip | src/services/timeoutService.js:50 | the chat id built from a phone gives that phone back |
| Timeouts.SendFarewell | src/services/timeoutService.js:48-81 | nothing happens when the send throws; otherwise the farewell is sent first, and a `[TIMEOUT]` exchange not marked as AI is saved exactly when the student exists and saving succeeds |
| InstanceLock.Acquire | src/utils/InstanceLock.js:12-50 | success exactly when the file is missing or holds a stale lease and no file operation throws; success leaves the new lease on file and the flag set; failure leaves the flag, and the file unless a stale lease was removed; a lease that is not stale is never replaced |
| InstanceLock.Write | src/utils/InstanceLock.js:31-44 | the new lease and the flag are set exactly when the write succeeds |
| InstanceLock.Release | src/utils/InstanceLock.js:53-63 | the file is deleted and the flag cleared exactly when the flag is set, the file exists and the deletion succeeds; otherwise nothing changes |
| InstanceLock.SecondAcquireRefused | src/utils/InstanceLock.js:15-28 | for five minutes after a successful acquire, every acquire fails and changes nothing, the same process's included |
| InstanceLock.BoundaryAgesHold | src/utils/InstanceLock.js:20 | a lease exactly five minutes old, or one from the future, still holds |
| InstanceLock.NaNAgeHoldsForever | src/utils/InstanceLock.js:17-28 | a lease whose timestamp converts to NaN is never taken over |
| InstanceLock.ToNumber | src/utils/InstanceLock.js:17 | `null`, `false` and blank text convert to 0, `true` to 1, numbers to themselves, digit text to its value; a missing field and an object convert to NaN |
| InstanceLock.ReadLease | src/utils/InstanceLock.js:16-17 | the lease read back carries the converted timestamp |
| InstanceLock.TimestampCoercion | src/utils/InstanceLock.js:16-22 | a missing or object timestamp holds the lock forever; a `null`, `false` or blank one counts as the epoch and is taken over |
| InstanceLock.AcquireIgnoresFlag | src/utils/InstanceLock.js:12-28 | whether acquire succeeds does not depend on the process's own flag |
| InstanceLock.ReleaseIdempotent | src/utils/InstanceLock.js:53-63 | releasing again after a release, or without having acquired, changes nothing |
| InstanceLock.ReleaseIgnoresOwner | src/utils/InstanceLock.js:53-58 | a process whose stale lease was taken over by another instance deletes the other instance's lease on release |

## Left out

- Transport and process plumbing: the socket, reconnection, the QR code, the health server, signal handlers, start-up checks and the module-level key check of the completion client. None of these makes a decision the core depends on.
- The database service is an abstract store. Each call's outcome is a parameter: a value, or a thrown error. Two of its behaviours are modelled where they are used. Saving a conversation swallows its own errors. The FAQ lookup returns its best hit above 0.5 similarity, or nothing; its own errors are swallowed, and the model passes them through as a failed lookup that the answer pipeline treats the same way.
- The reminder service: its selection rule lives in SQL, and it only runs on an interval.
- Fixed copy: the wellbeing, support and admission texts are shortened to their title followed by the menu hint. The main menu keeps its title and its closing line `_Escribe el número o tu pregunta_ 👇` but drops the option lines. The system prompt is shortened. The welcome and the apology are verbatim. Where a property depends on a character, the copy keeps it, such as the robot emoji in the menu title.
- Real timers and the wall clock: timers are abstract handles, and the current time and hour are parameters.
- Calendar conversion in the date parser is an uninterpreted function from captures to a moment. It covers day and hour rollover and the local time zone.
- Locale formatting: dates and times are formatting-function parameters, and amounts are integer cents printed with two decimals instead of `toFixed(2)` on a float.
- Unicode: lower-casing covers ASCII and Latin-1 capitals only. White space is the ECMAScript white-space and line-terminator set.
- The `timeout_log` insert refers to a `pool` that the service never imports, so it always throws and lands in the database catch. The model records no such write.
- Concurrency: a timeout firing while a reply is being handled is not interleaved with it. Only the callback's own two steps are separated.
- Inbound.WelcomedOnce: the handler runs are sequential here. Two `messages.upsert` events for the same new phone that run concurrently can both find no student, both register it and both welcome it; the lemma holds only for runs one after another.
- The one-second pause after the welcome is left out, because it has no effect on the outcome.
- An empty batch makes the handler throw while reading its first message, before its `try`. The model treats such a batch as ignored. Later messages of a batch are never read, by the code or by the model.
- On the AI path the course lookup is not guarded, so its failure reaches the handler's apology. `Router.Respond` models that failure as the only way routing can fail.
- Timeouts.StatsOf: the delay in minutes is a real number. JavaScript's floating-point division is not modelled. The phones are a set, while `Array.from(map.keys())` lists them in the order they were first armed; the order is not modelled.
- Timeouts.SetInactivity: the minutes are a real number; a non-numeric argument (NaN delay) and floating-point rounding of `minutes * 60 * 1000` are not modelled. Clock readings are whole milliseconds.
- Router.DigitsAreOptions: the parsed value is the exact decimal value. `parseInt` rounds digit strings above 2^53 to the nearest double and gives Infinity beyond the double range; no such value is 1 to 5, so only the number carried by the invalid option differs.
- Router.InvalidOptionText: the number shown is the exact value. For digit strings above 2^53 the code prints the rounded double, from 10^21 on in exponent form (`1e+21`), and `Infinity` beyond the double range.
- AiService.AnswerQuestion: similarity is a real number compared with the threshold, not a floating-point value.
- Agenda.SortByTime: `ORDER BY` does not fix the order of appointments at the same moment. The model keeps them in table order, which both lists share.
- Gemini.TestApi: the outcome of `text()` is an input independent of the finish reason. The client library's rule that it throws on a SAFETY or RECITATION finish is the predicate `Gemini.LibraryText`, which only `Gemini.BlockedFailsProbe` assumes.
- Agenda.View: one `now` serves both the query's `NOW()` and the clock the remaining time is computed with, so a listed row never shows `Ya pasó` here. In the code time passes between the query and the formatting, and a row due in that gap can show `Ya pasó`.
- InstanceLock.Acquire: the lease's pid and host are written but never read back, as in the code. A file that is not JSON, or is the JSON `null`, makes the code throw, which the model folds into `Unparseable`. Any other non-object JSON value reads as a lease with a missing timestamp.
- InstanceLock.ToNumber: only whole-number timestamps are modelled. Text with a sign, a fraction, an exponent, a hex prefix or `Infinity` converts to NaN here, where JavaScript gives a number. An array counts as an object (NaN), where JavaScript converts `[]` to 0 and a one-element array to its element's number.

=== FILE: agenda.dfy ===
/** The decision logic of src/handlers/agendaHandler.js: which appointments
    are listed and in which order, cancelling by the listed number, the
    remaining-time text, the icon table, and the extraction of a
    `D/M/YYYY H:MM` date from free text.  The `agenda` table is a sequence of
    rows; the clock, the calendar conversion and the locale formatting are
    parameters. */
module Agenda {
  import opened Wrappers
  import opened Text
  import opened Records

  /** A row of `agenda`; `when` is `fecha_hora` in milliseconds. */
  datatype Appointment = Appointment(
    id: nat,
    studentId: nat,
    kind: string,
    title: string,
    when: int,
    place: Option<string>,
    status: string)

  const PendingStatus: string := "pendiente"
  const ConfirmedStatus: string := "confirmado"
  const CancelledStatus: string := "cancelado"

  /** The length of the listing window, `INTERVAL '7 days'`. */
  const Week: int := 7 * 24 * 60 * 60 * 1000

  // ---------------------------------------------------------------------------
  // Filtering and ordering (`WHERE ... ORDER BY fecha_hora ASC`)
  // ---------------------------------------------------------------------------

  /** The elements of `s` that `keep` accepts, in order. */
  function Filter(keep: Appointment -> bool, s: seq<Appointment>): (r: seq<Appointment>)
    ensures |r| <= |s|
  {
    if s == [] then [] else (if keep(s[0]) then [s[0]] else []) + Filter(keep, s[1..])
  }

  lemma {:induction false} FilterMembers(keep: Appointment -> bool, s: seq<Appointment>)
    ensures forall x :: x in Filter(keep, s) <==> x in s && keep(x)
  {
    if s != [] {
      FilterMembers(keep, s[1..]);
      assert s == [s[0]] + s[1..];
    }
  }

  /** Filtering by one predicate after another is filtering by both. */
  lemma {:induction false} FilterFilter(p: Appointment -> bool, q: Appointment -> bool,
                                        both: Appointment -> bool, s: seq<Appointment>)
    requires forall x :: both(x) == (p(x) && q(x))
    ensures Filter(both, s) == Filter(q, Filter(p, s))
  {
    if s != [] {
      FilterFilter(p, q, both, s[1..]);
      var fp := Filter(p, s);
      if p(s[0]) {
        assert fp == [s[0]] + Filter(p, s[1..]);
        assert fp != [] && fp[0] == s[0] && fp[1..] == Filter(p, s[1..]);
        assert Filter(q, fp) == (if q(s[0]) then [s[0]] else []) + Filter(q, fp[1..]);
      } else {
        assert fp == [] + Filter(p, s[1..]);
        assert fp == Filter(p, s[1..]);
        assert !both(s[0]);
        assert Filter(both, s) == [] + Filter(both, s[1..]);
      }
    }
  }

  predicate Sorted(s: seq<Appointment>) {
    forall i, j :: 0 <= i < j < |s| ==> s[i].when <= s[j].when
  }

  /** Puts `x` before the first element that is not earlier than it. */
  function Insert(x: Appointment, s: seq<Appointment>): (r: seq<Appointment>)
    ensures multiset(r) == multiset(s) + multiset{x}
    ensures |r| == |s| + 1
  {
    if s == [] then [x]
    else if x.when <= s[0].when then [x] + s
    else
      assert s == [s[0]] + s[1..];
      [s[0]] + Insert(x, s[1..])
  }

  /** A bound below `x` and every element stays below the insertion. */
  lemma {:induction false} InsertLowerBound(x: Appointment, s: seq<Appointment>, b: int)
    requires forall k :: 0 <= k < |s| ==> b <= s[k].when
    requires b <= x.when
    ensures forall k :: 0 <= k < |Insert(x, s)| ==> b <= Insert(x, s)[k].when
  {
    if s != [] && x.when > s[0].when {
      InsertLowerBound(x, s[1..], b);
      var rest := Insert(x, s[1..]);
      assert Insert(x, s) == [s[0]] + rest;
      assert forall k :: 1 <= k < |rest| + 1 ==> ([s[0]] + rest)[k] == rest[k - 1];
    }
  }

  /** Inserting into a sorted list keeps it sorted. */
  lemma {:induction false} InsertSorted(x: Appointment, s: seq<Appointment>)
    requires Sorted(s)
    ensures Sorted(Insert(x, s))
  {
    if s != [] && x.when > s[0].when {
      var rest := Insert(x, s[1..]);
      InsertSorted(x, s[1..]);
      InsertLowerBound(x, s[1..], s[0].when);
      var r := [s[0]] + rest;
      forall i, j | 0 <= i < j < |r| ensures r[i].when <= r[j].when {
        if i > 0 {
          assert r[i] == rest[i - 1] && r[j] == rest[j - 1];
        } else {
          assert r[j] == rest[j - 1];
        }
      }
    }
  }

  /** Ascending by time; among equal times the earlier row comes first. */
  function SortByTime(s: seq<Appointment>): (r: seq<Appointment>)
    ensures Sorted(r)
    ensures multiset(r) == multiset(s)
  {
    if s == [] then []
    else
      assert s == [s[0]] + s[1..];
      var rest := SortByTime(s[1..]);
      InsertSorted(s[0], rest);
      Insert(s[0], rest)
  }

  /** Inserting into a sorted list commutes with filtering. */
  lemma {:induction false} FilterInsert(keep: Appointment -> bool, x: Appointment, s: seq<Appointment>)
    requires Sorted(s)
    ensures Filter(keep, Insert(x, s)) == (if keep(x) then Insert(x, Filter(keep, s)) else Filter(keep, s))
  {
    if s == [] {
      assert Insert(x, s) == [x];
      assert Filter(keep, [x]) == (if keep(x) then [x] else []) + Filter(keep, []);
    } else if x.when <= s[0].when {
      var f := Filter(keep, s);
      var xs := [x] + s;
      assert Insert(x, s) == xs;
      assert xs[0] == x && xs[1..] == s;
      assert Filter(keep, xs) == (if keep(x) then [x] else []) + f;
      if keep(x) && f != [] {
        FilterMembers(keep, s);
        assert f[0] in f;
        var j :| 0 <= j < |s| && s[j] == f[0];
        assert x.when <= s[0].when <= s[j].when;
        assert Insert(x, f) == [x] + f;
      }
    } else {
      var rest := Insert(x, s[1..]);
      var xs := [s[0]] + rest;
      assert Insert(x, s) == xs;
      assert xs[0] == s[0] && xs[1..] == rest;
      assert Sorted(s[1..]);
      FilterInsert(keep, x, s[1..]);
      var f1 := Filter(keep, s[1..]);
      assert Filter(keep, xs) == (if keep(s[0]) then [s[0]] else []) + Filter(keep, rest);
      assert Filter(keep, s) == (if keep(s[0]) then [s[0]] else []) + f1;
      if keep(s[0]) && keep(x) {
        var ys := [s[0]] + f1;
        assert ys[0] == s[0] && ys[1..] == f1;
        assert Insert(x, ys) == [s[0]] + Insert(x, f1);
      } else if keep(x) {
        assert [] + f1 == f1;
      }
    }
  }

  /** Sorting commutes with filtering. */
  lemma {:induction false} FilterSort(keep: Appointment -> bool, s: seq<Appointment>)
    ensures Filter(keep, SortByTime(s)) == SortByTime(Filter(keep, s))
  {
    if s != [] {
      var sorted1 := SortByTime(s[1..]);
      assert SortByTime(s) == Insert(s[0], sorted1);
      FilterSort(keep, s[1..]);
      FilterInsert(keep, s[0], sorted1);
      var f1 := Filter(keep, s[1..]);
      assert Filter(keep, s) == (if keep(s[0]) then [s[0]] else []) + f1;
      if keep(s[0]) {
        var ys := [s[0]] + f1;
        assert ys[0] == s[0] && ys[1..] == f1;
        assert SortByTime(ys) == Insert(s[0], SortByTime(f1));
      } else {
        assert [] + f1 == f1;
      }
    }
  }

  predicate IsPrefix(a: seq<Appointment>, b: seq<Appointment>) {
    |a| <= |b| && b[..|a|] == a
  }

  function EarlierThan(bound: int): Appointment -> bool {
    (x: Appointment) => x.when < bound
  }

  /** In a sorted list, the elements earlier than a bound form a prefix. */
  lemma {:induction false} EarlierIsPrefix(bound: int, s: seq<Appointment>)
    requires Sorted(s)
    ensures IsPrefix(Filter(EarlierThan(bound), s), s)
  {
    var before := EarlierThan(bound);
    if s != [] {
      if s[0].when < bound {
        assert Sorted(s[1..]);
        EarlierIsPrefix(bound, s[1..]);
        assert s[..|Filter(before, s)|] == [s[0]] + s[1..][..|Filter(before, s[1..])|];
      } else {
        var f := Filter(before, s[1..]);
        FilterMembers(before, s[1..]);
        assert forall k :: 0 <= k < |s[1..]| ==> !before(s[1..][k]);
        assert forall y :: y in s[1..] ==> !before(y);
        assert forall i :: 0 <= i < |f| ==> f[i] in f;
      }
    }
  }

  /** `WHERE estudiante_id = $1 AND fecha_hora > NOW() AND estado IN
      ('pendiente', 'confirmado')`. */
  predicate Upcoming(a: Appointment, student: nat, now: int) {
    a.studentId == student && a.when > now && (a.status == PendingStatus || a.status == ConfirmedStatus)
  }

  function UpcomingFor(student: nat, now: int): Appointment -> bool {
    (x: Appointment) => Upcoming(x, student, now)
  }

  function ListedFor(student: nat, now: int): Appointment -> bool {
    (x: Appointment) => Upcoming(x, student, now) && x.when < now + Week
  }

  /** The list the cancel command numbers. */
  function CancelList(table: seq<Appointment>, student: nat, now: int): (r: seq<Appointment>)
    ensures Sorted(r)
    ensures forall x :: x in r <==> x in table && Upcoming(x, student, now)
  {
    var f := Filter(UpcomingFor(student, now), table);
    FilterMembers(UpcomingFor(student, now), table);
    var r := SortByTime(f);
    assert forall x :: x in r <==> x in f by {
      forall x ensures x in r <==> x in f {
        assert x in r <==> x in multiset(r);
        assert x in f <==> x in multiset(f);
      }
    }
    r
  }

  /** The listing adds `fecha_hora < NOW() + INTERVAL '7 days'`. */
  function ViewList(table: seq<Appointment>, student: nat, now: int): (r: seq<Appointment>)
    ensures Sorted(r)
    ensures forall x :: x in r <==> x in table && Upcoming(x, student, now) && x.when < now + Week
  {
    var f := Filter(ListedFor(student, now), table);
    FilterMembers(ListedFor(student, now), table);
    var r := SortByTime(f);
    assert forall x :: x in r <==> x in f by {
      forall x ensures x in r <==> x in f {
        assert x in r <==> x in multiset(r);
        assert x in f <==> x in multiset(f);
      }
    }
    r
  }

  /** The listing is a prefix of the cancel list, so the number shown next
      to an appointment is the number that cancels it. */
  lemma ViewIsPrefixOfCancel(table: seq<Appointment>, student: nat, now: int)
    ensures IsPrefix(ViewList(table, student, now), CancelList(table, student, now))
    ensures forall k :: 0 <= k < |ViewList(table, student, now)| ==>
              ViewList(table, student, now)[k] == CancelList(table, student, now)[k]
  {
    var up := UpcomingFor(student, now);
    var before := EarlierThan(now + Week);
    var both := ListedFor(student, now);
    FilterFilter(up, before, both, table);
    FilterSort(before, Filter(up, table));
    EarlierIsPrefix(now + Week, SortByTime(Filter(up, table)));
    var v := ViewList(table, student, now);
    var c := CancelList(table, student, now);
    assert forall k :: 0 <= k < |v| ==> v[k] == c[..|v|][k];
  }

  // ---------------------------------------------------------------------------
  // Cancelling (`handleCancelarCita`)
  // ---------------------------------------------------------------------------

  const InvalidNumberText: string := "❌ Número de cita inválido.\n\nEscribe *\"agenda\"* para ver tus citas."
  const CancelErrorText: string := "❌ Error al cancelar la cita.\n\n" + MenuHint

  function CancelledText(title: string): string {
    "✅ *Cita cancelada*\n\n📝 " + title + "\n\nLa cita ha sido cancelada exitosamente.\n\n" + MenuHint
  }

  /** `UPDATE agenda SET estado = 'cancelado' WHERE id = $1`. */
  function SetCancelled(table: seq<Appointment>, id: nat): (r: seq<Appointment>)
    ensures |r| == |table|
    ensures forall i :: 0 <= i < |table| ==>
              r[i] == (if table[i].id == id then table[i].(status := CancelledStatus) else table[i])
  {
    seq(|table|, i requires 0 <= i < |table| =>
      if table[i].id == id then table[i].(status := CancelledStatus) else table[i])
  }

  /** The table after a cancel command, and the reply. */
  datatype CancelOutcome = CancelOutcome(table: seq<Appointment>, reply: string)

  /** `handleCancelarCita(estudianteId, numeroCita)`; `queryOk` and `updateOk`
      say whether the two statements succeed. */
  function Cancel(table: seq<Appointment>, student: nat, now: int, number: int,
                  queryOk: bool, updateOk: bool): (o: CancelOutcome)
    // an invalid number is reported and nothing is updated
    ensures queryOk && (number < 1 || number > |CancelList(table, student, now)|) ==>
              o == CancelOutcome(table, InvalidNumberText)
    // a valid number cancels exactly the rows sharing the id of the listed one
    ensures queryOk && updateOk && 1 <= number <= |CancelList(table, student, now)| ==>
              var target := CancelList(table, student, now)[number - 1];
              && o.reply == CancelledText(target.title)
              && |o.table| == |table|
              && (forall i :: 0 <= i < |table| && table[i].id != target.id ==> o.table[i] == table[i])
              && (forall i :: 0 <= i < |table| && table[i].id == target.id ==>
                    o.table[i] == table[i].(status := CancelledStatus))
    // a failing statement leaves the table as it was
    ensures !queryOk || !updateOk ==> o.table == table
    ensures !queryOk ==> o.reply == CancelErrorText
    ensures queryOk && !updateOk && 1 <= number <= |CancelList(table, student, now)| ==> o.reply == CancelErrorText
  {
    if !queryOk then CancelOutcome(table, CancelErrorText)
    else
      var list := CancelList(table, student, now);
      if number < 1 || number > |list| then CancelOutcome(table, InvalidNumberText)
      else if !updateOk then CancelOutcome(table, CancelErrorText)
      else
        var target := list[number - 1];
        CancelOutcome(SetCancelled(table, target.id), CancelledText(target.title))
  }

  predicate UniqueIds(table: seq<Appointment>) {
    forall i, j :: 0 <= i < j < |table| ==> table[i].id != table[j].id
  }

  /** With unique ids a valid cancel changes exactly one row: the one listed
      under that number, which was upcoming and becomes cancelled. */
  lemma CancelChangesOneRow(table: seq<Appointment>, student: nat, now: int, number: int)
    requires UniqueIds(table)
    requires 1 <= number <= |CancelList(table, student, now)|
    ensures var o := Cancel(table, student, now, number, true, true);
            exists i :: 0 <= i < |table|
                     && table[i] == CancelList(table, student, now)[number - 1]
                     && Upcoming(table[i], student, now)
                     && o.table == table[i := table[i].(status := CancelledStatus)]
  {
    var list := CancelList(table, student, now);
    var target := list[number - 1];
    assert target in list;
    var i :| 0 <= i < |table| && table[i] == target;
    var o := Cancel(table, student, now, number, true, true);
    forall j | 0 <= j < |table| ensures o.table[j] == table[i := table[i].(status := CancelledStatus)][j] {
      if j != i {
        assert table[j].id != target.id;
      }
    }
  }

  // ---------------------------------------------------------------------------
  // Remaining time (`formatearTiempoRestante`)
  // ---------------------------------------------------------------------------

  const MinuteMs: int := 60000
  const HourMs: int := 60 * 60000
  const DayMs: int := 24 * 60 * 60000

  datatype Remaining = Past | Days(days: nat) | Hours(hours: nat) | Minutes(minutes: nat) | Now

  /** Flooring minutes to hours is flooring milliseconds to hours. */
  lemma MinutesToHours(a: nat)
    ensures a / MinuteMs / 60 == a / HourMs
  {
    var q := a / HourMs;
    var r := a % HourMs;
    assert a == HourMs * q + r && 0 <= r < HourMs;
    assert a == MinuteMs * (60 * q + r / MinuteMs) + r % MinuteMs;
    assert a / MinuteMs == 60 * q + r / MinuteMs;
  }

  /** Flooring hours to days is flooring milliseconds to days. */
  lemma HoursToDays(a: nat)
    ensures a / HourMs / 24 == a / DayMs
  {
    var q := a / DayMs;
    var r := a % DayMs;
    assert a == DayMs * q + r && 0 <= r < DayMs;
    assert a == HourMs * (24 * q + r / HourMs) + r % HourMs;
    assert a / HourMs == 24 * q + r / HourMs;
  }

  /** The band of a difference `diff = fecha - ahora` in milliseconds: whole
      days, else whole hours, else whole minutes, else now. */
  function Band(diff: int): (r: Remaining)
    ensures r == Past <==> diff < 0
    ensures r.Days? <==> diff >= DayMs
    ensures r.Days? ==> r.days == diff / DayMs && r.days >= 1
    ensures r.Hours? <==> HourMs <= diff < DayMs
    ensures r.Hours? ==> r.hours == diff / HourMs && 1 <= r.hours < 24
    ensures r.Minutes? <==> MinuteMs <= diff < HourMs
    ensures r.Minutes? ==> r.minutes == diff / MinuteMs && 1 <= r.minutes < 60
    ensures r == Now <==> 0 <= diff < MinuteMs
  {
    if diff < 0 then Past
    else
      var minutes := diff / MinuteMs;
      var hours := minutes / 60;
      var days := hours / 24;
      MinutesToHours(diff);
      HoursToDays(diff);
      if days > 0 then Days(days)
      else if hours > 0 then Hours(hours)
      else if minutes > 0 then Minutes(minutes)
      else Now
  }

  /** "N unit" with the plural "s" exactly when N is more than one. */
  function Counted(n: nat, unit: string): (r: string)
    requires unit != "" && unit[|unit| - 1] != 's'
    ensures StartsWith(r, NatToString(n) + " " + unit)
    ensures |r| == |NatToString(n) + " " + unit| + (if n > 1 then 1 else 0)
    ensures |r| > 0 && (r[|r| - 1] == 's' <==> n > 1)
  {
    var r := NatToString(n) + " " + unit + (if n > 1 then "s" else "");
    StartsWithSelf(NatToString(n) + " " + unit, if n > 1 then "s" else "");
    assert n <= 1 ==> r[|r| - 1] == unit[|unit| - 1];
    r
  }

  function RemainingText(r: Remaining): (t: string)
    ensures |t| > 0 && (t[0] == 'E' <==> r.Days? || r.Hours? || r.Minutes?)
    ensures r == Past <==> t == "Ya pasó"
    ensures r == Now <==> t == "Ahora mismo"
  {
    match r
    case Past => "Ya pasó"
    case Days(d) => "En " + Counted(d, "día")
    case Hours(h) => "En " + Counted(h, "hora")
    case Minutes(m) => "En " + Counted(m, "minuto")
    case Now => "Ahora mismo"
  }

  /** `formatearTiempoRestante(fechaHora)` at clock reading `now`. */
  function TimeLeft(when: int, now: int): (t: string)
    ensures when < now <==> t == "Ya pasó"
    ensures 0 <= when - now < MinuteMs <==> t == "Ahora mismo"
    // otherwise the largest unit with a whole count of at least one
    ensures when - now >= DayMs ==> t == "En " + Counted((when - now) / DayMs, "día")
    ensures HourMs <= when - now < DayMs ==> t == "En " + Counted((when - now) / HourMs, "hora")
    ensures MinuteMs <= when - now < HourMs ==> t == "En " + Counted((when - now) / MinuteMs, "minuto")
  {
    var r := Band(when - now);
    var t := RemainingText(r);
    assert "Ahora mismo"[0] == 'A' && "Ya pasó"[0] == 'Y';
    t
  }

  /** The unit is singular exactly for a count of one. */
  lemma PluralIffMoreThanOne(diff: int)
    requires diff >= MinuteMs
    ensures var t := RemainingText(Band(diff));
            t[|t| - 1] == 's' <==>
              (if diff >= DayMs then diff / DayMs > 1
               else if diff >= HourMs then diff / HourMs > 1
               else diff / MinuteMs > 1)
  {
    var r := Band(diff);
    match r
    case Days(d) =>
      var c := Counted(d, "día");
      assert ("En " + c)[|"En " + c| - 1] == c[|c| - 1];
    case Hours(h) =>
      var c := Counted(h, "hora");
      assert ("En " + c)[|"En " + c| - 1] == c[|c| - 1];
    case Minutes(m) =>
      var c := Counted(m, "minuto");
      assert ("En " + c)[|"En " + c| - 1] == c[|c| - 1];
  }

  // ---------------------------------------------------------------------------
  // Icons (`getIconoPorTipo`)
  // ---------------------------------------------------------------------------

  const DefaultIcon: string := "📅"

  const Icons: map<string, string> := map[
    "cita" := "🏥", "clase" := "📚", "examen" := "📝", "evento" := "🎉",
    "recordatorio" := "⏰", "asesoria" := "👨‍🏫", "tutoria" := "📖"]

  /** The names a plain object inherits from `Object.prototype` whose value
      is a built-in method; looking one of them up in the icon table finds
      that method rather than nothing. */
  const InheritedMethods: set<string> := {
    "hasOwnProperty", "isPrototypeOf", "propertyIsEnumerable", "toString", "valueOf", "toLocaleString",
    "__defineGetter__", "__defineSetter__", "__lookupGetter__", "__lookupSetter__"}

  /** Every inherited name: the methods, the `constructor` (the `Object`
      function) and the `__proto__` accessor (the prototype object). */
  const Inherited: set<string> := InheritedMethods + {"constructor", "__proto__"}

  /** The icon of a kind as the listing prints it: the table's own entry; for
      an inherited name, the text of the inherited value (a built-in
      function prints as its native-code source, the prototype object as
      `[object Object]`); the calendar for every other kind. */
  function IconFor(kind: string): (icon: string)
    ensures icon == DefaultIcon <==> kind !in Icons && kind !in Inherited
    ensures kind in Icons ==> icon == Icons[kind]
    ensures kind in InheritedMethods ==> icon == "function " + kind + "() { [native code] }"
    ensures kind == "constructor" ==> icon == "function Object() { [native code] }"
    ensures kind == "__proto__" ==> icon == "[object Object]"
  {
    if kind in Icons then Icons[kind]
    else if kind in InheritedMethods then
      var f := "function " + kind + "() { [native code] }";
      assert f[0] == 'f';
      f
    else if kind == "constructor" then "function Object() { [native code] }"
    else if kind == "__proto__" then "[object Object]"
    else DefaultIcon
  }

  // ---------------------------------------------------------------------------
  // The listing (`handleVerAgenda`)
  // ---------------------------------------------------------------------------

  const EmptyAgendaText: string :=
    "📅 *Mi Agenda*\n\nNo tienes eventos programados para los próximos 7 días.\n\n"
    + "Para agendar algo nuevo, escribe:\n*\"agendar\"* o *\"nueva cita\"*\n\n" + MenuHint
  const ViewErrorText: string := "❌ Error al consultar tu agenda.\n\n" + MenuHint
  const ListingHeader: string := "📅 *Mi Agenda - Próximos 7 Días*\n\n"
  const ListingFooter: string :=
    "───────────────────\n\n💡 *Opciones:*\n• *\"agendar\"* - Nueva cita\n"
    + "• *\"cancelar cita [número]\"* - Cancelar\n\n" + MenuHint

  /** `item.ubicacion || 'Sin ubicación'`. */
  function PlaceText(place: Option<string>): (t: string)
    ensures Truthy(place) ==> t == place.value
    ensures !Truthy(place) ==> t == "Sin ubicación"
  {
    if Truthy(place) then place.value else "Sin ubicación"
  }

  /** Any status other than 'pendiente' is labelled as confirmed. */
  function StatusLabel(status: string): (t: string)
    ensures t == "⏳ Pendiente" <==> status == PendingStatus
  {
    if status == PendingStatus then "⏳ Pendiente" else "✅ Confirmado"
  }

  /** The line `   📍 <place>`, with the default for a falsy location. */
  function PlaceLine(place: Option<string>): string {
    "   📍 " + PlaceText(place) + "\n"
  }

  /** The block of the appointment numbered `n`: its number, icon and title,
      the date and time, the location, the time left and the status, each on
      a line of its own; `date` and `time` stand for the locale formatting. */
  function ItemBlock(n: nat, a: Appointment, now: int, date: int -> string, time: int -> string): (r: string)
    ensures StartsWith(r, NatToString(n) + ". " + IconFor(a.kind) + " *" + a.title + "*\n")
    ensures Contains(r, "   📆 " + date(a.when) + " - " + time(a.when) + "\n" + PlaceLine(a.place))
    ensures Contains(r, PlaceLine(a.place))
    ensures Contains(r, "   ⏰ " + TimeLeft(a.when, now) + "\n")
    ensures EndsWith(r, "   Estado: " + StatusLabel(a.status) + "\n\n")
  {
    var head := NatToString(n) + ". " + IconFor(a.kind) + " *" + a.title + "*\n";
    var day := "   📆 " + date(a.when) + " - " + time(a.when) + "\n";
    var at := day + PlaceLine(a.place);
    var left := "   ⏰ " + TimeLeft(a.when, now) + "\n";
    var status := "   Estado: " + StatusLabel(a.status) + "\n\n";
    var r := head + at + left + status;
    ConcatParts(head + at, left, status);
    StartsWithSelf(head, at);
    StartsWithTrans(r, head + at, head);
    ContainsEnds(head, at);
    ContainsTrans(r, head + at, at);
    ContainsEnds(day, PlaceLine(a.place));
    ContainsTrans(r, at, PlaceLine(a.place));
    r
  }

  /** A listed appointment without a (truthy) location shows `Sin ubicación`
      in its block of the listing. */
  lemma MissingPlaceShown(table: seq<Appointment>, student: nat, now: int,
                          date: int -> string, time: int -> string, k: nat)
    requires k < |ViewList(table, student, now)|
    requires !Truthy(ViewList(table, student, now)[k].place)
    ensures Contains(View(Success(table), student, now, date, time), "   📍 " + "Sin ubicación" + "\n")
  {
    var items := ViewList(table, student, now);
    var block := ItemBlock(k + 1, items[k], now, date, time);
    ItemBlocksNumbering(items, 1, now, date, time, k);
    ContainsTrans(View(Success(table), student, now, date, time), ItemBlocks(items, 1, now, date, time), block);
    assert PlaceLine(items[k].place) == "   📍 " + "Sin ubicación" + "\n";
    ContainsTrans(View(Success(table), student, now, date, time), block, PlaceLine(items[k].place));
  }

  /** The blocks of `items`, numbered from `first`. */
  function ItemBlocks(items: seq<Appointment>, first: nat, now: int, date: int -> string, time: int -> string): string {
    Concat(seq(|items|, i requires 0 <= i < |items| => ItemBlock(first + i, items[i], now, date, time)))
  }

  /** The `k`-th appointment appears under number `first + k`. */
  lemma ItemBlocksNumbering(items: seq<Appointment>, first: nat, now: int,
                            date: int -> string, time: int -> string, k: nat)
    requires k < |items|
    ensures Contains(ItemBlocks(items, first, now, date, time), ItemBlock(first + k, items[k], now, date, time))
  {
    var parts := seq(|items|, i requires 0 <= i < |items| => ItemBlock(first + i, items[i], now, date, time));
    ConcatContains(parts, k);
  }

  /** `handleVerAgenda(estudianteId)` over the table (or the query's error). */
  function View(rows: StoreResult<seq<Appointment>>, student: nat, now: int,
                date: int -> string, time: int -> string): (r: string)
    ensures rows.Failure? ==> r == ViewErrorText
    ensures rows.Success? && ViewList(rows.value, student, now) == [] ==> r == EmptyAgendaText
    ensures rows.Success? && ViewList(rows.value, student, now) != [] ==>
              StartsWith(r, ListingHeader) && EndsWith(r, ListingFooter)
              && Contains(r, ItemBlocks(ViewList(rows.value, student, now), 1, now, date, time))
    // and nothing else: the blocks sit directly between header and footer
    ensures rows.Success? && ViewList(rows.value, student, now) != [] ==>
              && StartsWith(r, ListingHeader + ItemBlocks(ViewList(rows.value, student, now), 1, now, date, time))
              && |r| == |ListingHeader| + |ItemBlocks(ViewList(rows.value, student, now), 1, now, date, time)|
                        + |ListingFooter|
  {
    match rows
    case Failure(_) => ViewErrorText
    case Success(table) =>
      var items := ViewList(table, student, now);
      if items == [] then EmptyAgendaText
      else
        var blocks := ItemBlocks(items, 1, now, date, time);
        ConcatParts(ListingHeader, blocks, ListingFooter);
        StartsWithSelf(ListingHeader + blocks, ListingFooter);
        ListingHeader + blocks + ListingFooter
  }

  /** The appointment listed under number `k + 1` is the one that `cancelar
      cita k + 1` cancels. */
  lemma ListedNumberCancels(table: seq<Appointment>, student: nat, now: int,
                            date: int -> string, time: int -> string, k: nat)
    requires k < |ViewList(table, student, now)|
    ensures k < |CancelList(table, student, now)|
    ensures ViewList(table, student, now)[k] == CancelList(table, student, now)[k]
    ensures Contains(View(Success(table), student, now, date, time),
                     ItemBlock(k + 1, ViewList(table, student, now)[k], now, date, time))
    ensures Cancel(table, student, now, k + 1, true, true).reply
            == CancelledText(ViewList(table, student, now)[k].title)
  {
    var items := ViewList(table, student, now);
    ViewIsPrefixOfCancel(table, student, now);
    ItemBlocksNumbering(items, 1, now, date, time, k);
    ContainsTrans(View(Success(table), student, now, date, time),
                  ItemBlocks(items, 1, now, date, time), ItemBlock(k + 1, items[k], now, date, time));
  }

  // ---------------------------------------------------------------------------
  // Date extraction (`parsearFechaHora`)
  // ---------------------------------------------------------------------------

  /** The five captured numbers of `(\d{1,2})/(\d{1,2})/(\d{4})\s+(\d{1,2}):(\d{2})`. */
  datatype Fields = Fields(day: nat, month: nat, year: nat, hour: nat, minute: nat)

  predicate DigitsIn(s: string, i: nat, j: nat) {
    i <= j <= |s| && forall k :: i <= k < j ==> IsDigit(s[k])
  }

  predicate SpacesIn(s: string, i: nat, j: nat) {
    i <= j <= |s| && forall k :: i <= k < j ==> IsSpace(s[k])
  }

  function NumberIn(s: string, i: nat, j: nat): nat
    requires DigitsIn(s, i, j)
  {
    ParseDecimal(s[i..j])
  }

  /** The run lengths of one match: day, month, white space and hour (the
      year and the minutes have fixed widths). */
  datatype Shape = Shape(dl: nat, ml: nat, wl: nat, hl: nat)

  /** The reference definition: the text at `i` has the pattern's shape for
      these run lengths. */
  predicate ShapeAt(s: string, i: nat, sh: Shape) {
    var p1 := i + sh.dl;
    var p2 := p1 + 1 + sh.ml;
    var p3 := p2 + 1 + 4;
    var p4 := p3 + sh.wl;
    var p5 := p4 + sh.hl;
    && 1 <= sh.dl <= 2 && 1 <= sh.ml <= 2 && sh.wl >= 1 && 1 <= sh.hl <= 2
    && p5 + 3 <= |s|
    && DigitsIn(s, i, p1) && s[p1] == '/'
    && DigitsIn(s, p1 + 1, p2) && s[p2] == '/'
    && DigitsIn(s, p2 + 1, p3)
    && SpacesIn(s, p3, p4)
    && DigitsIn(s, p4, p5) && s[p5] == ':'
    && DigitsIn(s, p5 + 1, p5 + 3)
  }

  /** The five captures of a match of shape `sh` at `i`. */
  function Captures(s: string, i: nat, sh: Shape): Fields
    requires ShapeAt(s, i, sh)
  {
    var p1 := i + sh.dl;
    var p2 := p1 + 1 + sh.ml;
    var p3 := p2 + 1 + 4;
    var p4 := p3 + sh.wl;
    var p5 := p4 + sh.hl;
    Fields(NumberIn(s, i, p1), NumberIn(s, p1 + 1, p2), NumberIn(s, p2 + 1, p3),
           NumberIn(s, p4, p5), NumberIn(s, p5 + 1, p5 + 3))
  }

  /** The pattern matches at `i` with captures `f`. */
  ghost predicate MatchesAt(s: string, i: nat, f: Fields) {
    exists sh :: ShapeAt(s, i, sh) && Captures(s, i, sh) == f
  }

  /** The length of a run of one or two digits at `i` followed by `sep`
      (0 when there is none); the run is determined by the separator. */
  function ShortRun(s: string, i: nat, sep: char): (n: nat)
    requires !IsDigit(sep)
    ensures n <= 2
    ensures n > 0 ==> DigitsIn(s, i, i + n) && i + n < |s| && s[i + n] == sep
    ensures DigitsIn(s, i, i + 1) && i + 1 < |s| && s[i + 1] == sep ==> n == 1
    ensures DigitsIn(s, i, i + 2) && i + 2 < |s| && s[i + 2] == sep ==> n == 2
  {
    if i + 1 < |s| && IsDigit(s[i]) && s[i + 1] == sep then 1
    else if i + 2 < |s| && IsDigit(s[i]) && IsDigit(s[i + 1]) && s[i + 2] == sep then 2
    else 0
  }

  /** The length of the white-space run at `i`. */
  function SpaceRun(s: string, i: nat): (n: nat)
    requires i <= |s|
    ensures SpacesIn(s, i, i + n)
    ensures i + n == |s| || !IsSpace(s[i + n])
    decreases |s| - i
  {
    if i < |s| && IsSpace(s[i]) then 1 + SpaceRun(s, i + 1) else 0
  }

  /** A white-space run ending right before a non-space character is the
      maximal run. */
  lemma SpaceRunUnique(s: string, i: nat, w: nat)
    requires SpacesIn(s, i, i + w) && i + w < |s| && !IsSpace(s[i + w])
    ensures SpaceRun(s, i) == w
    decreases w
  {
    if w > 0 {
      SpaceRunUnique(s, i + 1, w - 1);
    }
  }

  /** The run lengths as the regular-expression engine finds them at one
      start position; every quantifier has at most one way to succeed. */
  function ShapeFrom(s: string, i: nat): Option<Shape> {
    var dl := ShortRun(s, i, '/');
    if dl == 0 then None
    else
      var ml := ShortRun(s, i + dl + 1, '/');
      if ml == 0 then None
      else
        var p3 := i + dl + 1 + ml + 1 + 4;
        if !DigitsIn(s, i + dl + 1 + ml + 1, p3) then None
        else
          var wl := SpaceRun(s, p3);
          if wl == 0 then None
          else
            var hl := ShortRun(s, p3 + wl, ':');
            if hl == 0 || !DigitsIn(s, p3 + wl + hl + 1, p3 + wl + hl + 3) then None
            else Some(Shape(dl, ml, wl, hl))
  }

  /** The engine's shape satisfies the reference definition ... */
  lemma ShapeFromSound(s: string, i: nat)
    ensures ShapeFrom(s, i).Some? ==> ShapeAt(s, i, ShapeFrom(s, i).value)
  {
  }

  /** ... and is the only shape that does. */
  lemma ShapeFromComplete(s: string, i: nat, sh: Shape)
    requires ShapeAt(s, i, sh)
    ensures ShapeFrom(s, i) == Some(sh)
  {
    RunsOfShape(s, i, sh);
    ShapeFromRuns(s, i, sh);
  }

  /** The engine's run lengths on a text of shape `sh`. */
  lemma RunsOfShape(s: string, i: nat, sh: Shape)
    requires ShapeAt(s, i, sh)
    ensures sh.dl > 0 && sh.ml > 0 && sh.wl > 0 && sh.hl > 0
    ensures ShortRun(s, i, '/') == sh.dl
    ensures ShortRun(s, i + sh.dl + 1, '/') == sh.ml
    ensures DigitsIn(s, i + sh.dl + 1 + sh.ml + 1, i + sh.dl + 1 + sh.ml + 1 + 4)
    ensures i + sh.dl + 1 + sh.ml + 1 + 4 <= |s|
    ensures SpaceRun(s, i + sh.dl + 1 + sh.ml + 1 + 4) == sh.wl
    ensures ShortRun(s, i + sh.dl + 1 + sh.ml + 1 + 4 + sh.wl, ':') == sh.hl
    ensures DigitsIn(s, i + sh.dl + 1 + sh.ml + 1 + 4 + sh.wl + sh.hl + 1, i + sh.dl + 1 + sh.ml + 1 + 4 + sh.wl + sh.hl + 3)
  {
    var p1 := i + sh.dl;
    var p2 := p1 + 1 + sh.ml;
    var p3 := p2 + 1 + 4;
    var p4 := p3 + sh.wl;
    assert DigitsIn(s, i, p1) && s[p1] == '/';
    assert DigitsIn(s, p1 + 1, p2) && s[p2] == '/';
    assert SpacesIn(s, p3, p4) && DigitsIn(s, p4, p4 + sh.hl);
    assert IsDigit(s[p4]);
    SpaceRunUnique(s, p3, sh.wl);
    assert s[p4 + sh.hl] == ':';
  }

  /** The engine's steps succeed with the given run lengths. */
  lemma ShapeFromRuns(s: string, i: nat, sh: Shape)
    requires sh.dl > 0 && sh.ml > 0 && sh.wl > 0 && sh.hl > 0
    requires ShortRun(s, i, '/') == sh.dl
    requires ShortRun(s, i + sh.dl + 1, '/') == sh.ml
    requires DigitsIn(s, i + sh.dl + 1 + sh.ml + 1, i + sh.dl + 1 + sh.ml + 1 + 4)
    requires i + sh.dl + 1 + sh.ml + 1 + 4 <= |s|
    requires SpaceRun(s, i + sh.dl + 1 + sh.ml + 1 + 4) == sh.wl
    requires ShortRun(s, i + sh.dl + 1 + sh.ml + 1 + 4 + sh.wl, ':') == sh.hl
    requires DigitsIn(s, i + sh.dl + 1 + sh.ml + 1 + 4 + sh.wl + sh.hl + 1, i + sh.dl + 1 + sh.ml + 1 + 4 + sh.wl + sh.hl + 3)
    ensures ShapeFrom(s, i) == Some(sh)
  {
  }

  /** The matcher at one start position. */
  function MatchAt(s: string, i: nat): (r: Option<Fields>)
    ensures r.Some? ==> MatchesAt(s, i, r.value)
    ensures r.None? ==> forall f :: !MatchesAt(s, i, f)
  {
    ShapeFromSound(s, i);
    assert forall f :: MatchesAt(s, i, f) ==> ShapeFrom(s, i).Some? by {
      forall f | MatchesAt(s, i, f) ensures ShapeFrom(s, i).Some? {
        var sh :| ShapeAt(s, i, sh) && Captures(s, i, sh) == f;
        ShapeFromComplete(s, i, sh);
      }
    }
    match ShapeFrom(s, i)
    case None => None
    case Some(sh) => Some(Captures(s, i, sh))
  }

  /** A match determines its captures. */
  lemma MatchAtComplete(s: string, i: nat, f: Fields)
    requires MatchesAt(s, i, f)
    ensures MatchAt(s, i) == Some(f)
  {
    var sh :| ShapeAt(s, i, sh) && Captures(s, i, sh) == f;
    ShapeFromComplete(s, i, sh);
  }

  /** Nothing matches at or past the end of the text. */
  lemma NoMatchPastEnd(s: string, j: nat)
    requires j >= |s|
    ensures MatchAt(s, j).None?
  {
    assert ShortRun(s, j, '/') == 0;
    assert ShapeFrom(s, j).None?;
  }

  /** The leftmost match at or after `from`. */
  function FirstMatch(s: string, from: nat): (r: Option<(nat, Fields)>)
    ensures r.Some? ==> from <= r.value.0 && MatchAt(s, r.value.0) == Some(r.value.1)
    decreases |s| - from
  {
    if from >= |s| then None
    else
      match MatchAt(s, from)
      case Some(f) => Some((from, f))
      case None => FirstMatch(s, from + 1)
  }

  /** No position before the one `FirstMatch` reports matches, and when it
      reports none, no position at all matches. */
  lemma FirstMatchLeftmost(s: string, from: nat)
    ensures FirstMatch(s, from).Some? ==> forall j :: from <= j < FirstMatch(s, from).value.0 ==> MatchAt(s, j).None?
    ensures FirstMatch(s, from).None? ==> forall j :: from <= j ==> MatchAt(s, j).None?
  {
    if FirstMatch(s, from).Some? {
      NothingBeforeFirst(s, from);
    } else {
      NothingWithoutFirst(s, from);
    }
  }

  lemma {:induction false} NothingBeforeFirst(s: string, from: nat)
    requires FirstMatch(s, from).Some?
    ensures forall j :: from <= j < FirstMatch(s, from).value.0 ==> MatchAt(s, j).None?
    decreases |s| - from
  {
    var k := FirstMatch(s, from).value.0;
    if MatchAt(s, from).None? {
      assert FirstMatch(s, from) == FirstMatch(s, from + 1);
      NothingBeforeFirst(s, from + 1);
      assert forall j :: from + 1 <= j < k ==> MatchAt(s, j).None?;
    } else {
      assert k == from;
    }
  }

  lemma {:induction false} NothingWithoutFirst(s: string, from: nat)
    requires FirstMatch(s, from).None?
    ensures forall j :: from <= j ==> MatchAt(s, j).None?
    decreases |s| - from
  {
    if from >= |s| {
      forall j | from <= j ensures MatchAt(s, j).None? {
        NoMatchPastEnd(s, j);
      }
    } else {
      NothingWithoutFirst(s, from + 1);
    }
  }

  /** `parsearFechaHora(texto)`: the leftmost date in the text, converted by
      `toEpoch` (the calendar), unless that moment is before `now`. */
  function ParseDateTime(text: string, now: int, toEpoch: Fields -> int): (r: Option<int>)
    ensures r.Some? <==> exists i: nat, f :: MatchesAt(text, i, f) && toEpoch(LeftmostFields(text)) >= now
    ensures r.Some? ==> r.value == toEpoch(LeftmostFields(text)) && r.value >= now
  {
    FirstMatchLeftmost(text, 0);
    match FirstMatch(text, 0)
    case None =>
      assert forall i: nat, f :: !MatchesAt(text, i, f) by {
        forall i: nat, f ensures !MatchesAt(text, i, f) {
          assert MatchAt(text, i).None?;
        }
      }
      None
    case Some((i, f)) =>
      var epoch := toEpoch(f);
      if epoch < now then None else Some(epoch)
  }

  /** The captures of the leftmost match (placeholder zeros when there is none). */
  function LeftmostFields(text: string): Fields {
    match FirstMatch(text, 0)
    case None => Fields(0, 0, 0, 0, 0)
    case Some((_, f)) => f
  }

  /** The leftmost match is the one whose start no other match precedes. */
  lemma LeftmostIsFirst(text: string, i: nat, f: Fields)
    requires MatchesAt(text, i, f)
    requires forall j: nat, g :: j < i ==> !MatchesAt(text, j, g)
    ensures LeftmostFields(text) == f
  {
    MatchAtComplete(text, i, f);
    FirstMatchLeftmost(text, 0);
    var r := FirstMatch(text, 0);
    assert r.Some?;
    var k := r.value.0;
    assert MatchesAt(text, k, r.value.1);
    assert !(k < i);
    assert !(i < k);
  }

  /** A moment equal to the current time is accepted; one earlier is not. */
  lemma PastRejected(text: string, now: int, toEpoch: Fields -> int)
    requires FirstMatch(text, 0).Some?
    ensures toEpoch(LeftmostFields(text)) == now ==> ParseDateTime(text, now, toEpoch) == Some(now)
    ensures toEpoch(LeftmostFields(text)) < now ==> ParseDateTime(text, now, toEpoch) == None
  {
  }

  const ExampleText: string := "el 5/11/2025  9:30"

  lemma ExampleShape()
    ensures ShapeAt(ExampleText, 3, Shape(1, 2, 2, 1))
  {
    var s := ExampleText;
    assert s[3] == '5' && s[4] == '/' && s[5] == '1' && s[6] == '1' && s[7] == '/';
    assert s[8] == '2' && s[9] == '0' && s[10] == '2' && s[11] == '5';
    assert s[12] == ' ' && s[13] == ' ' && s[14] == '9' && s[15] == ':' && s[16] == '3' && s[17] == '0';
  }

  lemma ExampleYear()
    ensures ParseDecimal(ExampleText[8..12]) == 2025
  {
    var y := ExampleText[8..12];
    assert y == "2025";
    assert y[..3] == "202" && "202"[..2] == "20" && "20"[..1] == "2" && "2"[..0] == "";
  }

  lemma ExampleDay()
    ensures ParseDecimal(ExampleText[3..4]) == 5
  {
    assert ExampleText[3..4] == "5" && "5"[..0] == "";
  }

  lemma ExampleMonth()
    ensures ParseDecimal(ExampleText[5..7]) == 11
  {
    assert ExampleText[5..7] == "11" && "11"[..1] == "1" && "1"[..0] == "";
  }

  lemma ExampleHour()
    ensures ParseDecimal(ExampleText[14..15]) == 9
  {
    assert ExampleText[14..15] == "9" && "9"[..0] == "";
  }

  lemma ExampleMinute()
    ensures ParseDecimal(ExampleText[16..18]) == 30
  {
    assert ExampleText[16..18] == "30" && "30"[..1] == "3" && "3"[..0] == "";
  }

  /** An example: the date is found after other text and extra spaces. */
  lemma ExampleExtraction()
    ensures MatchesAt(ExampleText, 3, Fields(5, 11, 2025, 9, 30))
  {
    var sh := Shape(1, 2, 2, 1);
    ExampleShape();
    ExampleYear();
    ExampleDay();
    ExampleMonth();
    ExampleHour();
    ExampleMinute();
    assert Captures(ExampleText, 3, sh) == Fields(5, 11, 2025, 9, 30);
  }
}

=== FILE: ai_service.dfy ===
/** The decision logic of src/services/aiService.js: the FAQ short-circuit in
    front of the completion service, the never-throw fallback, prompt
    assembly, and the three keyword classifiers (sentiment, urgency,
    category).  The FAQ lookup, the completion service and the conversation
    save are inputs; the model records which prompts were sent and which
    conversations were saved. */
module AiService {
  import opened Wrappers
  import opened Text
  import opened Records
  import Gemini

  /** The `fuente` of an answer: 'faq', 'gemini' or 'error'. */
  datatype Source = Faq | Generated | Fallback

  /** What `generarRespuestaIA` resolves with. */
  datatype Answer = Answer(text: string, source: Source, similarity: Option<real>, error: Option<string>)

  /** The best FAQ row the store found and its text similarity to the question. */
  datatype FaqHit = FaqHit(answer: string, similarity: real)

  /** `contexto`: the asking student and their courses, each possibly absent. */
  datatype Context = Context(student: Option<Student>, courses: Option<seq<Course>>)

  /** One run of `generarRespuestaIA`: the answer, the prompts sent to the
      completion service, and the conversations saved along the way. */
  datatype Run = Run(answer: Answer, prompts: seq<string>, saved: seq<Conversation>)

  /** An FAQ hit is used only when its similarity is strictly above this. */
  const FaqThreshold: real := 0.65

  const FallbackText: string :=
    "Lo siento, tuve un problema al procesar tu pregunta. \U{1F614}\n\n"
    + "¿Podrías reformularla o escribir *\"menú\"* para ver las opciones disponibles?"

  // ---------------------------------------------------------------------------
  // Prompt assembly (`construirPrompt`)
  // ---------------------------------------------------------------------------

  /** The system instruction; its copy is abbreviated to its first sentence. */
  const SystemPrompt: string :=
    "Eres IngeniaBot, el asistente virtual oficial de una universidad en Perú."

  const StudentHeader: string := "CONTEXTO DEL ESTUDIANTE:\n"
  const CoursesHeader: string := "CURSOS ACTUALES:\n"
  const QuestionHeader: string := "PREGUNTA DEL ESTUDIANTE:\n"
  const AnswerCue: string := "RESPUESTA:"
  const Instructions: string :=
    "INSTRUCCIONES:\n"
    + "- Responde de forma concisa (máximo 200 palabras)\n"
    + "- Usa un tono amigable y profesional\n"
    + "- Si no tienes información suficiente, sé honesto\n"
    + "- Si la pregunta no es sobre temas universitarios, redirige cortésmente al menú\n"
    + "- Incluye emojis relevantes para ser más amigable\n\n"

  /** Everything before the optional sections. */
  const PromptLead: string := SystemPrompt + "\n\n"

  /** Everything after the question. */
  const PromptTail: string := "\n\n" + Instructions + AnswerCue

  /** One `- Label: value` line for a truthy text field, nothing otherwise;
      `lead` is the `- Label: ` part. */
  function FieldLine(lead: string, value: Option<string>): (r: string)
    ensures r == "" <==> !Truthy(value)
    ensures Truthy(value) ==> StartsWith(r, lead) && EndsWith(r, value.value + "\n")
  {
    if Truthy(value) then lead + value.value + "\n" else ""
  }

  /** The `- Semestre: n` line for a truthy (non-zero) term, nothing otherwise. */
  function TermLine(term: Option<int>): string {
    if TruthyInt(term) then "- Semestre: " + IntToString(term.value) + "\n" else ""
  }

  /** The student section: present only for a known student, with the name,
      career and term lines each only when that field is truthy. */
  function StudentBlock(student: Option<Student>): (r: string)
    ensures student.None? <==> r == ""
    ensures student.Some? ==> StartsWith(r, StudentHeader) && EndsWith(r, "\n")
  {
    match student
    case None => ""
    case Some(s) =>
      var r := StudentHeader + FieldLine("- Nombre: ", s.name) + FieldLine("- Carrera: ", s.career) + TermLine(s.term) + "\n";
      assert r[..|StudentHeader|] == StudentHeader;
      r
  }

  function CourseLine(c: Course): string {
    "- " + c.name + " (" + c.code + ")\n"
  }

  /** One line per course, in list order. */
  function CourseLines(courses: seq<Course>): (r: string)
    ensures |r| >= 6 * |courses|
  {
    if courses == [] then "" else CourseLine(courses[0]) + CourseLines(courses[1..])
  }

  /** The course section: present only for a non-empty course list. */
  function CoursesBlock(courses: Option<seq<Course>>): (r: string)
    ensures r == "" <==> courses.None? || |courses.value| == 0
    ensures r != "" ==> StartsWith(r, CoursesHeader) && EndsWith(r, "\n")
  {
    if courses.Some? && |courses.value| > 0 then
      var r := CoursesHeader + CourseLines(courses.value) + "\n";
      assert r[..|CoursesHeader|] == CoursesHeader;
      r
    else ""
  }

  /** A student with every field set gets the header, the name, career and
      term lines in that order, and the blank closing line. */
  lemma StudentBlockFull(s: Student)
    requires Truthy(s.name) && Truthy(s.career) && TruthyInt(s.term)
    ensures StudentBlock(Some(s)) ==
            StudentHeader + ("- Nombre: " + s.name.value + "\n") + ("- Carrera: " + s.career.value + "\n")
            + ("- Semestre: " + IntToString(s.term.value) + "\n") + "\n"
  {
  }

  /** A student with no field set gets only the header and the closing line. */
  lemma StudentBlockBare(s: Student)
    requires !Truthy(s.name) && !Truthy(s.career) && !TruthyInt(s.term)
    ensures StudentBlock(Some(s)) == StudentHeader + "\n"
  {
  }

  /** A falsy field (absent, `null` or the empty text; a zero term) writes
      nothing: the section is the one for a student without that field. */
  lemma StudentFalsyFieldsDropped(s: Student)
    ensures !Truthy(s.name) ==> StudentBlock(Some(s)) == StudentBlock(Some(s.(name := None)))
    ensures !Truthy(s.career) ==> StudentBlock(Some(s)) == StudentBlock(Some(s.(career := None)))
    ensures !TruthyInt(s.term) ==> StudentBlock(Some(s)) == StudentBlock(Some(s.(term := None)))
  {
  }

  /** A truthy field always shows its line. */
  lemma StudentTruthyFieldsShown(s: Student)
    ensures Truthy(s.name) ==> Contains(StudentBlock(Some(s)), "- Nombre: " + s.name.value + "\n")
    ensures Truthy(s.career) ==> Contains(StudentBlock(Some(s)), "- Carrera: " + s.career.value + "\n")
    ensures TruthyInt(s.term) ==>
              Contains(StudentBlock(Some(s)), "- Semestre: " + IntToString(s.term.value) + "\n")
  {
    var n, c, t := FieldLine("- Nombre: ", s.name), FieldLine("- Carrera: ", s.career), TermLine(s.term);
    var z := StudentHeader + n;
    var y := z + c;
    var x := y + t;
    ContainsEnds(StudentHeader, n);
    ContainsEnds(z, c);
    ContainsEnds(y, t);
    ContainsInLeft(z, c, n);
    ContainsInLeft(y, t, n);
    ContainsInLeft(y, t, c);
    ContainsInLeft(x, "\n", n);
    ContainsInLeft(x, "\n", c);
    ContainsInLeft(x, "\n", t);
  }

  /** The lines of two lists run one after the other. */
  lemma {:induction false} CourseLinesAppend(a: seq<Course>, b: seq<Course>)
    ensures CourseLines(a + b) == CourseLines(a) + CourseLines(b)
  {
    if a != [] {
      assert (a + b)[1..] == a[1..] + b;
      CourseLinesAppend(a[1..], b);
    } else {
      assert a + b == b;
    }
  }

  /** The line of the `k`-th course starts right after the lines of the
      courses before it: every course is listed, in list order. */
  lemma CourseLinesOrder(cs: seq<Course>, k: nat)
    requires k < |cs|
    ensures Occurs(CourseLines(cs), CourseLine(cs[k]), |CourseLines(cs[..k])|)
  {
    assert cs == cs[..k] + cs[k..];
    CourseLinesAppend(cs[..k], cs[k..]);
    assert cs[k..][1..] == cs[k + 1..];
    var x, l, y := CourseLines(cs[..k]), CourseLine(cs[k]), CourseLines(cs[k + 1..]);
    assert CourseLines(cs) == x + l + y;
    assert Occurs(l, l, 0);
    OccursInMiddle(x, l, y, l, 0);
  }

  /** In the course section the `k`-th course line follows the header and
      the lines of the courses before it. */
  lemma CoursesBlockLines(cs: seq<Course>, k: nat)
    requires k < |cs|
    ensures Occurs(CoursesBlock(Some(cs)), CourseLine(cs[k]), |CoursesHeader| + |CourseLines(cs[..k])|)
  {
    CourseLinesOrder(cs, k);
    var ls := CourseLines(cs);
    var i := |CourseLines(cs[..k])|;
    var l := CourseLine(cs[k]);
    assert CoursesBlock(Some(cs)) == CoursesHeader + ls + "\n";
    OccursInMiddle(CoursesHeader, ls, "\n", l, i);
  }

  /** `construirPrompt(pregunta, contexto)`. */
  function BuildPrompt(question: string, ctx: Context): (p: string)
    // the system text comes first and the fixed instructions plus the final
    // cue come last, immediately after the verbatim question
    ensures StartsWith(p, PromptLead)
    ensures EndsWith(p, question + PromptTail)
    // the conditional sections, in this order, between the two
    ensures var rest := p[|PromptLead|..];
            StartsWith(rest, StudentBlock(ctx.student) + CoursesBlock(ctx.courses) + QuestionHeader)
    // and nothing else: the parts are joined directly
    ensures |p| == |PromptLead| + |StudentBlock(ctx.student)| + |CoursesBlock(ctx.courses)|
                   + |QuestionHeader| + |question| + |PromptTail|
  {
    var middle := StudentBlock(ctx.student) + CoursesBlock(ctx.courses) + QuestionHeader;
    var tail := question + PromptTail;
    ConcatParts(PromptLead, middle, tail);
    StartsWithSelf(PromptLead + middle, tail);
    StartsWithDrop(PromptLead + middle + tail, PromptLead, middle);
    PromptLead + middle + tail
  }

  /** The three headers already differ in their first two characters. */
  lemma HeadersDiffer()
    ensures StudentHeader[0] == CoursesHeader[0] == 'C' && QuestionHeader[0] == 'P'
    ensures StudentHeader[1] == 'O' && CoursesHeader[1] == 'U'
  {
  }

  /** Text made of an optional student section, an optional course section
      and the question header starts with the student header exactly when the
      student section is there. */
  lemma LeadingHeader(sb: string, cb: string, rest: string)
    requires sb == "" || StartsWith(sb, StudentHeader)
    requires cb == "" || StartsWith(cb, CoursesHeader)
    requires StartsWith(rest, sb + cb + QuestionHeader)
    ensures StartsWith(rest, StudentHeader) <==> sb != ""
  {
    HeadersDiffer();
    var x := sb + cb + QuestionHeader;
    assert rest[..|x|] == x;
    assert rest[..|sb|] == x[..|sb|] == sb;
    assert rest[|sb|..][..|cb|] == x[|sb|..|sb| + |cb|] == cb;
    if sb != "" {
      assert rest[..|StudentHeader|] == sb[..|StudentHeader|];
    } else if cb != "" {
      assert rest[1] == cb[1] == CoursesHeader[1];
      StartsWithMismatch(rest, StudentHeader, 1);
    } else {
      assert rest[..|QuestionHeader|] == QuestionHeader;
      StartsWithMismatch(rest, StudentHeader, 0);
    }
  }

  /** Text that starts with the course section and then the question header
      starts with the course header exactly when the course list is non-empty. */
  lemma CourseSectionLeads(courses: Option<seq<Course>>, rest: string)
    requires StartsWith(rest, CoursesBlock(courses) + QuestionHeader)
    ensures StartsWith(rest, CoursesHeader) <==> (courses.Some? && |courses.value| > 0)
  {
    var cb := CoursesBlock(courses);
    HeadersDiffer();
    if cb != "" {
      StartsWithFront(rest, cb, QuestionHeader);
      StartsWithTrans(rest, cb, CoursesHeader);
    } else {
      assert cb + QuestionHeader == QuestionHeader;
      assert rest[..|QuestionHeader|][0] == rest[0];
      StartsWithMismatch(rest, CoursesHeader, 0);
    }
  }

  /** Each conditional section of the prompt is present exactly when its data
      is: after the system instruction comes the student header iff there is a
      student, and after the student section the course header iff the course
      list is non-empty. */
  lemma PromptSections(question: string, ctx: Context)
    ensures var rest := BuildPrompt(question, ctx)[|PromptLead|..];
            StartsWith(rest, StudentHeader) <==> ctx.student.Some?
    ensures var rest := BuildPrompt(question, ctx)[|PromptLead| + |StudentBlock(ctx.student)|..];
            StartsWith(rest, CoursesHeader) <==> (ctx.courses.Some? && |ctx.courses.value| > 0)
  {
    var p := BuildPrompt(question, ctx);
    var rest := p[|PromptLead|..];
    SectionsAfterLead(rest, ctx.student, ctx.courses);
    assert p[|PromptLead| + |StudentBlock(ctx.student)|..] == rest[|StudentBlock(ctx.student)|..];
  }

  /** The two section tests on the text after the system instruction. */
  lemma SectionsAfterLead(rest: string, student: Option<Student>, courses: Option<seq<Course>>)
    requires StartsWith(rest, StudentBlock(student) + CoursesBlock(courses) + QuestionHeader)
    ensures StartsWith(rest, StudentHeader) <==> student.Some?
    ensures |StudentBlock(student)| <= |rest|
    ensures StartsWith(rest[|StudentBlock(student)|..], CoursesHeader) <==> (courses.Some? && |courses.value| > 0)
  {
    var sb := StudentBlock(student);
    var cb := CoursesBlock(courses);
    LeadingHeader(sb, cb, rest);
    StartsWithDropFirst(rest, sb, cb, QuestionHeader);
    CourseSectionLeads(courses, rest[|sb|..]);
  }

  // ---------------------------------------------------------------------------
  // generarRespuestaIA
  // ---------------------------------------------------------------------------

  /** The FAQ lookup succeeded with a hit above the threshold. */
  predicate FaqUsable(faq: StoreResult<Option<FaqHit>>) {
    faq.Success? && faq.value.Some? && faq.value.value.similarity > FaqThreshold
  }

  /** `generarRespuestaIA(question, studentId, ctx)`.  `faq` is what the FAQ
      lookup did, `service` what the completion service does with a prompt,
      and `saveOk` whether saving the conversation succeeds.  The function is
      total: every failure ends in the fixed fallback answer. */
  function AnswerQuestion(
    question: string, studentId: nat, ctx: Context,
    faq: StoreResult<Option<FaqHit>>, service: string -> Gemini.ApiOutcome, saveOk: bool): (r: Run)
    // FAQ short-circuit: the stored answer, and the service is never called
    ensures r.answer.source == Faq <==> FaqUsable(faq)
    ensures FaqUsable(faq) ==>
              && r.answer.text == faq.value.value.answer
              && r.answer.similarity == Some(faq.value.value.similarity)
              && r.prompts == [] && r.saved == []
    // otherwise exactly one completion request, with the assembled prompt
    ensures !FaqUsable(faq) ==> r.prompts == [BuildPrompt(question, ctx)]
    // a generated answer is the service's non-blank text, saved as AI-sourced
    ensures r.answer.source == Generated ==>
              && Gemini.Generate(service(BuildPrompt(question, ctx))) == Success(r.answer.text)
              && !IsBlank(r.answer.text)
              && r.saved == (if saveOk then [Conversation(studentId, question, r.answer.text, true)] else [])
    // any failure of the service yields the fixed fallback text and saves nothing
    ensures r.answer.source == Fallback <==>
              !FaqUsable(faq) && Gemini.Generate(service(BuildPrompt(question, ctx))).Failure?
    ensures r.answer.source == Fallback ==>
              r.answer.text == FallbackText && r.saved == [] && r.answer.error.Some?
  {
    if FaqUsable(faq) then
      var hit := faq.value.value;
      Run(Answer(hit.answer, Faq, Some(hit.similarity), None), [], [])
    else
      var prompt := BuildPrompt(question, ctx);
      match Gemini.Generate(service(prompt))
      case Failure(m) => Run(Answer(FallbackText, Fallback, None, Some(m)), [prompt], [])
      case Success(t) =>
        if IsBlank(t) then
          Run(Answer(FallbackText, Fallback, None, Some(Gemini.EmptyTextError)), [prompt], [])
        else
          var saved := if saveOk then [Conversation(studentId, question, t, true)] else [];
          Run(Answer(t, Generated, None, None), [prompt], saved)
  }

  /** A failing FAQ lookup and a hit at or below the threshold (the store only
      returns hits above 0.5) both fall through to the completion service. */
  lemma FaqMissFallsThrough(
    question: string, studentId: nat, ctx: Context, service: string -> Gemini.ApiOutcome, saveOk: bool,
    hit: FaqHit)
    requires 0.5 < hit.similarity <= 0.65
    ensures AnswerQuestion(question, studentId, ctx, Failure("db down"), service, saveOk).prompts
            == [BuildPrompt(question, ctx)]
    ensures AnswerQuestion(question, studentId, ctx, Success(Some(hit)), service, saveOk).answer.source
            != Faq
  {
  }

  // ---------------------------------------------------------------------------
  // Keyword classifiers
  // ---------------------------------------------------------------------------

  datatype Mood = Positive | Negative | Neutral

  const PositiveWords: seq<string> := ["gracias", "excelente", "perfecto", "genial", "bueno", "bien"]
  const NegativeWords: seq<string> := ["malo", "error", "problema", "no funciona", "ayuda", "urgente"]

  /** `analizarSentimiento`: compares how many positive and how many negative
      keywords occur in the lower-cased message. */
  function Sentiment(message: string): (m: Mood)
    ensures var pos := CountContained(Lower(message), PositiveWords);
            var neg := CountContained(Lower(message), NegativeWords);
            (m == Positive <==> pos > neg) && (m == Negative <==> neg > pos) && (m == Neutral <==> pos == neg)
  {
    var t := Lower(message);
    var pos := CountContained(t, PositiveWords);
    var neg := CountContained(t, NegativeWords);
    if pos > neg then Positive else if neg > pos then Negative else Neutral
  }

  /** The scores are numbers of DISTINCT keywords present, so repeating a
      word does not change the verdict. */
  lemma SentimentCountsDistinctWords(message: string)
    ensures var t := Lower(message);
            var pos := |set w | w in PositiveWords && Contains(t, w)|;
            var neg := |set w | w in NegativeWords && Contains(t, w)|;
            (Sentiment(message) == Positive <==> pos > neg)
            && (Sentiment(message) == Negative <==> neg > pos)
  {
    var t := Lower(message);
    assert NoDuplicates(PositiveWords);
    assert NoDuplicates(NegativeWords);
    CountIsDistinctPresent(t, PositiveWords);
    CountIsDistinctPresent(t, NegativeWords);
  }

  /** "bien" is a substring of "bienestar": a message about the wellbeing
      office scores as positive. */
  lemma WellbeingReadsPositive()
    ensures Sentiment("bienestar") == Positive
  {
    WellbeingLowered();
    WellbeingHasPositive();
    WellbeingHasNoNegative();
  }

  lemma WellbeingLowered()
    ensures Lower("bienestar") == "bienestar"
  {
    LowerOfLowered("bienestar");
  }

  lemma WellbeingHasPositive()
    ensures ContainsAny("bienestar", PositiveWords)
  {
    assert "bienestar"[0..4] == PositiveWords[5];
    assert Occurs("bienestar", PositiveWords[5], 0);
  }

  lemma WellbeingHasNoNegative()
    ensures !ContainsAny("bienestar", NegativeWords)
  {
    var t := "bienestar";
    MissingCharExcludes(t, NegativeWords[0], 'm');
    MissingCharExcludes(t, NegativeWords[1], 'o');
    MissingCharExcludes(t, NegativeWords[2], 'o');
    MissingCharExcludes(t, NegativeWords[3], 'o');
    MissingCharExcludes(t, NegativeWords[4], 'y');
    MissingCharExcludes(t, NegativeWords[5], 'u');
  }

  const UrgentWords: seq<string> := ["urgente", "rápido", "ahora", "ya", "pronto", "necesito"]

  /** `esUrgente`: some urgent keyword occurs in the lower-cased message. */
  function IsUrgent(message: string): (urgent: bool)
    ensures urgent <==> exists k :: 0 <= k < |UrgentWords| && Contains(Lower(message), UrgentWords[k])
  {
    ContainsAny(Lower(message), UrgentWords)
  }

  /** Matching is by substring, so "ya" inside another word counts. */
  lemma SubstringUrgency()
    ensures IsUrgent("Playa")
  {
    var t := Lower("Playa");
    assert t == "playa";
    assert Occurs(t, UrgentWords[3], 3);
  }

  datatype Category = Courses | Payments | Admission | Wellbeing | Support | Library | Procedures | General

  /** The category table in its fixed order; `general` is not in it. */
  const CategoryTable: seq<(Category, seq<string>)> := [
    (Courses, ["curso", "clase", "horario", "profesor", "nota", "examen", "tarea"]),
    (Payments, ["pago", "pensión", "pension", "deuda", "precio", "costo", "mensualidad"]),
    (Admission, ["admisión", "admision", "postular", "inscripción", "inscripcion", "examen de ingreso"]),
    (Wellbeing, ["salud", "psicólogo", "psicologo", "médico", "medico", "gimnasio", "deporte"]),
    (Support, ["error", "no funciona", "problema técnico", "acceso", "contraseña"]),
    (Library, ["biblioteca", "libro", "préstamo", "prestamo"]),
    (Procedures, ["certificado", "constancia", "documento", "trámite", "tramite"])
  ]

  /** The category of the first entry of `table` one of whose keywords
      occurs in `t`; `General` when none does. */
  function FirstCategory(t: string, table: seq<(Category, seq<string>)>): (c: Category)
    requires forall k :: 0 <= k < |table| ==> table[k].0 != General
    ensures c == General <==> forall k :: 0 <= k < |table| ==> !ContainsAny(t, table[k].1)
    ensures c != General ==>
              exists k :: 0 <= k < |table| && table[k].0 == c && ContainsAny(t, table[k].1)
                       && forall j :: 0 <= j < k ==> !ContainsAny(t, table[j].1)
  {
    if table == [] then General
    else if ContainsAny(t, table[0].1) then
      assert 0 < |table| && table[0].0 == table[0].0 && ContainsAny(t, table[0].1);
      table[0].0
    else
      var c := FirstCategory(t, table[1..]);
      assert forall k :: 1 <= k < |table| ==> table[1..][k - 1] == table[k];
      if c == General then c
      else
        var k :| 0 <= k < |table[1..]| && table[1..][k].0 == c && ContainsAny(t, table[1..][k].1)
                 && forall j :: 0 <= j < k ==> !ContainsAny(t, table[1..][j].1);
        assert table[k + 1].0 == c && ContainsAny(t, table[k + 1].1);
        assert forall j :: 0 <= j < k + 1 ==> !ContainsAny(t, table[j].1) by {
          forall j | 0 <= j < k + 1 ensures !ContainsAny(t, table[j].1) {
            if j > 0 { assert table[j] == table[1..][j - 1]; }
          }
        }
        c
  }

  /** `categorizarPregunta`: first-match over the lower-cased question. */
  function Categorize(question: string): (c: Category)
    ensures c == General <==> forall k :: 0 <= k < |CategoryTable| ==> !ContainsAny(Lower(question), CategoryTable[k].1)
  {
    FirstCategory(Lower(question), CategoryTable)
  }

  /** The admission keyword "examen de ingreso" can never decide the
      category: it contains "examen", a course keyword checked earlier. */
  lemma EntranceExamIsCourses(question: string)
    requires Contains(Lower(question), "examen de ingreso")
    ensures Categorize(question) == Courses
  {
    var t := Lower(question);
    ContainsPrefix(t, "examen de ingreso", 6);
    assert "examen de ingreso"[..6] == "examen";
    assert CategoryTable[0].1[5] == "examen";
    assert ContainsAny(t, CategoryTable[0].1);
  }
}

=== FILE: course_list.dfy ===
/** `handleCursos` of src/handlers/cursosHandler.js: the student's course
    list as a numbered listing with optional profile lines and the total
    number of credits.  The course query is an input (`StoreResult`). */
module CourseList {
  import opened Wrappers
  import opened Text
  import opened Records


  const NoCoursesText: string :=
    "📚 *Mis Cursos*\n\nAún no tienes cursos registrados en el sistema.\n\n"
    + "📞 Por favor contacta a la oficina de registro académico para más información.\n\n"
    + MenuHint

  const ErrorText: string :=
    "❌ Hubo un error al consultar tus cursos.\n\nPor favor intenta nuevamente en unos momentos.\n\n"
    + MenuHint

  const ListingHeader: string := "📚 *Mis Cursos - Ciclo Actual*\n\n"

  /** What the handler decided to show, before rendering. */
  datatype View =
    | NoCourses
    | Failed
    | Listing(career: Option<string>, term: Option<int>, courses: seq<Course>, totalCredits: int)

  /** `c.creditos || 0`: a missing (or zero) credit count adds nothing. */
  function CreditsOf(c: Course): int {
    c.credits.GetOr(0)
  }

  /** The reference sum of credits, accumulated from the left as `reduce` does. */
  function SumCredits(cs: seq<Course>): (r: int)
    ensures (forall j :: 0 <= j < |cs| ==> CreditsOf(cs[j]) >= 0) ==> r >= 0
  {
    if cs == [] then 0 else SumCredits(cs[..|cs| - 1]) + CreditsOf(cs[|cs| - 1])
  }

  /** The sum splits over concatenation. */
  lemma {:induction false} SumCreditsAppend(a: seq<Course>, b: seq<Course>)
    ensures SumCredits(a + b) == SumCredits(a) + SumCredits(b)
    decreases |b|
  {
    if b == [] {
      assert a + b == a;
    } else {
      var b' := b[..|b| - 1];
      assert (a + b)[..|a + b| - 1] == a + b';
      SumCreditsAppend(a, b');
    }
  }

  /** With no negative credit counts the total bounds every single course. */
  lemma {:induction false} SumCreditsBounds(cs: seq<Course>, k: nat)
    requires forall j :: 0 <= j < |cs| ==> CreditsOf(cs[j]) >= 0
    requires k < |cs|
    ensures 0 <= CreditsOf(cs[k]) <= SumCredits(cs)
    decreases |cs|
  {
    var init := cs[..|cs| - 1];
    assert SumCredits(init) >= 0 by {
      if init != [] {
        assert forall j :: 0 <= j < |init| ==> init[j] == cs[j];
        SumCreditsBounds(init, 0);
      }
    }
    if k < |cs| - 1 {
      assert forall j :: 0 <= j < |init| ==> init[j] == cs[j];
      SumCreditsBounds(init, k);
    }
  }

  /** The `reduce` loop. */
  method TotalCredits(cs: seq<Course>) returns (total: int)
    ensures total == SumCredits(cs)
  {
    total := 0;
    var i := 0;
    while i < |cs|
      invariant 0 <= i <= |cs|
      invariant total == SumCredits(cs[..i])
    {
      assert cs[..i + 1][..i] == cs[..i];
      total := total + CreditsOf(cs[i]);
      i := i + 1;
    }
    assert cs[..|cs|] == cs;
  }

  /** The handler's decision: the error text when the query throws, the
      no-courses text for an empty list, otherwise every course in query order
      with the career and term lines kept only when truthy. */
  function Decide(student: Option<Student>, courses: StoreResult<seq<Course>>): (v: View)
    ensures v.Failed? <==> courses.Failure?
    ensures v.NoCourses? <==> courses == Success([])
    ensures v.Listing? ==>
              && v.courses == courses.value && |v.courses| > 0
              && v.totalCredits == SumCredits(courses.value)
              && (v.career.Some? <==> student.Some? && Truthy(student.value.career))
              && (v.career.Some? ==> v.career == student.value.career)
              && (v.term.Some? <==> student.Some? && TruthyInt(student.value.term))
              && (v.term.Some? ==> v.term == student.value.term)
  {
    match courses
    case Failure(_) => Failed
    case Success(cs) =>
      if |cs| == 0 then NoCourses
      else
        var career := if student.Some? && Truthy(student.value.career) then student.value.career else None;
        var term := if student.Some? && TruthyInt(student.value.term) then student.value.term else None;
        Listing(career, term, cs, SumCredits(cs))
  }

  // ---------------------------------------------------------------------------
  // Rendering
  // ---------------------------------------------------------------------------

  /** The code, professor and credit lines every course has. */
  function FixedLines(c: Course): string {
    "   📝 Código: " + c.code + "\n"
    + "   👨‍🏫 Profesor: " + c.professor + "\n"
    + "   ⭐ Créditos: " + ShowNullableInt(c.credits) + "\n"
  }

  function ScheduleLine(c: Course): string {
    if Truthy(c.schedule) then "   🕐 Horario: " + c.schedule.value + "\n" else ""
  }

  function RoomLine(c: Course): string {
    if Truthy(c.room) then "   🚪 Aula: " + c.room.value + "\n" else ""
  }

  /** The block of one course, numbered `n`; schedule and room only when truthy. */
  function CourseBlock(n: nat, c: Course): (r: string)
    ensures StartsWith(r, NatToString(n) + ". *" + c.name + "*\n")
  {
    var head := NatToString(n) + ". *" + c.name + "*\n";
    var r := head + FixedLines(c) + ScheduleLine(c) + RoomLine(c) + "\n";
    assert r[..|head|] == head;
    r
  }

  /** The schedule and room lines are shown exactly for truthy values: a
      truthy value appears on its line, and a falsy one renders the block as
      if the field were absent. */
  lemma OptionalLines(n: nat, c: Course)
    ensures Truthy(c.schedule) ==> Contains(CourseBlock(n, c), "   🕐 Horario: " + c.schedule.value + "\n")
    ensures Truthy(c.room) ==> Contains(CourseBlock(n, c), "   🚪 Aula: " + c.room.value + "\n")
    ensures !Truthy(c.schedule) ==> CourseBlock(n, c) == CourseBlock(n, c.(schedule := None))
    ensures !Truthy(c.room) ==> CourseBlock(n, c) == CourseBlock(n, c.(room := None))
  {
    var head := NatToString(n) + ". *" + c.name + "*\n";
    var front := head + FixedLines(c);
    var s := ScheduleLine(c);
    var rm := RoomLine(c);
    assert CourseBlock(n, c) == front + s + (rm + "\n");
    ConcatParts(front, s, rm + "\n");
    assert CourseBlock(n, c) == (front + s) + rm + "\n";
    ConcatParts(front + s, rm, "\n");
  }

  /** The blocks of `cs`, numbered from `first` on. */
  function CourseBlocks(cs: seq<Course>, first: nat): string {
    Concat(seq(|cs|, i requires 0 <= i < |cs| => CourseBlock(first + i, cs[i])))
  }

  /** Course `k` of the list appears under number `first + k`. */
  lemma CourseBlocksNumbering(cs: seq<Course>, first: nat, k: nat)
    requires k < |cs|
    ensures Contains(CourseBlocks(cs, first), CourseBlock(first + k, cs[k]))
  {
    ConcatContains(seq(|cs|, i requires 0 <= i < |cs| => CourseBlock(first + i, cs[i])), k);
  }

  function CareerLine(career: string): string {
    "👤 Carrera: " + career + "\n"
  }

  function TermLine(term: int): string {
    "📊 Semestre: " + IntToString(term) + "\n"
  }

  /** The optional career and term lines and the blank line after them. */
  function Profile(career: Option<string>, term: Option<int>): string {
    (if career.Some? then CareerLine(career.value) else "")
    + (if term.Some? then TermLine(term.value) else "")
    + "\n"
  }

  /** The closing credit count with the reduce's total. */
  function CreditsLine(total: int): string {
    "📊 Total de créditos: " + IntToString(total) + "\n\n"
  }

  /** The message of a view.  A listing is the header, the profile lines, the
      block of every course, and the credit total before the menu hint. */
  function Render(v: View): (r: string)
    ensures EndsWith(r, MenuHint)
    ensures v.Listing? ==> StartsWith(r, ListingHeader) && Contains(r, CourseBlocks(v.courses, 1))
    ensures v.Listing? ==> StartsWith(r, ListingHeader + Profile(v.career, v.term) + CourseBlocks(v.courses, 1))
    ensures v.Listing? ==> EndsWith(r, CreditsLine(v.totalCredits) + MenuHint)
    // and nothing else: the credit line follows the last course block directly
    ensures v.Listing? ==> |r| == |ListingHeader + Profile(v.career, v.term) + CourseBlocks(v.courses, 1)|
                                   + |CreditsLine(v.totalCredits) + MenuHint|
  {
    match v
    case Failed => ErrorText
    case NoCourses => NoCoursesText
    case Listing(career, term, cs, total) =>
      var front := ListingHeader + Profile(career, term);
      var blocks := CourseBlocks(cs, 1);
      var after := CreditsLine(total) + MenuHint;
      ConcatParts(front, blocks, after);
      StartsWithSelf(front + blocks, after);
      StartsWithFront(front + blocks + after, ListingHeader, Profile(career, term));
      EndsWithSelf(CreditsLine(total), MenuHint);
      EndsWithTrans(front + blocks + after, after, MenuHint);
      front + blocks + after
  }

  /** The profile lines of a listing: a truthy career and a truthy term each
      show their line, right after the header. */
  lemma ProfileShown(career: Option<string>, term: Option<int>, r: string)
    requires StartsWith(r, ListingHeader + Profile(career, term))
    ensures career.Some? ==> Contains(r, CareerLine(career.value))
    ensures term.Some? ==> Contains(r, TermLine(term.value))
  {
    var c := if career.Some? then CareerLine(career.value) else "";
    var t := if term.Some? then TermLine(term.value) else "";
    var x := ListingHeader + Profile(career, term);
    assert x == ListingHeader + (c + t + "\n");
    ConcatParts(c, t, "\n");
    ContainsInRight(ListingHeader, c + t + "\n", c);
    ContainsInRight(ListingHeader, c + t + "\n", t);
    assert r[..|x|] == x;
    assert Occurs(r, x, 0);
    ContainsTrans(r, x, c);
    ContainsTrans(r, x, t);
  }

  /** `handleCursos`: every course of a non-empty list is shown, with its
      position in the query result plus one as its number. */
  function HandleCourses(student: Option<Student>, courses: StoreResult<seq<Course>>): (r: string)
    ensures courses.Failure? ==> r == ErrorText
    ensures courses == Success([]) ==> r == NoCoursesText
    ensures courses.Success? && |courses.value| > 0 ==>
              StartsWith(r, ListingHeader)
              && forall k :: 0 <= k < |courses.value| ==> Contains(r, CourseBlock(k + 1, courses.value[k]))
    // the credit total of every course closes the listing
    ensures courses.Success? && |courses.value| > 0 ==>
              EndsWith(r, CreditsLine(SumCredits(courses.value)) + MenuHint)
    // the profile the decision kept and the course blocks open the listing,
    // and the credit line follows them directly
    ensures courses.Success? && |courses.value| > 0 ==>
              var v := Decide(student, courses);
              && StartsWith(r, ListingHeader + Profile(v.career, v.term) + CourseBlocks(courses.value, 1))
              && |r| == |ListingHeader + Profile(v.career, v.term) + CourseBlocks(courses.value, 1)|
                        + |CreditsLine(SumCredits(courses.value)) + MenuHint|
    // the profile lines of a truthy career and term
    ensures courses.Success? && |courses.value| > 0 && student.Some? && Truthy(student.value.career) ==>
              Contains(r, CareerLine(student.value.career.value))
    ensures courses.Success? && |courses.value| > 0 && student.Some? && TruthyInt(student.value.term) ==>
              Contains(r, TermLine(student.value.term.value))
  {
    var v := Decide(student, courses);
    if v.Listing? then ListingShows(v); Render(v) else Render(v)
  }

  /** A listing shows the profile lines and every course block. */
  lemma ListingShows(v: View)
    requires v.Listing?
    ensures v.career.Some? ==> Contains(Render(v), CareerLine(v.career.value))
    ensures v.term.Some? ==> Contains(Render(v), TermLine(v.term.value))
    ensures forall k :: 0 <= k < |v.courses| ==> Contains(Render(v), CourseBlock(k + 1, v.courses[k]))
  {
    var r := Render(v);
    StartsWithFront(r, ListingHeader + Profile(v.career, v.term), CourseBlocks(v.courses, 1));
    ProfileShown(v.career, v.term, r);
    forall k | 0 <= k < |v.courses| ensures Contains(r, CourseBlock(k + 1, v.courses[k])) {
      CourseBlocksNumbering(v.courses, 1, k);
      ContainsTrans(r, CourseBlocks(v.courses, 1), CourseBlock(k + 1, v.courses[k]));
    }
  }

  /** A falsy career or term writes no profile line: the message is the one
      for a student without that field, and a student with neither gets the
      message of an unknown student. */
  lemma FalsyProfileDropped(s: Student, courses: StoreResult<seq<Course>>)
    ensures !Truthy(s.career) ==> HandleCourses(Some(s), courses) == HandleCourses(Some(s.(career := None)), courses)
    ensures !TruthyInt(s.term) ==> HandleCourses(Some(s), courses) == HandleCourses(Some(s.(term := None)), courses)
    ensures !Truthy(s.career) && !TruthyInt(s.term) ==> HandleCourses(Some(s), courses) == HandleCourses(None, courses)
  {
    assert !Truthy(s.career) ==> Decide(Some(s), courses) == Decide(Some(s.(career := None)), courses);
    assert !TruthyInt(s.term) ==> Decide(Some(s), courses) == Decide(Some(s.(term := None)), courses);
    assert !Truthy(s.career) && !TruthyInt(s.term) ==> Decide(Some(s), courses) == Decide(None, courses);
  }
}

=== FILE: gemini.dfy ===
/** `generarRespuesta` and `testGeminiAPI` of src/config/gemini.js: how the
    completion service's reply is classified into a text or an error, and how
    caught error messages are rewritten.  The call to the service is an input
    (`ApiOutcome`), so the model is a pure function of what the service did. */
module Gemini {
  import opened Wrappers
  import opened Text

  /** One candidate of a completion response; only its finish reason is read. */
  datatype Candidate = Candidate(finishReason: Option<string>)

  /** `result.response`: the candidate list, which may be missing, and the
      outcome of `response.text()`, which the client library may make throw. */
  datatype Response = Response(candidates: Option<seq<Candidate>>, text: Result<string, string>)

  /** `model.generateContent(...)`: rejected with a message, or resolved. */
  datatype ApiOutcome = Threw(message: string) | Responded(response: Response)

  // The messages below are written as concatenations of short pieces so that
  // the verifier can inspect which characters they contain.

  const NoCandidatesError: string := "Gemini no " + "generó " + "respuestas " + "candidatas"
  const SafetyBlockError: string :=
    "Respuesta blo" + "q" + ("ueada por " + "filtros de " + "seguridad de " + "Gemini")
  const RecitationBlockError: string :=
    "Respuesta blo" + "q" + ("ueada por " + "posible " + "repetición de " + "contenido")
  const EmptyTextError: string := "Gemini " + "devolvió " + "respuesta " + "vacía"

  const InvalidKeyError: string := "API Key de " + "Gemini " + "inválida o " + "expirada"
  const QuotaError: string := "Límite de uso " + "de Gemini " + "alcanzado"
  const SafetyError: string :=
    "Contenido blo" + "q" + ("ueado por " + "seguridad. " + "Intenta " + "reformular tu " + "pregunta.")

  /** The three case-sensitive markers the catch block looks for. */
  const KeyMarker: string := "API key"
  const QuotaMarker: string := "quota"
  const SafetyMarker: string := "SAFETY"

  predicate HasCandidates(r: Response) {
    r.candidates.Some? && |r.candidates.value| > 0
  }

  /** The first candidate stopped for `reason` (a truthy reason other than
      "STOP"; absent or empty reasons are never abnormal). */
  predicate FinishedFor(r: Response, reason: string)
    requires HasCandidates(r)
  {
    var c := r.candidates.value[0];
    Truthy(c.finishReason) && c.finishReason.value != "STOP" && c.finishReason.value == reason
  }

  /** The try block of `generarRespuesta`: the text, or the message of the
      error it throws (its own or the client library's). */
  function Inspect(o: ApiOutcome): (r: Result<string, string>)
    ensures r.Success? ==> o.Responded? && o.response.text == Success(r.value) && !IsBlank(r.value)
  {
    match o
    case Threw(m) => Failure(m)
    case Responded(resp) =>
      if !HasCandidates(resp) then Failure(NoCandidatesError)
      else if FinishedFor(resp, "SAFETY") then Failure(SafetyBlockError)
      else if FinishedFor(resp, "RECITATION") then Failure(RecitationBlockError)
      else
        match resp.text
        case Failure(m) => Failure(m)
        case Success(t) => if IsBlank(t) then Failure(EmptyTextError) else Success(t)
  }

  /** The catch block: a message mentioning an invalid key, the quota or a
      safety block is replaced by a fixed text, in that priority order; any
      other message is rethrown unchanged. */
  function Rewrite(m: string): (r: string)
    ensures Contains(m, KeyMarker) ==> r == InvalidKeyError
    ensures !Contains(m, KeyMarker) && Contains(m, QuotaMarker) ==> r == QuotaError
    ensures (!Contains(m, KeyMarker) && !Contains(m, QuotaMarker) && Contains(m, SafetyMarker))
            ==> r == SafetyError
    ensures (!Contains(m, KeyMarker) && !Contains(m, QuotaMarker) && !Contains(m, SafetyMarker))
            ==> r == m
  {
    if Contains(m, KeyMarker) then InvalidKeyError
    else if Contains(m, QuotaMarker) then QuotaError
    else if Contains(m, SafetyMarker) then SafetyError
    else m
  }

  /** `generarRespuesta(prompt)`: resolves with the text, or rejects with the
      (possibly rewritten) message. */
  function Generate(o: ApiOutcome): (r: Result<string, string>)
    ensures r.Success? <==>
              && o.Responded?
              && HasCandidates(o.response)
              && !FinishedFor(o.response, "SAFETY")
              && !FinishedFor(o.response, "RECITATION")
              && o.response.text.Success?
              && !IsBlank(o.response.text.value)
    ensures r.Success? ==> r.value == o.response.text.value
    ensures o.Threw? ==> r == Failure(Rewrite(o.message))
  {
    match Inspect(o)
    case Success(t) => Success(t)
    case Failure(m) => Failure(Rewrite(m))
  }

  /** `testGeminiAPI()`: true when the probe call resolved and its text could
      be read; it never throws. */
  function TestApi(o: ApiOutcome): (ok: bool)
    ensures ok <==> o.Responded? && o.response.text.Success?
  {
    match o
    case Threw(_) => false
    case Responded(resp) => resp.text.Success?
  }

  // ---------------------------------------------------------------------------
  // Which messages the rewriting leaves alone
  // ---------------------------------------------------------------------------

  /** A message free of all three markers is never rewritten. */
  predicate Unmarked(m: string) {
    !Contains(m, KeyMarker) && !Contains(m, QuotaMarker) && !Contains(m, SafetyMarker)
  }

  lemma NoCandidatesUnmarked()
    ensures Unmarked(NoCandidatesError)
  {
    NoCandidatesLacksA();
    NoCandidatesLacksQ();
    NoCandidatesLacksS();
    MissingCharExcludes(NoCandidatesError, KeyMarker, 'A');
    MissingCharExcludes(NoCandidatesError, QuotaMarker, 'q');
    MissingCharExcludes(NoCandidatesError, SafetyMarker, 'S');
  }

  lemma NoCandidatesLacksA()
    ensures 'A' !in NoCandidatesError
  {
  }

  lemma NoCandidatesLacksQ()
    ensures 'q' !in NoCandidatesError
  {
  }

  lemma NoCandidatesLacksS()
    ensures 'S' !in NoCandidatesError
  {
  }

  lemma SafetyBlockNoQuota()
    ensures !Contains(SafetyBlockError, QuotaMarker)
  {
    var tail := "ueada por " + "filtros de " + "seguridad de " + "Gemini";
    assert SafetyBlockError == "Respuesta blo" + ['q'] + tail;
    assert (['q'] + tail)[2] == 'e';
    AnchoredExcludes("Respuesta blo", 'q', tail, QuotaMarker);
  }

  lemma SafetyBlockUnmarked()
    ensures Unmarked(SafetyBlockError)
  {
    SafetyBlockLacksA();
    SafetyBlockLacksS();
    MissingCharExcludes(SafetyBlockError, KeyMarker, 'A');
    SafetyBlockNoQuota();
    MissingCharExcludes(SafetyBlockError, SafetyMarker, 'S');
  }

  lemma SafetyBlockLacksA()
    ensures 'A' !in SafetyBlockError
  {
  }

  lemma SafetyBlockLacksS()
    ensures 'S' !in SafetyBlockError
  {
  }

  lemma RecitationBlockNoQuota()
    ensures !Contains(RecitationBlockError, QuotaMarker)
  {
    var tail := "ueada por " + "posible " + "repetición de " + "contenido";
    assert RecitationBlockError == "Respuesta blo" + ['q'] + tail;
    assert (['q'] + tail)[2] == 'e';
    AnchoredExcludes("Respuesta blo", 'q', tail, QuotaMarker);
  }

  lemma RecitationBlockUnmarked()
    ensures Unmarked(RecitationBlockError)
  {
    RecitationBlockLacksA();
    RecitationBlockLacksS();
    MissingCharExcludes(RecitationBlockError, KeyMarker, 'A');
    RecitationBlockNoQuota();
    MissingCharExcludes(RecitationBlockError, SafetyMarker, 'S');
  }

  lemma RecitationBlockLacksA()
    ensures 'A' !in RecitationBlockError
  {
  }

  lemma RecitationBlockLacksS()
    ensures 'S' !in RecitationBlockError
  {
  }

  lemma EmptyTextUnmarked()
    ensures Unmarked(EmptyTextError)
  {
    EmptyTextLacksA();
    EmptyTextLacksQ();
    EmptyTextLacksS();
    MissingCharExcludes(EmptyTextError, KeyMarker, 'A');
    MissingCharExcludes(EmptyTextError, QuotaMarker, 'q');
    MissingCharExcludes(EmptyTextError, SafetyMarker, 'S');
  }

  lemma EmptyTextLacksA()
    ensures 'A' !in EmptyTextError
  {
  }

  lemma EmptyTextLacksQ()
    ensures 'q' !in EmptyTextError
  {
  }

  lemma EmptyTextLacksS()
    ensures 'S' !in EmptyTextError
  {
  }

  /** The module's own error messages pass through the catch block unchanged:
      none of them contains any of the markers. */
  lemma OwnErrorsPassThrough()
    ensures Rewrite(NoCandidatesError) == NoCandidatesError
    ensures Rewrite(SafetyBlockError) == SafetyBlockError
    ensures Rewrite(RecitationBlockError) == RecitationBlockError
    ensures Rewrite(EmptyTextError) == EmptyTextError
  {
    NoCandidatesUnmarked();
    SafetyBlockUnmarked();
    RecitationBlockUnmarked();
    EmptyTextUnmarked();
  }

  /** The invalid-key text carries no marker: it says "API Key", with a
      capital K, and the match is case-sensitive. */
  lemma InvalidKeyUnmarked()
    ensures Unmarked(InvalidKeyError)
  {
    InvalidKeyLacksK();
    InvalidKeyLacksQ();
    InvalidKeyLacksS();
    MissingCharExcludes(InvalidKeyError, KeyMarker, 'k');
    MissingCharExcludes(InvalidKeyError, QuotaMarker, 'q');
    MissingCharExcludes(InvalidKeyError, SafetyMarker, 'S');
  }

  lemma InvalidKeyLacksK()
    ensures 'k' !in InvalidKeyError
  {
  }

  lemma InvalidKeyLacksQ()
    ensures 'q' !in InvalidKeyError
  {
  }

  lemma InvalidKeyLacksS()
    ensures 'S' !in InvalidKeyError
  {
  }

  lemma QuotaUnmarked()
    ensures Unmarked(QuotaError)
  {
    QuotaLacksA();
    QuotaLacksQ();
    QuotaLacksS();
    MissingCharExcludes(QuotaError, KeyMarker, 'A');
    MissingCharExcludes(QuotaError, QuotaMarker, 'q');
    MissingCharExcludes(QuotaError, SafetyMarker, 'S');
  }

  lemma QuotaLacksA()
    ensures 'A' !in QuotaError
  {
  }

  lemma QuotaLacksQ()
    ensures 'q' !in QuotaError
  {
  }

  lemma QuotaLacksS()
    ensures 'S' !in QuotaError
  {
  }

  lemma SafetyNoQuota()
    ensures !Contains(SafetyError, QuotaMarker)
  {
    var tail := "ueado por " + "seguridad. " + "Intenta " + "reformular tu " + "pregunta.";
    assert SafetyError == "Contenido blo" + ['q'] + tail;
    assert (['q'] + tail)[2] == 'e';
    AnchoredExcludes("Contenido blo", 'q', tail, QuotaMarker);
  }

  lemma SafetyUnmarked()
    ensures Unmarked(SafetyError)
  {
    SafetyLacksA();
    SafetyLacksS();
    MissingCharExcludes(SafetyError, KeyMarker, 'A');
    SafetyNoQuota();
    MissingCharExcludes(SafetyError, SafetyMarker, 'S');
  }

  lemma SafetyLacksA()
    ensures 'A' !in SafetyError
  {
  }

  lemma SafetyLacksS()
    ensures 'S' !in SafetyError
  {
  }

  lemma RewriteIdempotent(m: string)
    ensures Rewrite(Rewrite(m)) == Rewrite(m)
  {
    InvalidKeyUnmarked();
    QuotaUnmarked();
    SafetyUnmarked();
  }

  // ---------------------------------------------------------------------------
  // Classification of responses
  // ---------------------------------------------------------------------------

  /** A response without candidates is an error with the module's own message. */
  lemma NoCandidatesFails(resp: Response)
    requires !HasCandidates(resp)
    ensures Generate(Responded(resp)) == Failure(NoCandidatesError)
  {
    OwnErrorsPassThrough();
  }

  /** A SAFETY or RECITATION finish is an error, whatever the text says. */
  lemma BlockedFinishFails(resp: Response)
    requires HasCandidates(resp)
    ensures FinishedFor(resp, "SAFETY") ==> Generate(Responded(resp)) == Failure(SafetyBlockError)
    ensures FinishedFor(resp, "RECITATION") ==>
              Generate(Responded(resp)) == Failure(RecitationBlockError)
  {
    OwnErrorsPassThrough();
  }

  /** Any other finish reason (absent, "STOP", "MAX_TOKENS", ...) is ignored:
      a readable non-blank text is returned unchanged, a blank one is an error. */
  lemma OtherFinishIgnored(resp: Response, t: string)
    requires HasCandidates(resp)
    requires !FinishedFor(resp, "SAFETY") && !FinishedFor(resp, "RECITATION")
    requires resp.text == Success(t)
    ensures !IsBlank(t) ==> Generate(Responded(resp)) == Success(t)
    ensures IsBlank(t) ==> Generate(Responded(resp)) == Failure(EmptyTextError)
  {
    OwnErrorsPassThrough();
  }

  /** Whenever generation succeeds, the API probe on the same outcome reports
      true; the converse fails, since the probe does not reject blank text: a
      normal finish with a blank text passes the probe and fails to generate. */
  lemma GenerateSuccessPassesProbe(o: ApiOutcome)
    ensures Generate(o).Success? ==> TestApi(o)
    ensures var blank := Responded(Response(Some([Candidate(Some("STOP"))]), Success("  ")));
            TestApi(blank) && Generate(blank) == Failure(EmptyTextError)
  {
    var blank := Responded(Response(Some([Candidate(Some("STOP"))]), Success("  ")));
    assert !FinishedFor(blank.response, "SAFETY") && !FinishedFor(blank.response, "RECITATION");
    assert IsBlank("  ");
    OtherFinishIgnored(blank.response, "  ");
  }

  /** What the client library's `response.text()` does with a blocked
      response: it throws when the first candidate stopped for SAFETY or
      RECITATION. */
  predicate LibraryText(r: Response) {
    HasCandidates(r) && (FinishedFor(r, "SAFETY") || FinishedFor(r, "RECITATION")) ==> r.text.Failure?
  }

  /** With the library's `text()`, a blocked response fails both the probe and
      generation, and with the block's own message. */
  lemma BlockedFailsProbe(resp: Response)
    requires LibraryText(resp) && HasCandidates(resp)
    requires FinishedFor(resp, "SAFETY") || FinishedFor(resp, "RECITATION")
    ensures !TestApi(Responded(resp))
    ensures Generate(Responded(resp)) == Failure(if FinishedFor(resp, "SAFETY") then SafetyBlockError else RecitationBlockError)
  {
    BlockedFinishFails(resp);
  }
}

=== FILE: inbound.dfy ===
/** The `messages.upsert` handler of src/index.js: which incoming messages
    are answered, how the sender becomes a student, and the order of what the
    handler does for one message (register, welcome, reply, log).  The
    socket and the store are inputs: a directory of students by phone number
    and a set of flags saying which calls throw. */
module Inbound {
  import opened Wrappers
  import opened Text
  import opened Records
  import Router

  // ---------------------------------------------------------------------------
  // Incoming messages
  // ---------------------------------------------------------------------------

  datatype Key = Key(remoteJid: string, fromMe: bool)

  /** The body of a message: a plain text or an extended text, each optional. */
  datatype Content = Content(conversation: Option<string>, extendedText: Option<string>)

  /** A message of the batch; `content` is absent for receipts and the like. */
  datatype Message = Message(key: Key, content: Option<Content>)

  const GroupMarker: string := "@g.us"
  const UserSuffix: string := "@s.whatsapp.net"

  /** `conversation || extendedTextMessage?.text || ""`. */
  function MessageText(c: Content): (t: string)
    ensures t != "" <==> Truthy(c.conversation) || Truthy(c.extendedText)
    ensures Truthy(c.conversation) ==> t == c.conversation.value
  {
    if Truthy(c.conversation) then c.conversation.value
    else if Truthy(c.extendedText) then c.extendedText.value
    else ""
  }

  /** The phone number of a chat: the chat id with its first user suffix cut out. */
  function PhoneOf(jid: string): (phone: string)
    ensures !Contains(jid, UserSuffix) ==> phone == jid
  {
    ReplaceFirst(jid, UserSuffix, "")
  }

  /** The sender's number is recovered from a one-to-one chat id. */
  lemma PhoneOfUserChat(phone: string)
    requires '@' !in phone
    ensures PhoneOf(phone + UserSuffix) == phone
  {
    var jid := phone + UserSuffix;
    assert Occurs(jid, UserSuffix, |phone|) by {
      assert jid[|phone|..|phone| + |UserSuffix|] == UserSuffix;
    }
    forall j | 0 <= j < |phone| ensures !Occurs(jid, UserSuffix, j) {
      assert jid[j] == phone[j] != '@' == UserSuffix[0];
      assert jid[j..j + |UserSuffix|][0] == jid[j];
    }
    assert jid[..|phone|] == phone;
    assert jid[|phone| + |UserSuffix|..] == [];
  }

  /** The messages the handler drops before doing anything: an empty batch
      (reading its first message throws outside the handler's `try`), a
      first message without content, one sent by the bot itself, one from a
      group chat, and one without text.  Later messages of a batch are never
      looked at. */
  predicate Ignored(batch: seq<Message>) {
    || |batch| == 0
    || batch[0].content.None?
    || batch[0].key.fromMe
    || Contains(batch[0].key.remoteJid, GroupMarker)
    || MessageText(batch[0].content.value) == ""
  }

  // ---------------------------------------------------------------------------
  // Store, socket and effects
  // ---------------------------------------------------------------------------

  /** The students by phone number, and the id the next registration gets. */
  datatype Directory = Directory(students: map<string, Student>, nextId: nat)

  /** Which calls throw: the student lookup, the registration, sending the
      welcome, sending the reply, saving the log, sending the apology. */
  datatype Faults = Faults(
    lookup: bool, create: bool, welcome: bool, reply: bool, log: bool, apology: bool)

  /** What the handler does, in the order it does it. */
  datatype Effect =
    | Registered(student: Student)
    | Sent(to: string, text: string)
    | Saved(conversation: Conversation)

  const WelcomeText: string :=
    "👋 ¡Bienvenido a IngeniaBot!\n\n"
    + "Soy tu asistente virtual 24/7 para ayudarte con todo lo que necesites sobre la universidad.\n\n"
    + "Escribe *\"menú\"* o *\"hola\"* para ver las opciones."

  const ApologyText: string :=
    "😔 Lo siento, ocurrió un error al procesar tu mensaje.\n\n"
    + "Por favor intenta nuevamente en unos momentos."

  /** The row a registration creates: only the phone is filled in. */
  function NewStudent(id: nat, phone: string): Student {
    Student(id, phone, None, None, None)
  }

  /** The `es_ia` flag of the log: whether the reply shows the robot emoji. */
  predicate FlaggedAi(reply: string) {
    Contains(reply, [Router.Robot])
  }

  /** The effects after the `catch`: the apology, unless sending it throws too. */
  function Apologize(jid: string, before: seq<Effect>, f: Faults): (es: seq<Effect>)
    ensures !f.apology ==> es == before + [Sent(jid, ApologyText)]
    ensures f.apology ==> es == before
  {
    if f.apology then before else before + [Sent(jid, ApologyText)]
  }

  function SavedAll(cs: seq<Conversation>): (es: seq<Effect>)
    ensures |es| == |cs|
    ensures forall i :: 0 <= i < |cs| ==> es[i] == Saved(cs[i])
  {
    if cs == [] then [] else [Saved(cs[0])] + SavedAll(cs[1..])
  }

  datatype Outcome = Outcome(effects: seq<Effect>, directory: Directory)

  /** The texts sent among `es`. */
  predicate OnlySends(es: seq<Effect>, texts: set<string>) {
    forall i :: 0 <= i < |es| && es[i].Sent? ==> es[i].text in texts
  }

  /** What `procesarMensaje` does with a text from a student: the reply and
      what the AI pipeline did, or the error it threw. */
  type Processor = (string, Student) -> Result<Router.Handled, string>

  /** `procesarMensaje` as the handler calls it, on the given store and
      completion service. */
  function Routing(b: Router.Backend): Processor {
    (text: string, s: Student) => Router.Process(text, s.id, Some(s), b)
  }

  /** No registration among `es`. */
  predicate NoneRegistered(es: seq<Effect>) {
    forall i :: 0 <= i < |es| ==> !es[i].Registered?
  }

  /** A failure after `before` and the logs `saved` of the AI pipeline:
      only the apology can be sent, and it comes last. */
  function Refused(jid: string, before: seq<Effect>, saved: seq<Conversation>, f: Faults): (es: seq<Effect>)
    ensures |before| <= |es| && es[..|before|] == before
    ensures NoneRegistered(es[|before|..])
    ensures OnlySends(es[|before|..], {ApologyText})
    ensures !f.apology ==> |es| > 0 && es[|es| - 1] == Sent(jid, ApologyText)
  {
    var soFar := before + SavedAll(saved);
    var es := Apologize(jid, soFar, f);
    assert es[..|before|] == before;
    assert es[|before|..] == SavedAll(saved) + es[|soFar|..];
    es
  }

  /** The reply sent after `before` and the logs of the AI pipeline, then
      the exchange logged unless saving throws. */
  function Replied(jid: string, text: string, s: Student, h: Router.Handled, before: seq<Effect>, f: Faults)
    : (es: seq<Effect>)
    ensures |before| <= |es| && es[..|before|] == before
    ensures NoneRegistered(es[|before|..])
    ensures Sent(jid, h.reply) in es[|before|..]
    ensures OnlySends(es[|before|..], {h.reply})
    ensures !f.log ==> es[|es| - 1] == Saved(Conversation(s.id, text, h.reply, FlaggedAi(h.reply)))
  {
    var sent := before + SavedAll(h.saved) + [Sent(jid, h.reply)];
    var log := Conversation(s.id, text, h.reply, FlaggedAi(h.reply));
    var es := if f.log then sent else sent + [Saved(log)];
    assert es[..|before|] == before;
    assert es[|before|..][|h.saved|] == Sent(jid, h.reply);
    es
  }

  /** The part of the `try` after the sender is known: process the text,
      send the reply and log the exchange.  `before` is what already happened. */
  function Answer(jid: string, text: string, s: Student, before: seq<Effect>, dir: Directory,
                  f: Faults, process: Processor): (r: Outcome)
    ensures r.directory == dir
    ensures |before| <= |r.effects| && r.effects[..|before|] == before
    ensures forall i :: |before| <= i < |r.effects| ==> !r.effects[i].Registered?
    ensures process(text, s).Failure? || f.reply ==>
              OnlySends(r.effects[|before|..], {ApologyText})
              && (!f.apology ==> |r.effects| > 0 && r.effects[|r.effects| - 1] == Sent(jid, ApologyText))
    ensures process(text, s).Success? && !f.reply ==>
              var reply := process(text, s).value.reply;
              && Sent(jid, reply) in r.effects[|before|..]
              && OnlySends(r.effects[|before|..], {reply})
              && (!f.log ==> r.effects[|r.effects| - 1] == Saved(Conversation(s.id, text, reply, FlaggedAi(reply))))
  {
    var es :=
      match process(text, s)
      case Failure(_) => Refused(jid, before, [], f)
      case Success(h) => if f.reply then Refused(jid, before, h.saved, f) else Replied(jid, text, s, h, before, f);
    assert forall i :: |before| <= i < |es| ==> es[i] == es[|before|..][i - |before|];
    Outcome(es, dir)
  }

  /** The sender's row: the one on file, or the one a registration creates. */
  function SenderOf(phone: string, dir: Directory): Student {
    if phone in dir.students then dir.students[phone] else NewStudent(dir.nextId, phone)
  }

  /** Some call of the `try` throws, so the reply is replaced by the apology. */
  predicate Fails(batch: seq<Message>, dir: Directory, f: Faults, process: Processor)
    requires !Ignored(batch)
  {
    var phone := PhoneOf(batch[0].key.remoteJid);
    || f.lookup
    || (phone !in dir.students && (f.create || f.welcome))
    || process(MessageText(batch[0].content.value), SenderOf(phone, dir)).Failure?
    || f.reply
  }

  /** The handler for one batch, given what processing a text does.  It
      never throws: an ignored message has no effect, any failure inside the
      `try` ends in the apology, and a failing save of the log is swallowed by
      the store.  Only an unknown sender changes the directory, by being
      registered. */
  function HandleWith(batch: seq<Message>, dir: Directory, f: Faults, process: Processor): (r: Outcome)
    ensures Ignored(batch) ==> r == Outcome([], dir)
    ensures r.directory == dir
            || (!Ignored(batch) && PhoneOf(batch[0].key.remoteJid) !in dir.students
                && r.directory == Directory(
                     dir.students[PhoneOf(batch[0].key.remoteJid) := NewStudent(dir.nextId, PhoneOf(batch[0].key.remoteJid))],
                     dir.nextId + 1))
  {
    if Ignored(batch) then Outcome([], dir)
    else
      var jid := batch[0].key.remoteJid;
      var phone := PhoneOf(jid);
      var text := MessageText(batch[0].content.value);
      if f.lookup then Outcome(Apologize(jid, [], f), dir)
      else if phone in dir.students then Answer(jid, text, dir.students[phone], [], dir, f, process)
      else if f.create then Outcome(Apologize(jid, [], f), dir)
      else
        var s := NewStudent(dir.nextId, phone);
        var registered := Directory(dir.students[phone := s], dir.nextId + 1);
        if f.welcome then Outcome(Apologize(jid, [Registered(s)], f), registered)
        else Answer(jid, text, s, [Registered(s), Sent(jid, WelcomeText)], registered, f, process)
  }

  /** The `messages.upsert` handler: messages are processed by `procesarMensaje`. */
  function Handle(batch: seq<Message>, dir: Directory, f: Faults, b: Router.Backend): Outcome {
    HandleWith(batch, dir, f, Routing(b))
  }

  /** What precedes the answer: the registration and the welcome of an
      unknown sender, nothing for a known one. */
  function Greeting(jid: string, phone: string, dir: Directory): seq<Effect> {
    if phone in dir.students then [] else [Registered(NewStudent(dir.nextId, phone)), Sent(jid, WelcomeText)]
  }

  /** When neither the lookup nor the registration nor the welcome throws,
      the handler's effects are those of `Answer` after the greeting. */
  lemma ReachesAnswer(batch: seq<Message>, dir: Directory, f: Faults, process: Processor)
    requires !Ignored(batch) && !f.lookup
    requires !(PhoneOf(batch[0].key.remoteJid) !in dir.students && (f.create || f.welcome))
    ensures var jid := batch[0].key.remoteJid;
            var phone := PhoneOf(jid);
            HandleWith(batch, dir, f, process).effects
            == Answer(jid, MessageText(batch[0].content.value), SenderOf(phone, dir), Greeting(jid, phone, dir),
                      HandleWith(batch, dir, f, process).directory, f, process).effects
  {
  }

  /** The texts sent by a sequence are those sent by its two parts. */
  lemma OnlySendsJoin(es: seq<Effect>, n: nat, a: set<string>, b: set<string>)
    requires n <= |es| && OnlySends(es[..n], a) && OnlySends(es[n..], b)
    ensures OnlySends(es, a + b)
  {
    forall i | 0 <= i < |es| && es[i].Sent? ensures es[i].text in a + b {
      if i < n {
        assert es[..n][i] == es[i];
      } else {
        assert es[n..][i - n] == es[i];
      }
    }
  }

  lemma InSuffix(es: seq<Effect>, n: nat, x: Effect)
    requires n <= |es| && x in es[n..]
    ensures x in es
  {
    var j :| 0 <= j < |es[n..]| && es[n..][j] == x;
    assert es[n + j] == x;
  }

  /** An unknown sender is registered and welcomed before anything else. */
  lemma NewSenderWelcomedFirst(batch: seq<Message>, dir: Directory, f: Faults, process: Processor)
    requires !Ignored(batch) && !f.lookup && !f.create
    requires PhoneOf(batch[0].key.remoteJid) !in dir.students
    ensures var r := HandleWith(batch, dir, f, process);
            && |r.effects| > 0
            && r.effects[0] == Registered(NewStudent(dir.nextId, PhoneOf(batch[0].key.remoteJid)))
            && (!f.welcome ==> |r.effects| > 1 && r.effects[1] == Sent(batch[0].key.remoteJid, WelcomeText))
  {
  }

  /** A known sender is neither registered again nor welcomed. */
  lemma KnownSenderNotWelcomed(batch: seq<Message>, dir: Directory, f: Faults, process: Processor)
    requires !Ignored(batch) && PhoneOf(batch[0].key.remoteJid) in dir.students
    ensures var r := HandleWith(batch, dir, f, process);
            forall i :: 0 <= i < |r.effects| ==> !r.effects[i].Registered?
  {
  }

  /** When a call of the `try` throws, the reply never goes out: the only
      texts sent are the welcome and the apology, the apology last. */
  lemma FailureApologizes(batch: seq<Message>, dir: Directory, f: Faults, process: Processor)
    requires !Ignored(batch) && Fails(batch, dir, f, process)
    ensures var r := HandleWith(batch, dir, f, process);
            && OnlySends(r.effects, {WelcomeText, ApologyText})
            && (!f.apology ==> |r.effects| > 0 && r.effects[|r.effects| - 1] == Sent(batch[0].key.remoteJid, ApologyText))
  {
    if !f.lookup && !(PhoneOf(batch[0].key.remoteJid) !in dir.students && (f.create || f.welcome)) {
      AnswerApologizes(batch, dir, f, process);
    }
  }

  /** The failure case once the greeting is done: processing or sending the
      reply throws. */
  lemma AnswerApologizes(batch: seq<Message>, dir: Directory, f: Faults, process: Processor)
    requires !Ignored(batch) && Fails(batch, dir, f, process) && !f.lookup
    requires !(PhoneOf(batch[0].key.remoteJid) !in dir.students && (f.create || f.welcome))
    ensures var r := HandleWith(batch, dir, f, process);
            && OnlySends(r.effects, {WelcomeText, ApologyText})
            && (!f.apology ==> |r.effects| > 0 && r.effects[|r.effects| - 1] == Sent(batch[0].key.remoteJid, ApologyText))
  {
    var jid := batch[0].key.remoteJid;
    var phone := PhoneOf(jid);
    var es := HandleWith(batch, dir, f, process).effects;
    var before := Greeting(jid, phone, dir);
    ReachesAnswer(batch, dir, f, process);
    OnlySendsJoin(es, |before|, {WelcomeText}, {ApologyText});
  }

  /** Without a failure the processed reply is sent to the chat, nothing but
      the welcome and the reply is sent, and the exchange is logged last with
      the flag saying whether the reply shows the robot emoji. */
  lemma SuccessRepliesAndLogs(batch: seq<Message>, dir: Directory, f: Faults, process: Processor)
    requires !Ignored(batch) && !Fails(batch, dir, f, process)
    ensures var r := HandleWith(batch, dir, f, process);
            var text := MessageText(batch[0].content.value);
            var s := SenderOf(PhoneOf(batch[0].key.remoteJid), dir);
            var reply := process(text, s).value.reply;
            && Sent(batch[0].key.remoteJid, reply) in r.effects
            && OnlySends(r.effects, {WelcomeText, reply})
            && (!f.log ==> r.effects[|r.effects| - 1] == Saved(Conversation(s.id, text, reply, FlaggedAi(reply))))
  {
    var jid := batch[0].key.remoteJid;
    var phone := PhoneOf(jid);
    var text := MessageText(batch[0].content.value);
    var reply := process(text, SenderOf(phone, dir)).value.reply;
    var es := HandleWith(batch, dir, f, process).effects;
    var before := Greeting(jid, phone, dir);
    ReachesAnswer(batch, dir, f, process);
    OnlySendsJoin(es, |before|, {WelcomeText}, {reply});
    assert {WelcomeText} + {reply} == {WelcomeText, reply};
    InSuffix(es, |before|, Sent(jid, reply));
  }

  /** Once a sender has been registered, a later message from the same chat
      is not welcomed again. */
  lemma WelcomedOnce(batch: seq<Message>, dir: Directory, f: Faults, process: Processor,
                     later: seq<Message>, f2: Faults, process2: Processor)
    requires !Ignored(batch) && !f.lookup && !f.create
    requires !Ignored(later) && later[0].key.remoteJid == batch[0].key.remoteJid
    ensures var r := HandleWith(later, HandleWith(batch, dir, f, process).directory, f2, process2);
            forall i :: 0 <= i < |r.effects| ==> !r.effects[i].Registered?
  {
    var d := HandleWith(batch, dir, f, process).directory;
    assert PhoneOf(later[0].key.remoteJid) in d.students;
    KnownSenderNotWelcomed(later, d, f2, process2);
  }

  // ---------------------------------------------------------------------------
  // The `es_ia` flag as written
  // ---------------------------------------------------------------------------

  /** A menu command is answered with the main menu, whose title shows the
      robot emoji, so the exchange is logged as AI-answered although no AI
      was involved. */
  lemma MenuLoggedAsAi(batch: seq<Message>, dir: Directory, f: Faults, b: Router.Backend)
    requires !Ignored(batch) && !Fails(batch, dir, f, Routing(b)) && !f.log
    requires Router.Normalize(MessageText(batch[0].content.value)) in Router.MenuCommands
    ensures var r := Handle(batch, dir, f, b);
            var s := SenderOf(PhoneOf(batch[0].key.remoteJid), dir);
            && |r.effects| > 0
            && r.effects[|r.effects| - 1]
               == Saved(Conversation(s.id, MessageText(batch[0].content.value), Router.MainMenuText, true))
  {
    var text := MessageText(batch[0].content.value);
    var s := SenderOf(PhoneOf(batch[0].key.remoteJid), dir);
    Router.MenuShowsRobot();
    assert Routing(b)(text, s).value.reply == Router.MainMenuText;
    SuccessRepliesAndLogs(batch, dir, f, Routing(b));
  }

  /** The rejection of an all-digit text that is no option ends with the
      robot emoji, so it is logged as AI-answered too. */
  lemma InvalidOptionLoggedAsAi(batch: seq<Message>, dir: Directory, f: Faults, b: Router.Backend)
    requires !Ignored(batch) && !Fails(batch, dir, f, Routing(b)) && !f.log
    requires Router.Classify(MessageText(batch[0].content.value)).InvalidOption?
    ensures var r := Handle(batch, dir, f, b);
            |r.effects| > 0 && r.effects[|r.effects| - 1].Saved? && r.effects[|r.effects| - 1].conversation.isAI
  {
    var text := MessageText(batch[0].content.value);
    var s := SenderOf(PhoneOf(batch[0].key.remoteJid), dir);
    Router.RobotOutsideAi(text, s.id, Some(s), b);
    SuccessRepliesAndLogs(batch, dir, f, Routing(b));
  }
}

=== FILE: instance_lock.dfy ===
/** The single-instance lock of src/utils/InstanceLock.js: a lease file
    holding the owner's pid, start time and host, and the process's own flag
    saying it holds the lock.  The file system is the `file` field plus flags
    saying which file operation throws; the clock is a parameter. */
module InstanceLock {
  import opened Wrappers
  import opened Text

  /** A lease older than this many milliseconds is taken to be abandoned. */
  const StaleAfterMs: int := 5 * 60 * 1000

  /** The lease as read back; `timestamp` is the number the stored field
      turns into when it is subtracted from the clock (`ToNumber`), absent
      when that is NaN. */
  datatype Lease = Lease(pid: int, timestamp: Option<int>, host: string)

  /** The JSON value stored under `timestamp`, or its absence. */
  datatype Field = Absent | Null | Boolean(b: bool) | Number(n: int) | Str(s: string) | Object

  /** JavaScript's conversion of the field to a number, with `None` for NaN:
      `null`, `false` and blank text count as 0, `true` as 1, text of
      decimal digits (white space around it allowed) as its value; a missing
      field, other text and an object are NaN. */
  function ToNumber(f: Field): (r: Option<int>)
    ensures f == Null || f == Boolean(false) ==> r == Some(0)
    ensures f == Boolean(true) ==> r == Some(1)
    ensures f.Str? && IsBlank(f.s) ==> r == Some(0)
    ensures f.Number? ==> r == Some(f.n)
    ensures f.Absent? || f.Object? ==> r.None?
    ensures f.Str? && !IsBlank(f.s) ==> (r.Some? <==> IsDigits(Trim(f.s)))
    ensures f.Str? && !IsBlank(f.s) && IsDigits(Trim(f.s)) ==> r == Some(ParseDecimal(Trim(f.s)))
  {
    match f
    case Absent => None
    case Null => Some(0)
    case Boolean(b) => Some(if b then 1 else 0)
    case Number(n) => Some(n)
    case Str(s) =>
      var t := Trim(s);
      if t == [] then Some(0)
      else if IsDigits(t) then Some(ParseDecimal(t))
      else None
    case Object => None
  }

  /** The lease read from a file whose `timestamp` field is `ts`. */
  function ReadLease(pid: int, ts: Field, host: string): (l: Lease)
    ensures l.timestamp == ToNumber(ts) && l.pid == pid && l.host == host
  {
    Lease(pid, ToNumber(ts), host)
  }

  /** The lease file: missing, not parseable, or holding a lease. */
  datatype LeaseFile = Missing | Unparseable | Holds(lease: Lease)

  datatype Lock = Lock(file: LeaseFile, acquired: bool)

  /** Which file operations throw during one `acquire`. */
  datatype AcquireFaults = AcquireFaults(read: bool, unlink: bool, write: bool)

  /** The lease is stale: its age is a number above the limit.  A NaN age,
      an age of exactly five minutes and a negative age are not stale. */
  predicate Stale(l: Lease, now: int) {
    l.timestamp.Some? && now - l.timestamp.value > StaleAfterMs
  }

  /** The file does not stand in the way: it is missing or holds a stale lease. */
  predicate Free(f: LeaseFile, now: int) {
    f.Missing? || (f.Holds? && Stale(f.lease, now))
  }

  /** `acquire()` at time `now` by process `pid` on host `host`.  Every
      exception is caught and reported as `false`. */
  function Acquire(s: Lock, now: int, pid: int, host: string, f: AcquireFaults): (r: (Lock, bool))
    // success: the process's lease is on file and the flag is set
    ensures r.1 <==> Free(s.file, now) && !(s.file.Holds? && f.read) && !(s.file.Holds? && f.unlink) && !f.write
    ensures r.1 ==> r.0 == Lock(Holds(Lease(pid, Some(now), host)), true)
    // failure: the flag is untouched, and the file too unless a stale lease was removed first
    ensures !r.1 ==> r.0.acquired == s.acquired
    ensures !r.1 ==> r.0.file == s.file || (r.0.file == Missing && s.file.Holds? && Stale(s.file.lease, now))
    // a lease that is not stale is never replaced
    ensures s.file.Holds? && !Stale(s.file.lease, now) ==> r == (s, false)
  {
    match s.file
    case Unparseable => (s, false)
    case Holds(l) =>
      if f.read then (s, false)
      else if Stale(l, now) then
        if f.unlink then (s, false)
        else Write(s.(file := Missing), now, pid, host, f)
      else (s, false)
    case Missing => Write(s, now, pid, host, f)
  }

  /** Writing the new lease, the file being missing by then. */
  function Write(s: Lock, now: int, pid: int, host: string, f: AcquireFaults): (r: (Lock, bool))
    requires s.file.Missing?
    ensures r.1 <==> !f.write
    ensures r.1 ==> r.0 == Lock(Holds(Lease(pid, Some(now), host)), true)
    ensures !r.1 ==> r.0 == s
  {
    if f.write then (s, false) else (Lock(Holds(Lease(pid, Some(now), host)), true), true)
  }

  /** `release()`: the file is deleted only when the flag is set and the file
      exists, and the flag is cleared only when the deletion succeeds; a
      failing deletion is caught.  The lease's pid is not checked. */
  function Release(s: Lock, unlinkOk: bool): (r: Lock)
    ensures s.acquired && !s.file.Missing? && unlinkOk ==> r == Lock(Missing, false)
    ensures !(s.acquired && !s.file.Missing? && unlinkOk) ==> r == s
  {
    if s.acquired && !s.file.Missing? && unlinkOk then Lock(Missing, false) else s
  }

  // ---------------------------------------------------------------------------
  // Properties
  // ---------------------------------------------------------------------------

  /** The lease just written keeps out every later `acquire` for five minutes,
      the same process's included: `acquire` looks at neither the flag nor
      the pid. */
  lemma SecondAcquireRefused(s: Lock, now: int, pid: int, host: string, f: AcquireFaults,
                             later: int, pid2: int, host2: string, f2: AcquireFaults)
    requires Acquire(s, now, pid, host, f).1
    requires now <= later <= now + StaleAfterMs
    ensures Acquire(Acquire(s, now, pid, host, f).0, later, pid2, host2, f2) == (Acquire(s, now, pid, host, f).0, false)
  {
  }

  /** A lease exactly five minutes old, or one from the future, still holds. */
  lemma BoundaryAgesHold(l: Lease, now: int)
    requires l.timestamp == Some(now - StaleAfterMs) || l.timestamp == Some(now + 1)
    ensures !Free(Holds(l), now)
  {
  }

  /** A lease whose timestamp converts to NaN never goes stale. */
  lemma NaNAgeHoldsForever(s: Lock, now: int, pid: int, host: string, f: AcquireFaults)
    requires s.file.Holds? && s.file.lease.timestamp.None?
    ensures Acquire(s, now, pid, host, f) == (s, false)
  {
  }

  /** A missing, non-numeric or object timestamp makes the lease hold
      forever; a `null`, `false` or blank one counts as the epoch, so the
      lease is stale and is replaced by any later successful acquire. */
  lemma TimestampCoercion(pid: int, ts: Field, host: string, now: int)
    requires now > StaleAfterMs
    ensures ts.Absent? || ts.Object? ==> !Free(Holds(ReadLease(pid, ts, host)), now)
    ensures ts == Null || ts == Boolean(false) || (ts.Str? && IsBlank(ts.s)) ==>
              Free(Holds(ReadLease(pid, ts, host)), now)
  {
  }

  /** The outcome of `acquire` does not depend on the process's own flag. */
  lemma AcquireIgnoresFlag(s: Lock, now: int, pid: int, host: string, f: AcquireFaults)
    ensures Acquire(s, now, pid, host, f).1 == Acquire(s.(acquired := !s.acquired), now, pid, host, f).1
  {
  }

  /** Releasing again after a successful release, or releasing without
      ever acquiring, changes nothing. */
  lemma ReleaseIdempotent(s: Lock, ok: bool, ok2: bool)
    ensures Release(Release(s, true), ok2) == Release(s, true)
    ensures !s.acquired ==> Release(s, ok) == s
  {
  }

  /** A process whose own lease was replaced as stale by another instance
      still deletes the other instance's lease on release. */
  lemma ReleaseIgnoresOwner(s: Lock, t0: int, pid: int, host: string, f: AcquireFaults,
                            t1: int, other: int, otherHost: string, g: AcquireFaults)
    requires Acquire(s, t0, pid, host, f).1
    requires t1 > t0 + StaleAfterMs
    requires other != pid
    requires Acquire(Lock(Acquire(s, t0, pid, host, f).0.file, false), t1, other, otherHost, g).1
    ensures var mine := Acquire(s, t0, pid, host, f).0;
            var theirs := Acquire(Lock(mine.file, false), t1, other, otherHost, g).0;
            theirs.file.lease.pid == other &&
            Release(Lock(theirs.file, mine.acquired), true).file == Missing
  {
  }
}

=== FILE: payments.dfy ===
/** `handlePagos` of src/handlers/pagosHandler.js: the student's payments
    split into pending ones and all others, with totals, the first three of
    the others, and how many of them are not shown.  Amounts are exact
    integer cents; the due-date formatting is a parameter. */
module Payments {
  import opened Wrappers
  import opened Text
  import opened Records

  /** A row of `pagos`: `monto` in cents, `fecha_vencimiento` as a timestamp. */
  datatype Payment = Payment(concept: string, cents: int, due: int, status: string)

  const PendingStatus: string := "pendiente"
  const PaidStatus: string := "pagado"

  /** Only the exact status "pendiente" counts as pending. */
  predicate IsPending(p: Payment) {
    p.status == PendingStatus
  }

  /** The check mark is for the exact status "pagado"; everything else,
      pending or not, gets the hourglass. */
  function Icon(p: Payment): (icon: string)
    ensures icon == "✅" <==> p.status == PaidStatus
  {
    if p.status == PaidStatus then "✅" else "⏳"
  }

  // ---------------------------------------------------------------------------
  // The partition (the `forEach` that fills the two lists and totals)
  // ---------------------------------------------------------------------------

  /** The pending payments of `ps`, in order. */
  function Pendings(ps: seq<Payment>): (r: seq<Payment>)
    ensures |r| <= |ps|
  {
    if ps == [] then []
    else
      var init := ps[..|ps| - 1];
      var last := ps[|ps| - 1];
      assert ps == init + [last];
      Pendings(init) + (if IsPending(last) then [last] else [])
  }

  /** All other payments of `ps`, in order: paid and any other status. */
  function Others(ps: seq<Payment>): (r: seq<Payment>)
    ensures |r| <= |ps|
  {
    if ps == [] then []
    else
      var init := ps[..|ps| - 1];
      var last := ps[|ps| - 1];
      assert ps == init + [last];
      Others(init) + (if IsPending(last) then [] else [last])
  }

  /** The pending list holds exactly the pending payments of the input. */
  lemma {:induction false} PendingsMembers(ps: seq<Payment>)
    ensures forall x :: x in Pendings(ps) <==> x in ps && IsPending(x)
  {
    if ps != [] {
      var init := ps[..|ps| - 1];
      PendingsMembers(init);
      assert ps == init + [ps[|ps| - 1]];
    }
  }

  /** The other list holds exactly the remaining payments of the input. */
  lemma {:induction false} OthersMembers(ps: seq<Payment>)
    ensures forall x :: x in Others(ps) <==> x in ps && !IsPending(x)
  {
    if ps != [] {
      var init := ps[..|ps| - 1];
      OthersMembers(init);
      assert ps == init + [ps[|ps| - 1]];
    }
  }

  /** Sum of amounts, accumulated from the left. */
  function Total(ps: seq<Payment>): (r: int)
    ensures (forall j :: 0 <= j < |ps| ==> ps[j].cents >= 0) ==> r >= 0
    ensures (forall j :: 0 <= j < |ps| ==> ps[j].cents <= 0) ==> r <= 0
  {
    if ps == [] then 0 else Total(ps[..|ps| - 1]) + ps[|ps| - 1].cents
  }

  /** The two lists together are a rearrangement of the input: nothing is
      lost or duplicated. */
  lemma {:induction false} PartitionPermutes(ps: seq<Payment>)
    ensures multiset(Pendings(ps)) + multiset(Others(ps)) == multiset(ps)
  {
    if ps != [] {
      var init := ps[..|ps| - 1];
      PartitionPermutes(init);
      assert ps == init + [ps[|ps| - 1]];
    }
  }

  /** The two totals add up to the total of all payments. */
  lemma {:induction false} PartitionTotals(ps: seq<Payment>)
    ensures Total(Pendings(ps)) + Total(Others(ps)) == Total(ps)
  {
    if ps != [] {
      var init := ps[..|ps| - 1];
      var last := ps[|ps| - 1];
      var p0, o0 := Pendings(init), Others(init);
      PartitionTotals(init);
      TotalSnoc(p0, last);
      TotalSnoc(o0, last);
      if IsPending(last) {
        assert Pendings(ps) == p0 + [last];
        assert Others(ps) == o0;
      } else {
        assert Pendings(ps) == p0;
        assert Others(ps) == o0 + [last];
      }
    }
  }

  lemma TotalSnoc(ps: seq<Payment>, p: Payment)
    ensures Total(ps + [p]) == Total(ps) + p.cents
  {
    assert (ps + [p])[..|ps|] == ps;
  }

  /** The loop: both lists and both totals in one pass. */
  method Partition(ps: seq<Payment>) returns (pending: seq<Payment>, others: seq<Payment>, pendingTotal: int, othersTotal: int)
    ensures pending == Pendings(ps) && others == Others(ps)
    ensures pendingTotal == Total(pending) && othersTotal == Total(others)
  {
    pending, others, pendingTotal, othersTotal := [], [], 0, 0;
    var i := 0;
    while i < |ps|
      invariant 0 <= i <= |ps|
      invariant pending == Pendings(ps[..i]) && others == Others(ps[..i])
      invariant pendingTotal == Total(pending) && othersTotal == Total(others)
    {
      var p := ps[i];
      assert ps[..i + 1][..i] == ps[..i];
      if IsPending(p) {
        TotalSnoc(pending, p);
        pending := pending + [p];
        pendingTotal := pendingTotal + p.cents;
      } else {
        TotalSnoc(others, p);
        others := others + [p];
        othersTotal := othersTotal + p.cents;
      }
      i := i + 1;
    }
    assert ps[..|ps|] == ps;
  }

  // ---------------------------------------------------------------------------
  // The view
  // ---------------------------------------------------------------------------

  datatype View =
    | NoPayments
    | Failed
    | Listing(pending: seq<Payment>, pendingTotal: int, shown: seq<Payment>, more: nat)

  /** The handler's decision. */
  function Decide(payments: StoreResult<seq<Payment>>): (v: View)
    ensures v.Failed? <==> payments.Failure?
    ensures v.NoPayments? <==> payments == Success([])
    ensures v.Listing? ==>
              var ps := payments.value;
              && v.pending == Pendings(ps) && v.pendingTotal == Total(Pendings(ps))
              // the first three others, in order, and the count of the rest
              && |v.shown| == (if |Others(ps)| < 3 then |Others(ps)| else 3)
              && v.shown == Others(ps)[..|v.shown|]
              && |v.shown| + v.more == |Others(ps)|
              && (v.more > 0 <==> |Others(ps)| > 3)
  {
    match payments
    case Failure(_) => Failed
    case Success(ps) =>
      if |ps| == 0 then NoPayments
      else
        var others := Others(ps);
        var n := if |others| < 3 then |others| else 3;
        Listing(Pendings(ps), Total(Pendings(ps)), others[..n], |others| - n)
  }

  /** A payment with any status other than the two known ones ("vencido",
      say) is neither pending nor paid: it is listed among the settled
      payments, with the hourglass icon, and not counted in the pending total. */
  lemma UnknownStatusListedAsSettled(p: Payment)
    requires p.status != PendingStatus && p.status != PaidStatus
    ensures Decide(Success([p])) == Listing([], 0, [p], 0)
    ensures Icon(p) == "⏳"
  {
    assert [p][..0] == [];
  }

  // ---------------------------------------------------------------------------
  // Amounts (`toFixed(2)`)
  // ---------------------------------------------------------------------------

  /** Two decimal places of `m` cents, without a sign. */
  function Unsigned(m: nat): (r: string)
    ensures |r| >= 4 && r[|r| - 3] == '.' && IsDigit(r[0])
  {
    NatToString(m / 100) + "." + [DigitChar(m % 100 / 10), DigitChar(m % 10)]
  }

  /** Two decimal places of `c` cents, with a leading "-" for negative amounts. */
  function FormatCents(c: int): (r: string)
    ensures |r| >= 4 && r[|r| - 3] == '.'
    ensures c >= 0 <==> r[0] != '-'
  {
    if c < 0 then "-" + Unsigned(-c) else Unsigned(c)
  }

  /** Reads an unsigned "digits.dd" text back as cents. */
  function ReadUnsigned(body: string): Option<int> {
    if |body| >= 4 && body[|body| - 3] == '.' && IsDigits(body[..|body| - 3]) && IsDigits(body[|body| - 2..]) then
      Some(ParseDecimal(body[..|body| - 3]) * 100 + ParseDecimal(body[|body| - 2..]))
    else None
  }

  /** Reads a "[-]digits.dd" text back as cents. */
  function ParseCents(s: string): Option<int> {
    var neg := |s| > 0 && s[0] == '-';
    match ReadUnsigned(if neg then s[1..] else s)
    case None => None
    case Some(v) => Some(if neg then -v else v)
  }

  /** Two digits read back as their value. */
  lemma TwoDigits(a: nat, b: nat)
    requires a < 10 && b < 10
    ensures ParseDecimal([DigitChar(a), DigitChar(b)]) == a * 10 + b
  {
    var s := [DigitChar(a), DigitChar(b)];
    assert s[..1] == [DigitChar(a)];
    assert s[..1][..0] == [];
    assert ParseDecimal(s[..1]) == a;
  }

  /** The unsigned text reads back as the same number of cents. */
  lemma UnsignedRoundTrip(m: nat)
    ensures ReadUnsigned(Unsigned(m)) == Some(m)
  {
    var whole := NatToString(m / 100);
    var frac := [DigitChar(m % 100 / 10), DigitChar(m % 10)];
    var u := whole + "." + frac;
    assert u[..|u| - 3] == whole;
    assert u[|u| - 2..] == frac;
    ParseNatToString(m / 100);
    TwoDigits(m % 100 / 10, m % 10);
  }

  /** The formatted amount reads back as the same amount. */
  lemma CentsRoundTrip(c: int)
    ensures ParseCents(FormatCents(c)) == Some(c)
  {
    if c < 0 {
      UnsignedRoundTrip(-c);
      assert ("-" + Unsigned(-c))[1..] == Unsigned(-c);
    } else {
      UnsignedRoundTrip(c);
    }
  }

  // ---------------------------------------------------------------------------
  // Rendering
  // ---------------------------------------------------------------------------

  const Header: string := "💳 *Estado de Pagos*\n\n"
  const PendingHeader: string := "⚠️ *PAGOS PENDIENTES:*\n\n"
  const SettledHeader: string := "✅ *PAGOS REALIZADOS:*\n\n"
  const Rule: string := "───────────────────\n\n"
  const ContactLines: string :=
    "📞 *Para realizar pagos:*\n• Tesorería: (01) 555-0123\n• Email: pagos@universidad.edu.pe\n"
    + "• Horario: Lun-Vie 9am-5pm\n\n"

  const NoPaymentsText: string :=
    "💳 *Estado de Pagos*\n\n✅ No tienes pagos registrados en el sistema.\n¡Estás al día!\n\n" + MenuHint
  const ErrorText: string :=
    "❌ Hubo un error al consultar tus pagos.\n\nPor favor intenta nuevamente en unos momentos.\n\n" + MenuHint

  function PendingLine(p: Payment, date: int -> string): string {
    Icon(p) + " *" + p.concept + "*\n   💰 Monto: S/ " + FormatCents(p.cents) + "\n   📅 Vence: " + date(p.due) + "\n\n"
  }

  function SettledLine(p: Payment, date: int -> string): string {
    Icon(p) + " " + p.concept + "\n   S/ " + FormatCents(p.cents) + " - " + date(p.due) + "\n\n"
  }

  function PendingLines(ps: seq<Payment>, date: int -> string): string {
    Concat(seq(|ps|, i requires 0 <= i < |ps| => PendingLine(ps[i], date)))
  }

  function SettledLines(ps: seq<Payment>, date: int -> string): string {
    Concat(seq(|ps|, i requires 0 <= i < |ps| => SettledLine(ps[i], date)))
  }

  lemma PendingLinesContain(ps: seq<Payment>, date: int -> string, k: nat)
    requires k < |ps|
    ensures Contains(PendingLines(ps, date), PendingLine(ps[k], date))
  {
    ConcatContains(seq(|ps|, i requires 0 <= i < |ps| => PendingLine(ps[i], date)), k);
  }

  lemma SettledLinesContain(ps: seq<Payment>, date: int -> string, k: nat)
    requires k < |ps|
    ensures Contains(SettledLines(ps, date), SettledLine(ps[k], date))
  {
    ConcatContains(seq(|ps|, i requires 0 <= i < |ps| => SettledLine(ps[i], date)), k);
  }

  function TotalLine(total: int): string {
    "💡 *Total pendiente: S/ " + FormatCents(total) + "*\n\n"
  }

  /** The pending section: present only when something is pending, and then
      the header, every pending line, and the total closed by a rule. */
  function PendingSection(pending: seq<Payment>, total: int, date: int -> string): (r: string)
    ensures pending == [] <==> r == ""
    ensures pending != [] ==> StartsWith(r, PendingHeader) && Contains(r, PendingLines(pending, date))
    ensures pending != [] ==> EndsWith(r, TotalLine(total) + Rule)
  {
    if pending == [] then ""
    else
      var lines := PendingLines(pending, date);
      var r := PendingHeader + lines + (TotalLine(total) + Rule);
      ConcatParts(PendingHeader, lines, TotalLine(total) + Rule);
      r
  }

  function MoreLine(more: nat): string {
    "_... y " + NatToString(more) + " pagos más_\n\n"
  }

  /** The settled section: present only when something is shown. */
  function SettledSection(shown: seq<Payment>, more: nat, date: int -> string): (r: string)
    ensures shown == [] <==> r == ""
    ensures shown != [] ==> StartsWith(r, SettledHeader) && Contains(r, SettledLines(shown, date))
    ensures shown != [] && more > 0 ==> EndsWith(r, MoreLine(more))
  {
    if shown == [] then ""
    else
      var lines := SettledLines(shown, date);
      var tail := if more > 0 then MoreLine(more) else "";
      var r := SettledHeader + lines + tail;
      ConcatParts(SettledHeader, lines, tail);
      r
  }

  /** The message of a view. */
  function Render(v: View, date: int -> string): (r: string)
    ensures EndsWith(r, MenuHint)
    ensures v.Listing? ==>
              && StartsWith(r, Header)
              && Contains(r, PendingSection(v.pending, v.pendingTotal, date))
              && Contains(r, SettledSection(v.shown, v.more, date))
              // the pending section comes first, the settled one right after it
              && Contains(r, PendingSection(v.pending, v.pendingTotal, date) + SettledSection(v.shown, v.more, date))
              && EndsWith(r, Rule + ContactLines + MenuHint)
    // and nothing else: header, sections and closing lines are joined directly
    ensures v.Listing? ==>
              && StartsWith(r, Header + (PendingSection(v.pending, v.pendingTotal, date) + SettledSection(v.shown, v.more, date)))
              && |r| == |Header| + |PendingSection(v.pending, v.pendingTotal, date)| + |SettledSection(v.shown, v.more, date)|
                        + |Rule + ContactLines + MenuHint|
  {
    match v
    case Failed => ErrorText
    case NoPayments => NoPaymentsText
    case Listing(pending, total, shown, more) =>
      var a := PendingSection(pending, total, date);
      var b := SettledSection(shown, more, date);
      var r := Header + (a + b) + (Rule + ContactLines + MenuHint);
      ConcatParts(Header, a + b, Rule + ContactLines + MenuHint);
      ConcatParts(a, b, "");
      assert a + b + "" == a + b;
      ContainsTrans(r, a + b, a);
      ContainsTrans(r, a + b, b);
      ConcatParts(Rule, ContactLines, MenuHint);
      EndsWithTrans(r, Rule + ContactLines + MenuHint, MenuHint);
      StartsWithSelf(Header + (a + b), Rule + ContactLines + MenuHint);
      r
  }

  /** `handlePagos`: the error text when the query throws, the no-payments
      text for an empty list, otherwise the rendered listing. */
  function HandlePayments(payments: StoreResult<seq<Payment>>, date: int -> string): (r: string)
    ensures payments.Failure? ==> r == ErrorText
    ensures payments == Success([]) ==> r == NoPaymentsText
    ensures payments.Success? && payments.value != [] ==> StartsWith(r, Header) && EndsWith(r, MenuHint)
    // a listing is the header, the two sections of the decision and the
    // closing lines, joined directly
    ensures payments.Success? && payments.value != [] ==>
              var v := Decide(payments);
              var a, b := PendingSection(v.pending, v.pendingTotal, date), SettledSection(v.shown, v.more, date);
              && StartsWith(r, Header + (a + b)) && EndsWith(r, Rule + ContactLines + MenuHint)
              && |r| == |Header| + |a| + |b| + |Rule + ContactLines + MenuHint|
  {
    Render(Decide(payments), date)
  }

  /** Every pending payment is listed in full. */
  lemma PendingListed(ps: seq<Payment>, date: int -> string, x: Payment)
    requires x in ps && IsPending(x)
    ensures Contains(HandlePayments(Success(ps), date), PendingLine(x, date))
  {
    var v := Decide(Success(ps));
    var r := Render(v, date);
    PendingsMembers(ps);
    var k :| 0 <= k < |v.pending| && v.pending[k] == x;
    PendingLinesContain(v.pending, date, k);
    var sec := PendingSection(v.pending, v.pendingTotal, date);
    ContainsTrans(sec, PendingLines(v.pending, date), PendingLine(x, date));
    ContainsTrans(r, sec, PendingLine(x, date));
  }

  /** With something pending, the message shows the sum of the pending
      amounts. */
  lemma PendingTotalShown(ps: seq<Payment>, date: int -> string)
    requires Pendings(ps) != []
    ensures Contains(HandlePayments(Success(ps), date), TotalLine(Total(Pendings(ps))))
  {
    var v := Decide(Success(ps));
    var sec := PendingSection(v.pending, v.pendingTotal, date);
    EndsWithContains(sec, TotalLine(v.pendingTotal) + Rule);
    ContainsPrefix(sec, TotalLine(v.pendingTotal) + Rule, |TotalLine(v.pendingTotal)|);
    assert (TotalLine(v.pendingTotal) + Rule)[..|TotalLine(v.pendingTotal)|] == TotalLine(v.pendingTotal);
    ContainsTrans(Render(v, date), sec, TotalLine(v.pendingTotal));
  }

  /** The first three other payments are listed briefly, in order. */
  lemma SettledListed(ps: seq<Payment>, date: int -> string, k: nat)
    requires k < |Others(ps)| && k < 3
    ensures Contains(HandlePayments(Success(ps), date), SettledLine(Others(ps)[k], date))
  {
    var v := Decide(Success(ps));
    var r := Render(v, date);
    assert v.shown[k] == Others(ps)[k];
    SettledLinesContain(v.shown, date, k);
    var sec := SettledSection(v.shown, v.more, date);
    ContainsTrans(sec, SettledLines(v.shown, date), SettledLine(v.shown[k], date));
    ContainsTrans(r, sec, SettledLine(v.shown[k], date));
  }

  /** The count line closes the settled section when there is a rest. */
  lemma MoreLineInSection(shown: seq<Payment>, more: nat, date: int -> string)
    requires shown != [] && more > 0
    ensures Contains(SettledSection(shown, more, date), MoreLine(more))
  {
    var sec := SettledSection(shown, more, date);
    var m := MoreLine(more);
    assert Occurs(sec, m, |sec| - |m|);
  }

  /** A listing with a rest ends its settled section with the count line. */
  lemma ListingCountsRest(v: View, date: int -> string)
    requires v.Listing? && v.shown != [] && v.more > 0
    ensures Contains(Render(v, date), MoreLine(v.more))
  {
    var sec := SettledSection(v.shown, v.more, date);
    MoreLineInSection(v.shown, v.more, date);
    ContainsTrans(Render(v, date), sec, MoreLine(v.more));
  }

  /** With more than three other payments the listing shows three and counts the rest. */
  lemma DecideMany(ps: seq<Payment>)
    requires |Others(ps)| > 3
    ensures Decide(Success(ps)).Listing?
    ensures Decide(Success(ps)).shown == Others(ps)[..3]
    ensures Decide(Success(ps)).more == |Others(ps)| - 3
  {
    assert ps != [];
  }

  /** Beyond the first three, the other payments are only counted. */
  lemma RestCounted(ps: seq<Payment>, date: int -> string)
    requires |Others(ps)| > 3
    ensures Contains(HandlePayments(Success(ps), date), MoreLine(|Others(ps)| - 3))
  {
    DecideMany(ps);
    ListingCountsRest(Decide(Success(ps)), date);
  }
}

=== FILE: records.dfy ===
/** Rows of the record store that several components share.  The store
    itself (SQL, connection pool) is not modelled: each store call is an
    input whose outcome is either the rows it returns or the error it throws. */
module Records {
  import opened Wrappers

  /** A row of `estudiantes`; the nullable profile columns are `Option`s. */
  datatype Student = Student(
    id: nat,
    phone: string,
    name: Option<string>,
    career: Option<string>,
    term: Option<int>)

  /** A row of `cursos`; the nullable columns are `Option`s. */
  datatype Course = Course(
    name: string,
    code: string,
    professor: string,
    credits: Option<int>,
    schedule: Option<string>,
    room: Option<string>)

  /** A row of `conversaciones`: one logged exchange. */
  datatype Conversation = Conversation(
    studentId: nat,
    inbound: string,
    outbound: string,
    isAI: bool)

  /** The closing line of every handler's reply, pointing back to the menu. */
  const MenuHint: string := "_Escribe \"menú\" para volver al inicio_"

  /** The outcome of one store call: its rows, or the message it threw. */
  type StoreResult<T> = Result<T, string>
}

=== FILE: router.dfy ===
/** `procesarMensaje` of src/index.js: the text of a message is lower-cased
    and trimmed, then matched in a fixed order (exact menu command, pure digit
    option, keyword substring) and, when nothing matches, answered by the AI
    pipeline with the student's courses as context. */
module Router {
  import opened Wrappers
  import opened Text
  import opened Records
  import AiService
  import Gemini
  import CourseList
  import Payments

  // ---------------------------------------------------------------------------
  // Routes
  // ---------------------------------------------------------------------------

  /** Where a message is sent. */
  datatype Route =
    | MainMenu
    | ToCourses
    | ToPayments
    | ToWellbeing
    | ToSupport
    | ToAdmission
    | InvalidOption(number: nat)
    | AskAi

  /** `COMANDOS.MENU`: the exact texts that bring up the main menu. */
  const MenuCommands: seq<string> := ["menu", "menú", "inicio", "hola", "hi", "hey"]

  /** The keyword tests, in the order the router applies them: entry `k`
      of `KeywordRoutes` is taken when a word of entry `k` of `KeywordLists`
      occurs in the text and no word of an earlier entry does. */
  const KeywordRoutes: seq<Route> := [ToCourses, ToPayments, ToWellbeing, ToSupport, ToAdmission]
  const KeywordLists: seq<seq<string>> := [
    ["curso", "materia"],
    ["pago", "pension", "pensión", "deuda"],
    ["bienestar", "salud", "psicolog"],
    ["soporte", "ayuda técnica", "problema"],
    ["admision", "admisión", "postular"]
  ]

  /** `mensaje.toLowerCase().trim()`: the only form of the text the tests see. */
  function Normalize(raw: string): (t: string)
    ensures exists a: nat :: TrimmedAt(Lower(raw), t, a)
    ensures IsLowered(t)
    ensures |t| > 0 ==> !IsSpace(t[0]) && !IsSpace(t[|t| - 1])
    ensures |t| <= |raw|
  {
    var low := Lower(raw);
    var t := Trim(low);
    assert IsLowered(t) by {
      forall i | 0 <= i < |t| ensures !IsUpper(t[i]) {
        assert t[i] in low;
        var j :| 0 <= j < |low| && low[j] == t[i];
      }
    }
    t
  }

  /** Normalizing twice is normalizing once. */
  lemma NormalizeIdempotent(raw: string)
    ensures Normalize(Normalize(raw)) == Normalize(raw)
  {
    var t := Normalize(raw);
    LowerOfLowered(t);
    TrimOfTrimmed(t);
  }

  /** The `switch` on the parsed number of an all-digit text.  Its options
      1..5 are the keyword routes in the same order. */
  function DigitRoute(n: nat): (r: Route)
    ensures 1 <= n <= |KeywordRoutes| ==> r == KeywordRoutes[n - 1]
    ensures !(1 <= n <= |KeywordRoutes|) <==> r == InvalidOption(n)
  {
    match n
    case 1 => ToCourses
    case 2 => ToPayments
    case 3 => ToWellbeing
    case 4 => ToSupport
    case 5 => ToAdmission
    case _ => InvalidOption(n)
  }

  /** Entry `k` of the table is the first one with a keyword in `t`. */
  predicate FirstHit(t: string, k: nat)
    requires k < |KeywordLists|
  {
    && ContainsAny(t, KeywordLists[k])
    && forall j :: 0 <= j < k ==> !ContainsAny(t, KeywordLists[j])
  }

  /** The position of the first table entry with a keyword in `t`, searching
      from entry `from` on. */
  function FirstKeyword(t: string, from: nat): (r: Option<nat>)
    requires from <= |KeywordLists|
    ensures r.Some? ==> from <= r.value < |KeywordLists| && ContainsAny(t, KeywordLists[r.value])
    ensures r.Some? ==> forall j :: from <= j < r.value ==> !ContainsAny(t, KeywordLists[j])
    ensures r.None? <==> forall j :: from <= j < |KeywordLists| ==> !ContainsAny(t, KeywordLists[j])
    decreases |KeywordLists| - from
  {
    if from == |KeywordLists| then None
    else if ContainsAny(t, KeywordLists[from]) then Some(from)
    else FirstKeyword(t, from + 1)
  }

  /** The tests of `procesarMensaje`, in order, on the normalized text `t`. */
  function Dispatch(t: string): (r: Route)
    ensures r == MainMenu <==> t in MenuCommands
    ensures r == AskAi ==> t !in MenuCommands && !IsDigits(t)
  {
    KeywordRoutesDistinct();
    if t in MenuCommands then MainMenu
    else if IsDigits(t) then DigitRoute(ParseDecimal(t))
    else
      match FirstKeyword(t, 0)
      case Some(k) => KeywordRoutes[k]
      case None => AskAi
  }

  /** The route of a raw message: every test sees the normalized text only. */
  function Classify(raw: string): (r: Route)
    ensures r == MainMenu <==> Normalize(raw) in MenuCommands
    ensures r == AskAi ==> !IsDigits(Normalize(raw))
  {
    Dispatch(Normalize(raw))
  }

  /** The routes of the table are distinct and are none of the others. */
  lemma KeywordRoutesDistinct()
    ensures forall j, k :: 0 <= j < k < |KeywordRoutes| ==> KeywordRoutes[j] != KeywordRoutes[k]
    ensures forall k :: 0 <= k < |KeywordRoutes| ==>
              KeywordRoutes[k] != MainMenu && KeywordRoutes[k] != AskAi && !KeywordRoutes[k].InvalidOption?
  {
  }

  /** An all-digit text is an option number: a number outside 1..5 is
      rejected with the number it was read as, and such a text never reaches
      the keyword tests or the AI. */
  lemma DigitsAreOptions(t: string)
    requires t !in MenuCommands && IsDigits(t)
    ensures Dispatch(t) != AskAi
    ensures 1 <= ParseDecimal(t) <= |KeywordRoutes| ==> Dispatch(t) == KeywordRoutes[ParseDecimal(t) - 1]
    ensures !(1 <= ParseDecimal(t) <= |KeywordRoutes|) <==> Dispatch(t) == InvalidOption(ParseDecimal(t))
  {
  }

  /** A text that is neither a menu command nor all digits takes the route of
      the first table entry with a word in it, and goes to the AI when no
      entry has one. */
  lemma KeywordsInOrder(t: string, k: nat)
    requires t !in MenuCommands && !IsDigits(t)
    requires k < |KeywordRoutes|
    ensures Dispatch(t) == KeywordRoutes[k] <==> FirstHit(t, k)
    ensures Dispatch(t) == AskAi <==> forall j :: 0 <= j < |KeywordLists| ==> !ContainsAny(t, KeywordLists[j])
  {
    KeywordRoutesDistinct();
    match FirstKeyword(t, 0)
    case None =>
    case Some(i) =>
      assert FirstHit(t, i);
      if i < k {
        assert !FirstHit(t, k);
      } else if k < i {
        assert !ContainsAny(t, KeywordLists[k]);
      }
  }

  /** The AI only sees texts that passed every earlier test. */
  lemma AskAiIffNothingMatched(t: string)
    ensures Dispatch(t) == AskAi <==>
              t !in MenuCommands && !IsDigits(t)
              && forall j :: 0 <= j < |KeywordLists| ==> !ContainsAny(t, KeywordLists[j])
  {
    KeywordRoutesDistinct();
    if t !in MenuCommands && !IsDigits(t) {
      KeywordsInOrder(t, 0);
    }
  }

  /** A message and its normalized form take the same route. */
  lemma ClassifyIgnoresCaseAndPadding(raw: string)
    ensures Classify(Normalize(raw)) == Classify(raw)
  {
    NormalizeIdempotent(raw);
  }

  /** A lower-case text without surrounding blanks is its own normal form. */
  lemma PlainIsNormal(s: string)
    requires IsLowered(s) && (|s| > 0 ==> !IsSpace(s[0]) && !IsSpace(s[|s| - 1]))
    ensures Normalize(s) == s
  {
    LowerOfLowered(s);
    TrimOfTrimmed(s);
  }

  // ---------------------------------------------------------------------------
  // Routing examples
  // ---------------------------------------------------------------------------

  /** Upper case, accents and surrounding blanks do not hide a menu command. */
  lemma ShoutedMenuIsMenu()
    ensures Classify(" MENÚ\n") == MainMenu
  {
    ShoutedMenuNormalizes();
    assert MenuCommands[1] == "menú";
  }

  /** Lower-casing maps Ú to ú and trimming drops the blank and the line break. */
  lemma ShoutedMenuNormalizes()
    ensures Normalize(" MENÚ\n") == "menú"
  {
    ShoutedMenuLowers();
    LeadingBlankTrimmed();
    TrailingBreakTrimmed();
  }

  lemma ShoutedMenuLowers()
    ensures Lower(" MENÚ\n") == " menú\n"
  {
    var low := Lower(" MENÚ\n");
    assert low[0] == ' ' && low[1] == 'm' && low[2] == 'e' && low[3] == 'n' && low[4] == 'ú' && low[5] == '\n';
  }

  lemma LeadingBlankTrimmed()
    ensures TrimStart(" menú\n") == "menú\n"
  {
    var s := " menú\n";
    assert IsSpace(s[0]);
    assert s[1..] == "menú\n";
    assert !IsSpace("menú\n"[0]);
  }

  lemma TrailingBreakTrimmed()
    ensures TrimEnd("menú\n") == "menú"
  {
    var s := "menú\n";
    assert IsSpace(s[4]);
    assert s[..4] == "menú";
    assert !IsSpace("menú"[3]);
  }

  /** `parseInt` ignores leading zeros, so "01" is option 1. */
  lemma LeadingZeroIsOptionOne()
    ensures Dispatch("01") == ToCourses
  {
    assert "01" !in MenuCommands by { assert forall k :: 0 <= k < |MenuCommands| ==> MenuCommands[k][0] != '0'; }
    assert ParseDecimal("01") == 1 by { assert "01"[..1] == "0"; assert "0"[..0] == ""; }
  }

  /** A number past the options is rejected with the number it was read as. */
  lemma SixIsInvalid()
    ensures Dispatch("6") == InvalidOption(6)
  {
    assert "6" !in MenuCommands by { assert forall k :: 0 <= k < |MenuCommands| ==> MenuCommands[k][0] != '6'; }
    assert ParseDecimal("6") == 6 by { assert "6"[..0] == ""; }
  }

  /** The course keywords are tried before the payment keywords. */
  lemma CourseKeywordWinsOverPayment()
    ensures Dispatch("pago del curso") == ToCourses
  {
    var t := "pago del curso";
    assert t !in MenuCommands by { assert forall k :: 0 <= k < |MenuCommands| ==> MenuCommands[k] != t; }
    assert !IsDigits(t) by { assert !IsDigit(t[0]); }
    assert Occurs(t, KeywordLists[0][0], 9) by { assert t[9..14] == "curso"; }
    assert FirstHit(t, 0);
    KeywordsInOrder(t, 0);
  }

  // ---------------------------------------------------------------------------
  // Replies
  // ---------------------------------------------------------------------------

  const Robot: char := '🤖'

  /** `MENU_PRINCIPAL`; the option lines are not modelled, the title with the
      robot emoji is. */
  const MenuTitle: string := "*" + [Robot] + " IngeniaBot - Universidad 2025*"
  const MainMenuText: string := MenuTitle + "\n\n" + "_Escribe el número o tu pregunta_ 👇"

  /** The main menu carries the robot emoji. */
  lemma MenuShowsRobot()
    ensures Contains(MainMenuText, [Robot])
  {
    ConcatParts("*", [Robot], " IngeniaBot - Universidad 2025*");
    ConcatParts(MenuTitle, "\n\n", "_Escribe el número o tu pregunta_ 👇");
    ContainsTrans(MainMenuText, MenuTitle, [Robot]);
  }

  /** The static replies of the wellbeing, support and admission handlers;
      only their title line and closing line are modelled. */
  const WellbeingText: string := "🏥 *Bienestar Estudiantil*\n\n" + MenuHint
  const SupportText: string := "🔧 *Soporte Técnico*\n\n" + MenuHint
  const AdmissionText: string := "🎓 *Admisión 2025 - I*\n\n" + MenuHint

  const InvalidOptionTail: string :=
    "Las opciones disponibles son:\n\n"
    + "📚 *1* - Mis cursos\n" + "💳 *2* - Mis pagos\n" + "🏥 *3* - Bienestar estudiantil\n"
    + "🔧 *4* - Soporte técnico\n" + "🎓 *5* - Admisión\n\n"
    + "_O escribe tu pregunta y te responderé con IA_ " + [Robot]

  /** The reply to an all-digit text that is no option: it quotes the number
      and ends with the robot emoji. */
  function InvalidOptionText(n: nat): (r: string)
    ensures Contains(r, NatToString(n))
    ensures |r| > 0 && r[|r| - 1] == Robot
  {
    var lead := "❌ *Opción \"";
    var rest := "\" no válida*\n\n" + InvalidOptionTail;
    ConcatParts(lead, NatToString(n), rest);
    lead + NatToString(n) + rest
  }

  const AiHeader: string := "🤖 *IngeniaBot*\n\n"
  const FaqNote: string := "_💡 Respuesta de " + "preguntas frecuentes" + "_\n"
  const Closing: string := "\n" + MenuHint

  /** The wrapping of an AI answer: header, answer, the FAQ note exactly when
      the answer came from the FAQ table, and the menu hint. */
  function AiReply(a: AiService.Answer): (r: string)
    ensures StartsWith(r, AiHeader) && Contains(r, a.text) && EndsWith(r, Closing)
    ensures EndsWith(r, FaqNote + Closing) <==> a.source == AiService.Faq
  {
    var note := if a.source == AiService.Faq then FaqNote else "";
    var r := AiHeader + a.text + ("\n\n" + note + Closing);
    ConcatParts(AiHeader, a.text, "\n\n" + note + Closing);
    ConcatParts("\n\n", note, Closing);
    EndsWithTrans(r, "\n\n" + note + Closing, Closing);
    NoteAtEnd(a.text, note);
    r
  }

  /** The reply ends with the note exactly when the note was put in. */
  lemma NoteAtEnd(text: string, note: string)
    requires note == FaqNote || note == ""
    ensures EndsWith(AiHeader + text + ("\n\n" + note + Closing), FaqNote + Closing) <==> note == FaqNote
  {
    var r := AiHeader + text + ("\n\n" + note + Closing);
    if note == FaqNote {
      assert ("\n\n" + FaqNote + Closing)[2..] == FaqNote + Closing;
      assert EndsWith("\n\n" + note + Closing, FaqNote + Closing);
      EndsWithTrans(r, "\n\n" + note + Closing, FaqNote + Closing);
    } else {
      NoteMissing(r, text);
    }
  }

  /** Without the note, the character where the note's closing underscore
      would stand is a line break. */
  lemma NoteMissing(r: string, text: string)
    requires r == AiHeader + text + ("\n\n" + "" + Closing)
    ensures !EndsWith(r, FaqNote + Closing)
  {
    var s := FaqNote + Closing;
    var p := |r| - |Closing| - 2;
    assert r[p] == '\n' by {
      assert r[|AiHeader| + |text|..] == "\n\n" + Closing;
    }
    assert FaqNote[|FaqNote| - 2] == '_';
    if |s| <= |r| {
      assert s[|FaqNote| - 2] == '_';
      assert r[|r| - |s|..][|FaqNote| - 2] == r[p];
    }
  }

  // ---------------------------------------------------------------------------
  // procesarMensaje
  // ---------------------------------------------------------------------------

  /** What the store and the completion service do during one call: the
      course query (used by the course handler and as AI context), the payment
      query, the date formatter of the payment listing, the FAQ lookup, the
      completion service and whether saving a conversation succeeds. */
  datatype Backend = Backend(
    courses: StoreResult<seq<Course>>,
    payments: StoreResult<seq<Payments.Payment>>,
    date: int -> string,
    faq: StoreResult<Option<AiService.FaqHit>>,
    service: string -> Gemini.ApiOutcome,
    saveOk: bool)

  /** The reply, the prompts sent to the completion service and the
      conversations the AI pipeline saved. */
  datatype Handled = Handled(reply: string, prompts: seq<string>, saved: seq<Conversation>)

  /** The context the AI path builds: the student and the course list. */
  function AiContext(student: Option<Student>, courses: seq<Course>): AiService.Context {
    AiService.Context(student, Some(courses))
  }

  /** The AI path once the course query has returned `courses`: the AI
      pipeline answers the raw text and its answer is wrapped for WhatsApp.
      The note at the end tells an FAQ answer apart, and the completion
      service is asked exactly when the FAQ table had no usable hit. */
  function AskAiWith(raw: string, studentId: nat, student: Option<Student>, courses: seq<Course>, b: Backend): (h: Handled)
    ensures StartsWith(h.reply, AiHeader) && EndsWith(h.reply, Closing)
    ensures EndsWith(h.reply, FaqNote + Closing) <==> AiService.FaqUsable(b.faq)
    ensures AiService.FaqUsable(b.faq) ==> h.prompts == [] && h.saved == []
    ensures !AiService.FaqUsable(b.faq) ==> h.prompts == [AiService.BuildPrompt(raw, AiContext(student, courses))]
  {
    var run := AiService.AnswerQuestion(raw, studentId, AiContext(student, courses), b.faq, b.service, b.saveOk);
    Handled(AiReply(run.answer), run.prompts, run.saved)
  }

  /** The reply for a route: the handler the route names, called with
      what the store returns.  Only the AI path reads the raw text, and only
      it can fail: its course query is not guarded, so its error propagates. */
  function Respond(route: Route, raw: string, studentId: nat, student: Option<Student>, b: Backend): (r: Result<Handled, string>)
    ensures r.Failure? <==> route == AskAi && b.courses.Failure?
    ensures r.Success? && route != AskAi ==> r.value.prompts == [] && r.value.saved == []
    ensures route == ToCourses ==> r == Success(Handled(CourseList.HandleCourses(student, b.courses), [], []))
    ensures route == ToPayments ==> r == Success(Handled(Payments.HandlePayments(b.payments, b.date), [], []))
    ensures route == AskAi && b.courses.Success? ==> r == Success(AskAiWith(raw, studentId, student, b.courses.value, b))
  {
    match route
    case MainMenu => Success(Handled(MainMenuText, [], []))
    case ToCourses => Success(Handled(CourseList.HandleCourses(student, b.courses), [], []))
    case ToPayments => Success(Handled(Payments.HandlePayments(b.payments, b.date), [], []))
    case ToWellbeing => Success(Handled(WellbeingText, [], []))
    case ToSupport => Success(Handled(SupportText, [], []))
    case ToAdmission => Success(Handled(AdmissionText, [], []))
    case InvalidOption(n) => Success(Handled(InvalidOptionText(n), [], []))
    case AskAi =>
      match b.courses
      case Failure(e) => Failure(e)
      case Success(cs) => Success(AskAiWith(raw, studentId, student, cs, b))
  }

  /** The main menu shows the robot emoji, and the rejection of an option
      number quotes the number and ends with the robot emoji. */
  lemma RobotReplies(route: Route, raw: string, studentId: nat, student: Option<Student>, b: Backend)
    requires route == MainMenu || route.InvalidOption?
    ensures Respond(route, raw, studentId, student, b).Success?
    ensures Contains(Respond(route, raw, studentId, student, b).value.reply, [Robot])
    ensures route.InvalidOption? ==>
              Contains(Respond(route, raw, studentId, student, b).value.reply, NatToString(route.number))
  {
    if route == MainMenu {
      MenuShowsRobot();
    } else {
      var reply := InvalidOptionText(route.number);
      assert reply[|reply| - 1..] == [Robot];
      EndsWithContains(reply, [Robot]);
    }
  }

  /** `procesarMensaje(raw, studentId, student)`. */
  function Process(raw: string, studentId: nat, student: Option<Student>, b: Backend): Result<Handled, string> {
    Respond(Classify(raw), raw, studentId, student, b)
  }

  /** Outside the AI path a message and its normalized form get the same
      reply: case and surrounding blanks matter only to the AI. */
  lemma OnlyAiSeesRawText(raw: string, studentId: nat, student: Option<Student>, b: Backend)
    requires Classify(raw) != AskAi
    ensures Process(Normalize(raw), studentId, student, b) == Process(raw, studentId, student, b)
  {
    ClassifyIgnoresCaseAndPadding(raw);
    var route := Classify(raw);
    RespondIgnoresText(route, Normalize(raw), raw, studentId, student, b);
    assert Process(Normalize(raw), studentId, student, b) == Respond(route, Normalize(raw), studentId, student, b);
  }

  /** Off the AI path the reply does not read the text. */
  lemma RespondIgnoresText(route: Route, x: string, y: string, studentId: nat, student: Option<Student>, b: Backend)
    requires route != AskAi
    ensures Respond(route, x, studentId, student, b) == Respond(route, y, studentId, student, b)
  {
  }

  /** The main menu and the invalid-option rejection both show the robot
      emoji although neither comes from the AI. */
  lemma RobotOutsideAi(raw: string, studentId: nat, student: Option<Student>, b: Backend)
    requires Classify(raw) == MainMenu || Classify(raw).InvalidOption?
    ensures Process(raw, studentId, student, b).Success?
    ensures Contains(Process(raw, studentId, student, b).value.reply, [Robot])
  {
    var route := Classify(raw);
    assert Process(raw, studentId, student, b) == Respond(route, raw, studentId, student, b);
    RobotReplies(route, raw, studentId, student, b);
  }
}

=== FILE: text.dfy ===
/** The JavaScript string primitives the bot's decision logic is built from:
    `includes`, `indexOf`/`replace` with a string pattern, `trim`,
    `toLowerCase`, `/^\d+$/`, `parseInt` on a digit string, number-to-string
    conversion and truthiness of optional fields.  Strings are sequences of
    Unicode scalar values. */
module Text {
  import opened Wrappers

  // ---------------------------------------------------------------------------
  // Characters
  // ---------------------------------------------------------------------------

  /** `\d` in a JavaScript regular expression: ASCII digits only. */
  predicate IsDigit(c: char) {
    '0' <= c <= '9'
  }

  /** The ECMAScript WhiteSpace and LineTerminator code points: exactly what
      `String.prototype.trim` strips and what `\s` matches. */
  predicate IsSpace(c: char) {
    || c == '\t' || c == '\n' || c == '\U{B}' || c == '\U{C}' || c == '\r' || c == ' '
    || c == '\U{A0}' || c == '\U{1680}' || ('\U{2000}' <= c <= '\U{200A}')
    || c == '\U{2028}' || c == '\U{2029}' || c == '\U{202F}' || c == '\U{205F}'
    || c == '\U{3000}' || c == '\U{FEFF}'
  }

  /** The upper-case letters lower-casing changes here: ASCII and the
      Latin-1 letters À..Þ except ×, which covers the accented Spanish letters. */
  predicate IsUpper(c: char) {
    'A' <= c <= 'Z' || ('\U{C0}' <= c <= '\U{DE}' && c != '\U{D7}')
  }

  /** Lower-casing of one character. */
  function LowerChar(c: char): (r: char)
    ensures !IsUpper(r)
    ensures !IsUpper(c) ==> r == c
    ensures IsSpace(c) <==> IsSpace(r)
    ensures IsDigit(c) <==> IsDigit(r)
  {
    if IsUpper(c) then
      (c as int + 32) as char
    else
      c
  }

  // ---------------------------------------------------------------------------
  // toLowerCase / trim
  // ---------------------------------------------------------------------------

  /** `s.toLowerCase()`. */
  function Lower(s: string): (r: string)
    ensures |r| == |s|
    ensures forall i :: 0 <= i < |s| ==> r[i] == LowerChar(s[i])
  {
    seq(|s|, i requires 0 <= i < |s| => LowerChar(s[i]))
  }

  /** True when lower-casing leaves `s` unchanged. */
  predicate IsLowered(s: string) {
    forall i :: 0 <= i < |s| ==> !IsUpper(s[i])
  }

  lemma LowerOfLowered(s: string)
    requires IsLowered(s)
    ensures Lower(s) == s
  {
  }

  function TrimStart(s: string): (r: string)
    ensures |r| <= |s| && r == s[|s| - |r|..]
    ensures forall i :: 0 <= i < |s| - |r| ==> IsSpace(s[i])
    ensures |r| > 0 ==> !IsSpace(r[0])
  {
    if |s| > 0 && IsSpace(s[0]) then TrimStart(s[1..]) else s
  }

  function TrimEnd(s: string): (r: string)
    ensures |r| <= |s| && r == s[..|r|]
    ensures forall i :: |r| <= i < |s| ==> IsSpace(s[i])
    ensures |r| > 0 ==> !IsSpace(r[|r| - 1])
  {
    if |s| > 0 && IsSpace(s[|s| - 1]) then TrimEnd(s[..|s| - 1]) else s
  }

  /** `r` is the infix of `s` at index `a`, and everything of `s` before and
      after it is white space. */
  predicate TrimmedAt(s: string, r: string, a: nat) {
    && a + |r| <= |s| && r == s[a..a + |r|]
    && (forall i :: 0 <= i < a ==> IsSpace(s[i]))
    && (forall i :: a + |r| <= i < |s| ==> IsSpace(s[i]))
  }

  /** `s.trim()`: the infix of `s` left after cutting white space off both
      ends; it neither starts nor ends with white space, and it is empty
      exactly when `s` is all white space. */
  function Trim(s: string): (r: string)
    ensures exists a: nat :: TrimmedAt(s, r, a)
    ensures |r| <= |s|
    ensures forall c :: c in r ==> c in s
    ensures |r| > 0 ==> !IsSpace(r[0]) && !IsSpace(r[|r| - 1])
    ensures r == [] <==> forall i :: 0 <= i < |s| ==> IsSpace(s[i])
  {
    TrimParts(s);
    TrimInfix(s);
    TrimEnd(TrimStart(s))
  }

  /** Cutting the front and then the back leaves the infix that starts where
      the leading white space ends. */
  lemma {:induction false} TrimInfix(s: string)
    ensures TrimmedAt(s, TrimEnd(TrimStart(s)), |s| - |TrimStart(s)|)
  {
    var t := TrimStart(s);
    var r := TrimEnd(t);
    assert |t| <= |s| && t == s[|s| - |t|..];
    assert |r| <= |t| && r == t[..|r|];
    PrefixOfSuffix(s, t, r);
  }

  /** A prefix `r` of a suffix `t` of `s`, where the rest of `t` and the
      front of `s` are white space, is what trimming `s` keeps. */
  lemma PrefixOfSuffix(s: string, t: string, r: string)
    requires |t| <= |s| && t == s[|s| - |t|..]
    requires |r| <= |t| && r == t[..|r|]
    requires forall i :: 0 <= i < |s| - |t| ==> IsSpace(s[i])
    requires forall i :: |r| <= i < |t| ==> IsSpace(t[i])
    ensures TrimmedAt(s, r, |s| - |t|)
  {
    var d := |s| - |t|;
    forall i | d + |r| <= i < |s|
      ensures IsSpace(s[i])
    {
      assert s[i] == t[i - d];
    }
  }

  /** Cutting both ends keeps an infix of `s`, and leaves nothing exactly
      when `s` is all white space. */
  lemma TrimParts(s: string)
    ensures var r := TrimEnd(TrimStart(s));
            && (forall c :: c in r ==> c in s)
            && (r == [] <==> forall i :: 0 <= i < |s| ==> IsSpace(s[i]))
  {
    TrimKeepsChars(s);
    if TrimEnd(TrimStart(s)) == [] {
      TrimEmptyAllSpace(s);
    }
  }

  lemma TrimKeepsChars(s: string)
    ensures forall c :: c in TrimEnd(TrimStart(s)) ==> c in s
  {
    var t := TrimStart(s);
    var r := TrimEnd(t);
    var d := |s| - |t|;
    forall c | c in r ensures c in s {
      var i :| 0 <= i < |r| && r[i] == c;
      assert r[i] == t[..|r|][i] == t[i];
      assert t[i] == s[d..][i] == s[d + i];
    }
  }

  lemma TrimEmptyAllSpace(s: string)
    requires TrimEnd(TrimStart(s)) == []
    ensures forall i :: 0 <= i < |s| ==> IsSpace(s[i])
  {
    assert |TrimStart(s)| == 0;
  }

  /** Trimming a string that already neither starts nor ends with white space
      changes nothing. */
  lemma TrimOfTrimmed(s: string)
    requires |s| > 0 ==> !IsSpace(s[0]) && !IsSpace(s[|s| - 1])
    ensures Trim(s) == s
  {
  }

  /** `s.trim().length === 0`: the string is empty or all white space. */
  predicate IsBlank(s: string) {
    Trim(s) == []
  }

  lemma BlankIffAllSpace(s: string)
    ensures IsBlank(s) <==> forall i :: 0 <= i < |s| ==> IsSpace(s[i])
  {
  }

  // ---------------------------------------------------------------------------
  // includes / indexOf / replace
  // ---------------------------------------------------------------------------

  /** `pat` occurs in `s` starting at index `i`. */
  predicate Occurs(s: string, pat: string, i: int) {
    0 <= i && i + |pat| <= |s| && s[i..i + |pat|] == pat
  }

  /** `s.includes(pat)`. */
  predicate Contains(s: string, pat: string) {
    exists i :: 0 <= i <= |s| - |pat| && Occurs(s, pat, i)
  }

  predicate StartsWith(s: string, prefix: string) {
    |prefix| <= |s| && s[..|prefix|] == prefix
  }

  predicate EndsWith(s: string, suffix: string) {
    |suffix| <= |s| && s[|s| - |suffix|..] == suffix
  }

  lemma OccursInTail(s: string, pat: string, k: int)
    requires |s| > 0 && k >= 0
    ensures Occurs(s[1..], pat, k) <==> Occurs(s, pat, k + 1)
  {
    if 0 <= k && k + |pat| <= |s| - 1 {
      assert s[1..][k..k + |pat|] == s[k + 1..k + 1 + |pat|];
    }
  }

  /** `s.indexOf(pat)`: the leftmost occurrence, absent exactly when `s` does
      not contain `pat`. */
  function IndexOf(s: string, pat: string): (r: Option<nat>)
    ensures r.Some? ==> Occurs(s, pat, r.value)
    ensures r.Some? ==> forall j :: 0 <= j < r.value ==> !Occurs(s, pat, j)
    ensures r.None? <==> !Contains(s, pat)
    decreases |s|
  {
    if StartsWith(s, pat) then
      assert Occurs(s, pat, 0);
      Some(0)
    else if |s| == 0 then
      None
    else
      var rest := IndexOf(s[1..], pat);
      assert !Occurs(s, pat, 0);
      assert forall k :: k >= 0 ==> (Occurs(s[1..], pat, k) <==> Occurs(s, pat, k + 1)) by {
        forall k | k >= 0 ensures Occurs(s[1..], pat, k) <==> Occurs(s, pat, k + 1) {
          OccursInTail(s, pat, k);
        }
      }
      if rest.None? then
        assert forall i :: 0 <= i <= |s| - |pat| ==> !Occurs(s, pat, i) by {
          forall i | 0 <= i <= |s| - |pat| ensures !Occurs(s, pat, i) {
            if i > 0 { assert !Occurs(s[1..], pat, i - 1); }
          }
        }
        None
      else
        assert forall j :: 0 < j < rest.value + 1 ==> !Occurs(s, pat, j) by {
          forall j | 0 < j < rest.value + 1 ensures !Occurs(s, pat, j) {
            assert !Occurs(s[1..], pat, j - 1);
          }
        }
        Some(rest.value + 1)
  }

  /** `s.replace(pat, rep)` with a string pattern: only the first occurrence
      is replaced; without an occurrence `s` is returned unchanged. */
  function ReplaceFirst(s: string, pat: string, rep: string): (r: string)
    ensures !Contains(s, pat) ==> r == s
    ensures Contains(s, pat) ==>
              exists i :: Occurs(s, pat, i)
                       && (forall j :: 0 <= j < i ==> !Occurs(s, pat, j))
                       && r == s[..i] + rep + s[i + |pat|..]
  {
    match IndexOf(s, pat)
    case None => s
    case Some(i) => s[..i] + rep + s[i + |pat|..]
  }

  /** A string containing `pat` contains every prefix of `pat`. */
  lemma ContainsPrefix(s: string, pat: string, n: nat)
    requires Contains(s, pat) && n <= |pat|
    ensures Contains(s, pat[..n])
  {
    var i :| 0 <= i <= |s| - |pat| && Occurs(s, pat, i);
    assert s[i..i + n] == s[i..i + |pat|][..n];
    assert Occurs(s, pat[..n], i);
  }

  /** An occurrence in a part is an occurrence in the whole. */
  lemma ContainsInLeft(a: string, b: string, pat: string)
    requires Contains(a, pat)
    ensures Contains(a + b, pat)
  {
    var i :| 0 <= i <= |a| - |pat| && Occurs(a, pat, i);
    assert (a + b)[i..i + |pat|] == a[i..i + |pat|];
    assert Occurs(a + b, pat, i);
  }

  /** An occurrence in the middle part is an occurrence in the whole, shifted
      by the length of the front part. */
  lemma OccursInMiddle(a: string, b: string, c: string, pat: string, i: int)
    requires Occurs(b, pat, i)
    ensures Occurs(a + b + c, pat, |a| + i)
  {
    assert (a + b + c)[|a| + i..|a| + i + |pat|] == b[i..i + |pat|];
  }

  /** Both parts of a concatenation occur in it. */
  lemma ContainsEnds(a: string, b: string)
    ensures Contains(a + b, a) && Contains(a + b, b)
  {
    assert (a + b)[..|a|] == a && (a + b)[|a|..] == b;
    assert Occurs(a + b, a, 0) && Occurs(a + b, b, |a|);
  }

  lemma ContainsInRight(a: string, b: string, pat: string)
    requires Contains(b, pat)
    ensures Contains(a + b, pat)
  {
    var i :| 0 <= i <= |b| - |pat| && Occurs(b, pat, i);
    assert (a + b)[|a| + i..|a| + i + |pat|] == b[i..i + |pat|];
    assert Occurs(a + b, pat, |a| + i);
  }

  /** Containment is transitive. */
  lemma ContainsTrans(s: string, m: string, pat: string)
    requires Contains(s, m) && Contains(m, pat)
    ensures Contains(s, pat)
  {
    var i :| 0 <= i <= |s| - |m| && Occurs(s, m, i);
    var j :| 0 <= j <= |m| - |pat| && Occurs(m, pat, j);
    forall t | 0 <= t < |pat| ensures s[i + j + t] == pat[t] {
      assert s[i + j + t] == s[i..i + |m|][j + t] == m[j + t];
      assert m[j + t] == m[j..j + |pat|][t];
    }
    assert s[i + j..i + j + |pat|] == pat;
    assert Occurs(s, pat, i + j);
  }

  /** Each part of a three-part concatenation is contained in it, the first
      is a prefix and the last a suffix. */
  lemma ConcatParts(a: string, b: string, c: string)
    ensures Contains(a + b + c, a) && Contains(a + b + c, b) && Contains(a + b + c, c)
    ensures StartsWith(a + b + c, a) && EndsWith(a + b + c, c)
  {
    var s := a + b + c;
    assert s[..|a|] == a;
    assert s[|a|..|a| + |b|] == b;
    assert s[|a| + |b|..] == c;
    assert Occurs(s, a, 0) && Occurs(s, b, |a|) && Occurs(s, c, |a| + |b|);
  }

  /** A suffix of a suffix is a suffix. */
  lemma EndsWithTrans(s: string, m: string, suffix: string)
    requires EndsWith(s, m) && EndsWith(m, suffix)
    ensures EndsWith(s, suffix)
  {
    assert s[|s| - |suffix|..] == s[|s| - |m|..][|m| - |suffix|..];
  }

  /** A suffix occurs in the text. */
  lemma EndsWithContains(s: string, suffix: string)
    requires EndsWith(s, suffix)
    ensures Contains(s, suffix)
  {
    assert Occurs(s, suffix, |s| - |suffix|);
  }

  lemma ContainsSelf(s: string)
    ensures Contains(s, s)
  {
    assert Occurs(s, s, 0);
  }

  lemma StartsWithSelf(a: string, b: string)
    ensures StartsWith(a + b, a)
  {
    assert (a + b)[..|a|] == a;
  }

  lemma EndsWithSelf(a: string, b: string)
    ensures EndsWith(a + b, b)
  {
    assert (a + b)[|a + b| - |b|..] == b;
  }

  /** A prefix of a prefix is a prefix. */
  lemma StartsWithTrans(s: string, m: string, p: string)
    requires StartsWith(s, m) && StartsWith(m, p)
    ensures StartsWith(s, p)
  {
    assert s[..|p|] == s[..|m|][..|p|];
  }

  /** The front part of a prefix is a prefix. */
  lemma StartsWithFront(s: string, a: string, b: string)
    requires StartsWith(s, a + b)
    ensures StartsWith(s, a)
  {
    StartsWithSelf(a, b);
    StartsWithTrans(s, a + b, a);
  }

  /** Dropping a leading part of a prefix from a string leaves the rest of
      the prefix as a prefix of the remainder. */
  lemma StartsWithDrop(s: string, a: string, b: string)
    requires StartsWith(s, a + b)
    ensures |a| <= |s| && StartsWith(s[|a|..], b)
  {
    assert s[..|a + b|] == a + b;
    assert s[|a|..][..|b|] == s[..|a + b|][|a|..];
  }

  /** The same, for a prefix in three parts. */
  lemma StartsWithDropFirst(s: string, a: string, b: string, c: string)
    requires StartsWith(s, a + b + c)
    ensures |a| <= |s| && StartsWith(s[|a|..], b + c)
  {
    assert a + b + c == a + (b + c);
    StartsWithDrop(s, a, b + c);
  }

  /** Two strings that disagree at a common position are not prefixes of
      one another. */
  lemma StartsWithMismatch(s: string, p: string, i: nat)
    requires i < |s| && i < |p| && s[i] != p[i]
    ensures !StartsWith(s, p)
  {
    if |p| <= |s| {
      assert s[..|p|][i] == s[i];
    }
  }

  /** A string that contains a character `c` nowhere does not contain any
      pattern that has `c` in it. */
  lemma MissingCharExcludes(s: string, pat: string, c: char)
    requires c in pat && c !in s
    ensures !Contains(s, pat)
  {
    var k :| 0 <= k < |pat| && pat[k] == c;
    forall i | 0 <= i <= |s| - |pat| ensures !Occurs(s, pat, i) {
      assert s[i..i + |pat|][k] == s[i + k] != c;
    }
  }

  /** `pat` is absent from `a + [c] + b` when its first character is `c`, `c`
      occurs in neither `a` nor `b`, and `pat` does not start at `c` itself. */
  lemma AnchoredExcludes(a: string, c: char, b: string, pat: string)
    requires |pat| > 0 && c == pat[0]
    requires c !in a && c !in b
    requires !StartsWith([c] + b, pat)
    ensures !Contains(a + [c] + b, pat)
  {
    var s := a + [c] + b;
    forall i | 0 <= i <= |s| - |pat| ensures !Occurs(s, pat, i) {
      assert s[i..i + |pat|][0] == s[i];
      if i < |a| {
        assert s[i] == a[i];
      } else if i > |a| {
        assert s[i] == b[i - |a| - 1];
      } else {
        var t := [c] + b;
        forall j | 0 <= j < |pat| ensures s[i..i + |pat|][j] == t[..|pat|][j] {
          assert s[i + j] == t[j];
        }
        assert s[i..i + |pat|] == t[..|pat|];
      }
    }
  }

  // ---------------------------------------------------------------------------
  // Keyword lists (`list.some(w => s.includes(w))`, `list.filter(...).length`)
  // ---------------------------------------------------------------------------

  predicate ContainsAny(s: string, words: seq<string>) {
    exists k :: 0 <= k < |words| && Contains(s, words[k])
  }

  /** How many entries of `words` occur in `s`. */
  function CountContained(s: string, words: seq<string>): (n: nat)
    ensures n <= |words|
    ensures n == 0 <==> !ContainsAny(s, words)
  {
    if words == [] then 0
    else
      var rest := CountContained(s, words[1..]);
      assert ContainsAny(s, words[1..]) ==> ContainsAny(s, words) by {
        if ContainsAny(s, words[1..]) {
          var k :| 0 <= k < |words[1..]| && Contains(s, words[1..][k]);
          assert words[1..][k] == words[k + 1];
        }
      }
      (if Contains(s, words[0]) then 1 else 0) + rest
  }

  predicate NoDuplicates<T(==)>(xs: seq<T>) {
    forall i, j :: 0 <= i < j < |xs| ==> xs[i] != xs[j]
  }

  /** For a list without repeated entries, the count is the number of
      DISTINCT words present. */
  lemma {:induction false} CountIsDistinctPresent(s: string, words: seq<string>)
    requires NoDuplicates(words)
    ensures CountContained(s, words) == |set w | w in words && Contains(s, w)|
  {
    if words == [] {
      assert (set w | w in words && Contains(s, w)) == {};
    } else {
      var tail := words[1..];
      assert NoDuplicates(tail) by {
        forall i, j | 0 <= i < j < |tail| ensures tail[i] != tail[j] {
          assert tail[i] == words[i + 1] && tail[j] == words[j + 1];
        }
      }
      CountIsDistinctPresent(s, tail);
      var all := set w | w in words && Contains(s, w);
      var rest := set w | w in tail && Contains(s, w);
      assert words[0] !in tail by {
        forall j | 0 <= j < |tail| ensures tail[j] != words[0] {
          assert tail[j] == words[j + 1];
        }
      }
      if Contains(s, words[0]) {
        assert all == rest + {words[0]};
      } else {
        assert all == rest;
      }
    }
  }

  // ---------------------------------------------------------------------------
  // /^\d+$/, parseInt, number-to-string
  // ---------------------------------------------------------------------------

  /** `/^\d+$/.test(s)`. */
  predicate IsDigits(s: string) {
    |s| > 0 && forall i :: 0 <= i < |s| ==> IsDigit(s[i])
  }

  function DigitValue(c: char): nat
    requires IsDigit(c)
  {
    c as int - '0' as int
  }

  function DigitChar(d: nat): (c: char)
    requires d < 10
    ensures IsDigit(c) && DigitValue(c) == d
  {
    ('0' as int + d) as char
  }

  /** `parseInt(s)` of a string of decimal digits: leading zeros are ignored. */
  function ParseDecimal(s: string): nat
    requires forall i :: 0 <= i < |s| ==> IsDigit(s[i])
  {
    if s == [] then 0 else ParseDecimal(s[..|s| - 1]) * 10 + DigitValue(s[|s| - 1])
  }

  /** The decimal notation of `n`, without leading zeros. */
  function NatToString(n: nat): (r: string)
    ensures IsDigits(r)
    ensures |r| > 1 ==> r[0] != '0'
  {
    if n < 10 then [DigitChar(n)] else NatToString(n / 10) + [DigitChar(n % 10)]
  }

  /** Reading back the decimal notation of `n` gives `n`. */
  lemma {:induction false} ParseNatToString(n: nat)
    ensures ParseDecimal(NatToString(n)) == n
  {
    var r := NatToString(n);
    if n < 10 {
      assert r[..0] == [];
    } else {
      ParseNatToString(n / 10);
      assert r[..|r| - 1] == NatToString(n / 10);
    }
  }

  /** Template-literal conversion of an integer. */
  function IntToString(i: int): (r: string)
    ensures i >= 0 ==> r == NatToString(i)
    ensures i < 0 ==> r == "-" + NatToString(-i)
  {
    if i < 0 then "-" + NatToString(-i) else NatToString(i)
  }

  // ---------------------------------------------------------------------------
  // Truthiness of optional row fields
  // ---------------------------------------------------------------------------

  /** A nullable text column is truthy when present and non-empty. */
  predicate Truthy(o: Option<string>) {
    o.Some? && o.value != ""
  }

  /** A nullable integer column is truthy when present and non-zero. */
  predicate TruthyInt(o: Option<int>) {
    o.Some? && o.value != 0
  }

  /** `${x}` of a nullable integer column: `null` prints as "null". */
  function ShowNullableInt(o: Option<int>): string {
    match o
    case Some(v) => IntToString(v)
    case None => "null"
  }

  /** Concatenation of a list of text pieces. */
  function Concat(parts: seq<string>): (r: string)
    ensures parts == [] ==> r == []
  {
    if parts == [] then [] else parts[0] + Concat(parts[1..])
  }

  /** Every piece occurs in the concatenation. */
  lemma {:induction false} ConcatContains(parts: seq<string>, k: nat)
    requires k < |parts|
    ensures Contains(Concat(parts), parts[k])
  {
    var rest := Concat(parts[1..]);
    assert Concat(parts) == parts[0] + rest;
    if k == 0 {
      ContainsSelf(parts[0]);
      ContainsInLeft(parts[0], rest, parts[0]);
    } else {
      ConcatContains(parts[1..], k - 1);
      assert parts[1..][k - 1] == parts[k];
      ContainsInRight(parts[0], rest, parts[k]);
    }
  }
}

=== FILE: timeouts.dfy ===
/** The inactivity timeout manager of src/services/timeoutService.js.  The
    manager keeps one entry per phone number with the timer armed for it;
    timers are abstract handles, the clock and the hour of the day are
    parameters, and a timer's callback is split into its two steps (send the
    farewell, then delete the phone's entry) because other calls can run in
    between. */
module Timeouts {
  import opened Wrappers
  import opened Text
  import opened Records
  import Inbound

  const MinuteMs: int := 60000

  /** `TIEMPO_INACTIVIDAD` before any configuration: ten minutes. */
  const DefaultDelay: real := 10.0 * 60000.0

  /** The longest delay a Node.js timer accepts, in milliseconds (2^31 - 1). */
  const TimeoutMax: int := 0x7FFF_FFFF

  /** An entry of the map: the timer armed for the phone and when. */
  datatype Entry = Entry(timer: nat, startedAt: int)

  /** A scheduled timer: the phone its callback says goodbye to, and when it is due. */
  datatype Timer = Timer(phone: string, due: real)

  /** The manager: its entries by phone, the configured delay, the timers
      still scheduled, the phones whose callbacks have sent the farewell and
      not yet deleted the entry, and the next timer handle. */
  datatype Manager = Manager(
    entries: map<string, Entry>,
    delay: real,
    live: map<nat, Timer>,
    firing: multiset<string>,
    next: nat)

  /** The manager as the constructor leaves it. */
  function Fresh(): (m: Manager)
    ensures m.entries == map[] && m.live == map[] && m.delay == DefaultDelay
  {
    Manager(map[], DefaultDelay, map[], multiset{}, 0)
  }

  /** Between calls, entries and scheduled timers correspond one to one:
      every entry's timer is scheduled for that phone, and every scheduled
      timer is the timer of its phone's entry. */
  predicate Tracked(m: Manager) {
    && (forall p :: p in m.entries ==> m.entries[p].timer in m.live && m.live[m.entries[p].timer].phone == p)
    && (forall t :: t in m.live ==> m.live[t].phone in m.entries && m.entries[m.live[t].phone].timer == t)
    && (forall t :: t in m.live ==> t < m.next)
  }

  /** What holds at every moment, callbacks in flight included: each entry
      has its own handle, below `next`; an entry's timer is still scheduled
      for its phone, or the callback for its phone is between its two steps;
      and every scheduled handle is below `next`. */
  predicate Accounted(m: Manager) {
    && (forall p :: p in m.entries ==> m.entries[p].timer < m.next)
    && (forall p, q :: p in m.entries && q in m.entries && p != q ==> m.entries[p].timer != m.entries[q].timer)
    && (forall p :: p in m.entries ==>
          (m.entries[p].timer in m.live && m.live[m.entries[p].timer].phone == p) || p in m.firing)
    && (forall t :: t in m.live ==> t < m.next)
  }

  lemma TrackedIsAccounted(m: Manager)
    requires Tracked(m)
    ensures Accounted(m)
  {
  }

  // ---------------------------------------------------------------------------
  // Operations
  // ---------------------------------------------------------------------------

  /** `setTiempoInactividad(minutes)`: any number of minutes, fractional,
      zero or negative ones included, is stored as milliseconds; nothing
      else changes and timers already armed keep their due time. */
  function SetInactivity(m: Manager, minutes: real): (r: Manager)
    ensures r.delay / 60000.0 == minutes
    ensures r.entries == m.entries && r.live == m.live && r.firing == m.firing && r.next == m.next
  {
    m.(delay := minutes * 60000.0)
  }

  /** The delay a Node.js timer actually waits: a delay from 1 ms up to
      `TimeoutMax` as given, anything else (shorter, zero, negative or
      longer) replaced by 1 ms. */
  function TimerDelay(delay: real): (d: real)
    ensures 1.0 <= d <= TimeoutMax as real
    ensures d == delay <==> 1.0 <= delay <= TimeoutMax as real
    ensures d != delay ==> d == 1.0
  {
    if 1.0 <= delay <= TimeoutMax as real then delay else 1.0
  }

  /** `cancelarTimeout(phone)`: clears and removes the phone's entry; without
      one nothing happens. */
  function Cancel(m: Manager, phone: string): (r: Manager)
    ensures phone !in r.entries
    ensures forall q :: q != phone ==> (q in r.entries <==> q in m.entries)
    ensures forall q :: q != phone && q in m.entries ==> r.entries[q] == m.entries[q]
    ensures phone !in m.entries ==> r == m
    ensures phone in m.entries ==> r.live == m.live - {m.entries[phone].timer}
    ensures r.delay == m.delay && r.firing == m.firing && r.next == m.next
  {
    if phone in m.entries then
      m.(entries := m.entries - {phone}, live := m.live - {m.entries[phone].timer})
    else
      m
  }

  /** Cancelling twice is cancelling once. */
  lemma CancelIdempotent(m: Manager, phone: string)
    ensures Cancel(Cancel(m, phone), phone) == Cancel(m, phone)
  {
  }

  /** `iniciarTimeout(phone)` at time `now`: any timer of the phone is
      cleared first, then a fresh timer due one delay later is scheduled and
      recorded with its start time.  The timer is due after the delay the
      timer facility accepts, not necessarily the configured one. */
  function Arm(m: Manager, phone: string, now: int): (r: Manager)
    ensures phone in r.entries && r.entries[phone] == Entry(m.next, now)
    ensures m.next in r.live && r.live[m.next].phone == phone
    ensures 1.0 <= m.delay <= TimeoutMax as real ==> r.live[m.next].due == now as real + m.delay
    ensures !(1.0 <= m.delay <= TimeoutMax as real) ==> r.live[m.next].due == now as real + 1.0
    ensures phone in m.entries ==> m.entries[phone].timer !in r.live || m.entries[phone].timer == m.next
    ensures forall q :: q != phone ==> (q in r.entries <==> q in m.entries)
    ensures forall q :: q != phone && q in m.entries ==> r.entries[q] == m.entries[q]
    ensures r.delay == m.delay && r.next == m.next + 1 && r.firing == m.firing
    // the phone's old timer goes, the new one comes, and every other timer stays
    ensures r.live == Cancel(m, phone).live[m.next := Timer(phone, now as real + TimerDelay(m.delay))]
  {
    var c := Cancel(m, phone);
    c.(entries := c.entries[phone := Entry(c.next, now)],
       live := c.live[c.next := Timer(phone, now as real + TimerDelay(c.delay))],
       next := c.next + 1)
  }

  /** Half a minute is kept as is, and ten minutes too; a zero delay and one
      of 25 days (beyond `TimeoutMax`) both fire after 1 ms. */
  lemma ArmedDelays(m: Manager, phone: string, now: int)
    ensures Arm(SetInactivity(m, 0.5), phone, now).live[m.next].due == now as real + 30000.0
    ensures Arm(SetInactivity(m, 10.0), phone, now).live[m.next].due == now as real + 600000.0
    ensures Arm(SetInactivity(m, 0.0), phone, now).live[m.next].due == now as real + 1.0
    ensures Arm(SetInactivity(m, 36000.0), phone, now).live[m.next].due == now as real + 1.0
  {
  }

  /** `limpiarTodos`: clears the timer of every entry and empties the map. */
  function ClearAll(m: Manager): (r: Manager)
    ensures r.entries == map[]
    ensures forall t :: t in r.live <==> t in m.live && forall p :: p in m.entries ==> m.entries[p].timer != t
    ensures m.entries == map[] ==> r == m
    ensures r.delay == m.delay && r.firing == m.firing && r.next == m.next
  {
    var cleared := set p | p in m.entries :: m.entries[p].timer;
    m.(entries := map[], live := m.live - cleared)
  }

  /** `tieneTimeoutActivo(phone)`. */
  predicate HasActive(m: Manager, phone: string) {
    phone in m.entries
  }

  /** Arming gives the phone an active timeout, cancelling and clearing take
      it away, and no other phone's state changes. */
  lemma ActiveAfter(m: Manager, phone: string, q: string, now: int)
    ensures HasActive(Arm(m, phone, now), phone)
    ensures !HasActive(Cancel(m, phone), phone) && !HasActive(ClearAll(m), q)
    ensures q != phone ==> (HasActive(Arm(m, phone, now), q) <==> HasActive(m, q))
    ensures q != phone ==> (HasActive(Cancel(m, phone), q) <==> HasActive(m, q))
  {
  }

  /** What `getInfoTimeout` reports. */
  datatype Info = Info(startedAt: int, remainingMs: real, remainingMin: int)

  /** `getInfoTimeout(phone)` at time `now`: nothing without an entry;
      otherwise the time left is the delay in force now minus the time since
      the entry was armed (negative once it is overdue), and the minutes are
      its floor in minutes. */
  function InfoAt(m: Manager, phone: string, now: int): (r: Option<Info>)
    ensures r.None? <==> phone !in m.entries
    ensures r.Some? ==>
              && r.value.startedAt == m.entries[phone].startedAt
              && r.value.remainingMs + (now - m.entries[phone].startedAt) as real == m.delay
              && (r.value.remainingMin * MinuteMs) as real <= r.value.remainingMs
              && r.value.remainingMs < ((r.value.remainingMin + 1) * MinuteMs) as real
  {
    if phone !in m.entries then None
    else
      var e := m.entries[phone];
      var remaining := m.delay - (now - e.startedAt) as real;
      Some(Info(e.startedAt, remaining, (remaining / 60000.0).Floor))
  }

  /** What `getEstadisticas` reports; the phones are a set here. */
  datatype Stats = Stats(active: nat, delayMin: real, phones: set<string>)

  function StatsOf(m: Manager): (r: Stats)
    ensures r.phones == m.entries.Keys && r.active == |m.entries.Keys|
    ensures r.delayMin * 60000.0 == m.delay
  {
    Stats(|m.entries.Keys|, m.delay / 60000.0, m.entries.Keys)
  }

  // ---------------------------------------------------------------------------
  // A timer's callback, in its two steps
  // ---------------------------------------------------------------------------

  /** The timer fires and its callback sends the farewell: the timer is no
      longer scheduled and the phone awaits the deletion of its entry. */
  function FireSend(m: Manager, t: nat): (r: Manager)
    requires t in m.live
    ensures t !in r.live && r.live == m.live - {t}
    ensures r.firing == m.firing + multiset{m.live[t].phone}
    ensures r.entries == m.entries && r.delay == m.delay && r.next == m.next
  {
    m.(live := m.live - {t}, firing := m.firing + multiset{m.live[t].phone})
  }

  /** After the farewell, the callback deletes the phone's entry by key,
      whichever entry it is by then. */
  function FireDelete(m: Manager, phone: string): (r: Manager)
    requires phone in m.firing
    ensures phone !in r.entries
    ensures forall q :: q != phone ==> (q in r.entries <==> q in m.entries)
    ensures r.live == m.live && r.firing == m.firing - multiset{phone}
    ensures r.entries == m.entries - {phone} && r.delay == m.delay && r.next == m.next
  {
    m.(entries := m.entries - {phone}, firing := m.firing - multiset{phone})
  }

  // ---------------------------------------------------------------------------
  // Invariants
  // ---------------------------------------------------------------------------

  /** Between callbacks, every call keeps entries and timers in step. */
  lemma TrackedPreserved(m: Manager, phone: string, now: int, minutes: real)
    requires Tracked(m)
    ensures Tracked(Arm(m, phone, now))
    ensures Tracked(Cancel(m, phone))
    ensures Tracked(ClearAll(m))
    ensures Tracked(SetInactivity(m, minutes))
  {
    CancelTracked(m, phone);
    ArmTracked(m, phone, now);
    ClearAllTracked(m);
  }

  lemma CancelTracked(m: Manager, phone: string)
    requires Tracked(m)
    ensures Tracked(Cancel(m, phone))
  {
    var c := Cancel(m, phone);
    forall t | t in c.live ensures c.live[t].phone in c.entries && c.entries[c.live[t].phone].timer == t {
      assert m.live[t].phone in m.entries;
    }
  }

  lemma ArmTracked(m: Manager, phone: string, now: int)
    requires Tracked(m)
    ensures Tracked(Arm(m, phone, now))
  {
    var c := Cancel(m, phone);
    CancelTracked(m, phone);
    var a := Arm(m, phone, now);
    forall p | p in a.entries ensures a.entries[p].timer in a.live && a.live[a.entries[p].timer].phone == p {
      if p != phone {
        assert c.entries[p].timer < c.next;
      }
    }
  }

  /** Clearing every entry also unschedules every timer. */
  lemma ClearAllTracked(m: Manager)
    requires Tracked(m)
    ensures ClearAll(m).live == map[]
  {
    var z := ClearAll(m);
    forall t | t in m.live ensures t !in z.live {
      assert m.entries[m.live[t].phone].timer == t;
    }
  }

  /** With callbacks in flight, cancelling keeps each entry's timer either
      scheduled or being fired. */
  lemma CancelAccounted(m: Manager, phone: string)
    requires Accounted(m)
    ensures Accounted(Cancel(m, phone))
  {
    var c := Cancel(m, phone);
    forall p | p in c.entries
      ensures (c.entries[p].timer in c.live && c.live[c.entries[p].timer].phone == p) || p in c.firing
    {
      if phone in m.entries {
        assert m.entries[p].timer != m.entries[phone].timer;
      }
    }
  }

  /** Arming keeps each entry's timer either scheduled or being fired. */
  lemma ArmAccounted(m: Manager, phone: string, now: int)
    requires Accounted(m)
    ensures Accounted(Arm(m, phone, now))
  {
    var c := Cancel(m, phone);
    CancelAccounted(m, phone);
    var a := Arm(m, phone, now);
    forall p | p in a.entries ensures a.entries[p].timer < a.next {
      if p != phone {
        assert a.entries[p] == c.entries[p];
      }
    }
    forall p, q | p in a.entries && q in a.entries && p != q ensures a.entries[p].timer != a.entries[q].timer {
      if p == phone {
        assert a.entries[q] == c.entries[q];
      } else if q == phone {
        assert a.entries[p] == c.entries[p];
      } else {
        assert a.entries[p] == c.entries[p] && a.entries[q] == c.entries[q];
      }
    }
    forall p | p in a.entries && p != phone
      ensures (a.entries[p].timer in a.live && a.live[a.entries[p].timer].phone == p) || p in a.firing
    {
      assert a.entries[p] == c.entries[p] && c.entries[p].timer < c.next;
    }
  }

  /** A timer firing moves its phone to the callbacks in flight, so the
      entry it belonged to stays accounted for. */
  lemma FireSendAccounted(m: Manager, t: nat)
    requires Accounted(m) && t in m.live
    ensures Accounted(FireSend(m, t))
  {
    var f := FireSend(m, t);
    forall p | p in f.entries
      ensures (f.entries[p].timer in f.live && f.live[f.entries[p].timer].phone == p) || p in f.firing
    {
      assert m.firing <= f.firing;
    }
  }

  /** The deletion step removes the entry of its own phone only. */
  lemma FireDeleteAccounted(m: Manager, phone: string)
    requires Accounted(m) && phone in m.firing
    ensures Accounted(FireDelete(m, phone))
  {
    var d := FireDelete(m, phone);
    forall p | p in d.entries
      ensures (d.entries[p].timer in d.live && d.live[d.entries[p].timer].phone == p) || p in d.firing
    {
      assert (m.firing - multiset{phone})[p] == m.firing[p];
    }
  }

  lemma ClearAllAccounted(m: Manager, minutes: real)
    requires Accounted(m)
    ensures Accounted(ClearAll(m)) && Accounted(SetInactivity(m, minutes))
  {
  }

  /** Across the gap the one-to-one correspondence is lost for good: a
      user who writes while the farewell of an expired timer is being sent is
      armed again, the callback's deletion then removes that new entry, and
      the new timer stays scheduled with no entry, out of reach of
      `cancelarTimeout`. */
  lemma OrphanAfterRearm(m: Manager, t: nat, now: int)
    requires Tracked(m) && t in m.live
    ensures var p := m.live[t].phone;
            var d := FireDelete(Arm(FireSend(m, t), p, now), p);
            && m.next in d.live && d.live[m.next].phone == p
            && p !in d.entries
            && Cancel(d, p) == d
            && !Tracked(d)
  {
  }

  // ---------------------------------------------------------------------------
  // The farewell
  // ---------------------------------------------------------------------------

  const MorningText: string :=
    "☀️ *¡Buenos días!*\n\n"
    + "Veo que has estado inactivo un rato. ¡Que tengas un excelente día!\n\n"
    + "Si necesitas ayuda, ¡escríbeme cuando quieras! 😊\n\n"
    + "_Escribe \"hola\" para continuar_"
  const AfternoonText: string :=
    "🌤️ *¡Buenas tardes!*\n\n"
    + "Gracias por usar IngeniaBot. Espero haberte ayudado.\n\n"
    + "¡Estoy aquí cuando me necesites! 💙\n\n"
    + "_Escribe \"menú\" para volver_"
  const NightText: string :=
    "🌙 *¡Buenas noches!*\n\n"
    + "Ha pasado un tiempo desde tu última consulta. ¡Que descanses bien!\n\n"
    + "Escríbeme mañana si necesitas algo. 😴\n\n"
    + "_Siempre disponible para ti_"

  /** `generarMensajeDespedida` at local hour `hour`: morning from 6 up to
      12, afternoon from 12 up to 18, night for every other hour, the small
      hours included. */
  function Farewell(hour: int): (r: string)
    ensures r == MorningText <==> 6 <= hour < 12
    ensures r == AfternoonText <==> 12 <= hour < 18
    ensures r == NightText <==> !(6 <= hour < 18)
  {
    FarewellsDiffer();
    if 6 <= hour < 12 then MorningText
    else if 12 <= hour < 18 then AfternoonText
    else NightText
  }

  lemma FarewellsDiffer()
    ensures MorningText != AfternoonText && AfternoonText != NightText && MorningText != NightText
  {
    assert MorningText[0] != AfternoonText[0];
    assert AfternoonText[0] != NightText[0];
    assert MorningText[0] != NightText[0];
  }

  /** The inbound text a farewell is logged under. */
  const TimeoutMarker: string := "[TIMEOUT]"

  /** The chat a farewell goes to. */
  function ChatOf(phone: string): string {
    phone + Inbound.UserSuffix
  }

  /** The chat of a phone leads back to the phone. */
  lemma ChatOfRoundTrip(phone: string)
    requires '@' !in phone
    ensures Inbound.PhoneOf(ChatOf(phone)) == phone
  {
    Inbound.PhoneOfUserChat(phone);
  }

  /** `enviarMensajeDespedida(phone)` at hour `hour`: `sendOk` says whether
      sending succeeds, `lookup` what the student lookup does and `saveOk`
      whether saving the conversation succeeds.  It never throws: a failed
      send ends it, a failed lookup is caught, and the insert into the
      timeout log that follows the save always throws and is caught. */
  function SendFarewell(phone: string, hour: int, sendOk: bool,
                        lookup: StoreResult<Option<Student>>, saveOk: bool): (es: seq<Inbound.Effect>)
    ensures !sendOk <==> es == []
    ensures sendOk ==> es[0] == Inbound.Sent(ChatOf(phone), Farewell(hour))
    ensures |es| <= 2
    ensures |es| == 2 <==> sendOk && lookup.Success? && lookup.value.Some? && saveOk
    ensures |es| == 2 ==>
              es[1] == Inbound.Saved(Conversation(lookup.value.value.id, TimeoutMarker, Farewell(hour), false))
  {
    if !sendOk then []
    else
      var text := Farewell(hour);
      var sent := [Inbound.Sent(ChatOf(phone), text)];
      match lookup
      case Success(Some(s)) =>
        if saveOk then sent + [Inbound.Saved(Conversation(s.id, TimeoutMarker, text, false))] else sent
      case _ => sent
  }
}

=== FILE: wrappers.dfy ===
/** Failure-compatible wrappers shared by every component of the bot model:
    `Option` stands for JavaScript's `null`/`undefined`-or-value, and `Result`
    for a call that either returns or throws an error with a message. */
module Wrappers {

  datatype Option<+T> = None | Some(value: T) {

    /** The value, or `default` when absent. */
    function GetOr(default: T): T {
      match this
      case Some(v) => v
      case None => default
    }
  }

  datatype Result<+T, +E> = Success(value: T) | Failure(error: E) {

    predicate IsFailure() {
      Failure?
    }

    function PropagateFailure<U>(): Result<U, E>
      requires Failure?
    {
      Failure(error)
    }

    function Extract(): T
      requires Success?
    {
      value
    }
  }
}
